=== FILE: README.md ===
# A Dafny model of the tilc front end

This project models the core of tilc, a compiler written in Rust, and proves
properties of the model. The main part is the token front end, which has four
stages that compose:

1. **Scanner.** `Lexer::char_to_token` cuts source text into primitive tokens,
   each a kind plus a length (module `Lexer`).
2. **Reader.** `TokenReader::next_token` does three things (module `TokenReader`):
   - it skips whitespace and reports whether any was skipped;
   - it turns lengths into byte spans;
   - it maps primitive kinds to AST kinds, interning identifiers on the way.
3. **Tree builder.** `TokenTreesReader` nests the reader's tokens into
   delimiter trees (module `TokenTrees`). Each leaf records the spacing that
   follows it.
4. **Cursor and parser.** `TokenCursor::step` flattens the trees again with an
   explicit stack (module `TokenStreams`). The parser's `step`, `eat`,
   `expect` and `look_ahead` sit on top of it (module `Parsers`).

The headline result is `RoundTrip.CursorReplaysReader`. It takes reader output
whose delimiters are balanced and in which no token glues onto the token
right before it. This is a condition on the input, not on `glueable` as a
whole: a pair separated by whitespace is never glued, so it only matters for
adjacent tokens, and nothing may glue onto `Eof`.
For such output,
the cursor over the built trees hands back exactly the reader's tokens, each
with the spacing the reader saw after it, and then `Eof` forever.
`Parsers.ParserReadsReaderTokens` lifts the same result to the parser.

The secondary components are small, self-contained index, table and state
components:

- the string interner (`Interner`);
- the index tables of the `symbols!` macros (`SymbolTables`);
- the `uidx!` bounded index types (`Uidx`);
- byte positions and spans (`Spans`);
- definition ids (`DefIds`);
- the resolver's node counter (`Resolver`);
- node and attribute indices and statement attributes (`Sandyq`);
- the steal-once `Holder` (`Holders`);
- diagnostics (`Diagnostics`);
- the query caches (`Caches`);
- query lookup and feeding (`Queries`);
- the two arena crates (`ArenaMath`, `DataArena`, `TilcArena`).

Every operation is a pure function over immutable datatypes. Each possible
failure is part of the result type `Res<T> = Ok(value) | Fail(fault)`, where
the fault is one of three kinds:

- `Todo`: the source reaches `todo!()`;
- `Panic`: a panic, a failed `assert!`/`debug_assert!`, an arithmetic overflow
  in a debug build, or an `unwrap` on `None`;
- `Diverge`: a loop that never ends.

The model follows debug-build semantics. That matters in three places:
`debug_assert_eq!(self.step(), …)` consumes characters, `u32` overflow panics,
and `debug_assert!` fires. Loops whose termination depends on the input or on
a parameter carry a `fuel` bound, and running out of fuel is reported as
`Diverge`.

Source text is assumed to be ASCII without NUL. NUL is the scanner's
end-of-input sentinel, so under this assumption character counts are byte
counts.

## Model

| member | source | states |
|---|---|---|
| Lexer.RunLen | compiler/tilc_lexer/src/lexer.rs:72-76 | `consume(p)` stops at the first character that fails `p`: every character before the returned length satisfies `p`, and the one at it does not |
| Lexer.LineCommentLen | compiler/tilc_lexer/src/lexer.rs:173-183 | a `//` comment runs through the first `\n` after the second slash, and contains no earlier `\n`; without a `\n` the scan never ends |
| Lexer.BlockCommentLen | compiler/tilc_lexer/src/lexer.rs:184-199 | a `/*` comment ends at the first `*` followed by `/`, and the `/` is left unconsumed; without such a pair the scan never ends |
| Lexer.RawStringLen | compiler/tilc_lexer/src/lexer.rs:101-110 | a raw string `s#"` ends right after the next `"`, and succeeds exactly when one exists; otherwise the scan never ends |
| Lexer.ScanDigits | compiler/tilc_lexer/src/lexer.rs:111-130 | `is_digit` consumes the maximal run of digits and `_`; it reports a digit exactly when the run holds an ASCII digit (so `_` never counts); a `.` or `E` right after the run makes it loop forever |
| Lexer.NumberKind | compiler/tilc_lexer/src/lexer.rs:131-172 | a number is always an `Int` literal. After `0e`/`0s` it consumes the prefix letter plus the maximal digit/`_` run; the base is Binary/Octal exactly when that run holds no digit, and Decimal otherwise. After `0` followed by any other non-digit, non-`_` character it consumes nothing. Otherwise it consumes the maximal digit/`_` run as a Decimal integer. It diverges exactly when `is_digit` does, and the float branch is never reached |
| Lexer.PrefixedNumber | compiler/tilc_lexer/src/lexer.rs:136-171 | the `0e`/`0s` arms: they consume the prefix letter and the maximal digit/`_` run after it, keep the prefix's base exactly when that run holds no digit, and diverge exactly when `is_digit` does |
| Lexer.DecimalNumber | compiler/tilc_lexer/src/lexer.rs:152-171 | the decimal arms: the maximal digit/`_` run as a Decimal integer, diverging exactly when `is_digit` does |
| Lexer.QuoteScanFrom | compiler/tilc_lexer/src/lexer.rs:200-222 | the `'` scan passes over everything except tab, CR, LF and `'`; it yields a char literal right after the first `'`, or a lifetime at the first tab/CR/LF; it diverges exactly when neither occurs before the end of input |
| Lexer.StringEnd | compiler/tilc_lexer/src/lexer.rs:224-236 | a string ends at the first `"` that is not escaped by a directly preceding backslash, and the closing `"` itself is never preceded by a backslash inside the scanned text; `None` means end of input, where every `"` is escaped |
| Lexer.StringEndSkipsEscapedQuote | compiler/tilc_lexer/src/lexer.rs:224-236 | on `a\"b"` the backslash makes the loop step over the first `"`, so the string ends after the last character, not at the escaped quote |
| Lexer.CharToToken | compiler/tilc_lexer/src/lexer.rs:251-326 | one call consumes exactly the returned length and leaves the rest of the input; empty input yields `(Eof, 0)` unchanged, and any other token covers at least one character and is not `Eof` |
| Lexer.ScanAfter | compiler/tilc_lexer/src/lexer.rs:260-321 | the dispatch on the first character never yields `Eof` and never consumes past the input; what each branch yields is stated by the classification lemmas below |
| Lexer.Tokenize | compiler/tilc_lexer/src/lexer.rs:251-257 | calling `char_to_token` until `Eof` gives tokens of length ≥ 1, then one `(Eof, 0)`; the lengths add up to the input length |
| Lexer.PunctuationScansOneChar | compiler/tilc_lexer/src/lexer.rs:294-320 | a punctuation character, `~` included, is a token of length one with its fixed kind, whatever follows it |
| Lexer.WhitespaceScansWholeRun | compiler/tilc_lexer/src/lexer.rs:85-88 | a whitespace token covers the maximal run of space, tab, CR and LF at the front |
| Lexer.IdentifierScansWholeRun | compiler/tilc_lexer/src/lexer.rs:90-94 | outside the raw prefix, an identifier token covers the maximal `[A-Za-z0-9_]` run and stops before a non-identifier character |
| Lexer.RawIdentifierIsOneChar | compiler/tilc_lexer/src/lexer.rs:96-100 | a raw identifier `s#x…` is a token of length one: the `#` is not an identifier character, so the scanner consumes nothing after `s` |
| Lexer.LineCommentRunsThroughNewline | compiler/tilc_lexer/src/lexer.rs:173-183 | `//` yields a `LineComment` token that ends with the first `\n` after the two slashes and holds no earlier `\n`; it succeeds exactly when such a `\n` exists, and otherwise the scan never ends |
| Lexer.BlockCommentStopsBeforeSlash | compiler/tilc_lexer/src/lexer.rs:184-199 | a block comment yields a `BlockComment` token that ends at the `*` of the first `*` `/` pair after the opening one, leaving that `/` as the next character; without such a pair the scan never ends |
| Lexer.LoneSlashIsOneChar | compiler/tilc_lexer/src/lexer.rs:262-266 | a `/` followed by neither `/` nor `*` (or by end of input) is a `Slash` token of length one |
| Lexer.NumberTakesIdentifierSuffix | compiler/tilc_lexer/src/lexer.rs:281-288 | when `number_kind` returns kind `k` after consuming `d` characters, a digit starts a literal of that kind (always an integer kind) whose `suffix_pos` is `1 + d`; the token then takes the maximal run of identifier characters after those `1 + d` characters as its suffix |
| Lexer.NumberDivergesWithNumberKind | compiler/tilc_lexer/src/lexer.rs:111-172 | when `number_kind` never returns on the characters after a leading digit, `char_to_token` never returns either |
| Lexer.QuoteIsCharOrLifetime | compiler/tilc_lexer/src/lexer.rs:200-222 | `'` yields a `Char` literal that ends right after the next `'`, or a `Lifetime` that stops before the next tab, CR or LF, whichever comes first; a `Char` literal's `suffix_pos` is its whole length; the scan diverges exactly when neither comes before the end of input |
| Lexer.StringEndsAtUnescapedQuote | compiler/tilc_lexer/src/lexer.rs:224-248 | `"` yields a `Str` literal that ends at the first `"` not directly preceded by a backslash (the closing `"` is the second character or follows a non-backslash), with `suffix_pos` its whole length; without such a quote the scanner panics, and every `"` after the opening one is then escaped |
| Lexer.RawStringEndsAtNextQuote | compiler/tilc_lexer/src/lexer.rs:101-110 | `s#"` yields a `RawString` literal that ends at the next `"`, with no escapes and `suffix_pos` its whole length; it succeeds exactly when such a `"` exists, and otherwise the scan never ends |
| Spans.FromUsize | compiler/tilc_span/src/pos.rs:19-21 | `from_usize` keeps the low 32 bits, so it is exact for offsets that fit in `u32` |
| Spans.Add | compiler/tilc_span/src/pos.rs:32-34 | `BytePos + BytePos` is the sum of the offsets, and panics exactly when the sum exceeds `u32::MAX` |
| Spans.Sub | compiler/tilc_span/src/pos.rs:40-42 | `BytePos - BytePos` is the difference of the offsets, and panics exactly when the right side is larger |
| Spans.ToUsize | compiler/tilc_span/src/pos.rs:23-25 | `to_usize` widens without changing the offset |
| Spans.FromU32RoundTrip | compiler/tilc_span/src/pos.rs:10-16 | `to_u32(from_u32(v)) == v`, and the other way round |
| Spans.FromUsizeTruncates | compiler/tilc_span/src/pos.rs:19-21 | concrete cases: offsets 2^32 and 2^32+6 become positions 0 and 6 |
| Spans.AddSubInverse | compiler/tilc_span/src/pos.rs:32-42 | subtracting the offset just added gives the original position back |
| Spans.NewSpan | compiler/tilc_span/src/span.rs:9-14 | `Span::new` panics exactly when start > end, and otherwise stores both ends unchanged |
| Spans.EmptySpanIsDistinct | compiler/tilc_span/src/span.rs:7-14 | `Span::EMPTY` satisfies the constructor's check and differs from every span starting at 0 |
| Interner.IndexOf | compiler/tilc_span/src/interner.rs:21-23 | `get_index_of` returns the first index holding the string, and `None` exactly when the string is absent |
| Interner.InsertFull | compiler/tilc_span/src/interner.rs:26 | `insert_full` reports "new" exactly for an absent string; it appends the string at index `len`; an existing string keeps its index and the table is unchanged; no duplicates are ever created |
| Interner.Collect | compiler/tilc_span/src/interner.rs:13-17 | collecting into an `IndexSet` gives a duplicate-free table holding exactly the input strings |
| Interner.CollectInto | compiler/tilc_span/src/interner.rs:13-17 | extending a table keeps its order as a prefix, holds exactly the old and the new strings, and stays duplicate-free |
| Interner.CollectIntoConcat | compiler/tilc_span/src/interner.rs:13-17 | collecting a concatenation is the same as collecting the two parts one after the other |
| Interner.New | compiler/tilc_span/src/interner.rs:8-12 | a new interner is empty and duplicate-free |
| Interner.Prefill | compiler/tilc_span/src/interner.rs:13-17 | `prefill` holds exactly the given strings, duplicates collapsed |
| Interner.Get | compiler/tilc_span/src/interner.rs:31-34 | `get` returns the string at the symbol's index, and panics exactly when the index is out of range |
| Interner.InternAsWritten | compiler/tilc_span/src/interner.rs:19-30 | as written, `intern` succeeds only for a string already present, leaves the table unchanged, and its symbol gets the string back; a fresh string panics |
| Interner.Intern | compiler/tilc_span/src/interner.rs:19-30 | as intended, `intern` only grows the table: a present string changes nothing, and a new one is appended at the old size; `get` on the returned symbol yields the string |
| Interner.InternExisting | compiler/tilc_span/src/interner.rs:21-23 | a string already at index i interns to symbol i with no change, under both readings |
| Interner.InternIdempotent | compiler/tilc_span/src/interner.rs:19-30 | interning the same string twice gives the same table and symbol as interning it once |
| Interner.InternInjective | compiler/tilc_span/src/interner.rs:19-30 | two interns give equal symbols exactly when the strings are equal |
| Interner.InternPreservesSymbols | compiler/tilc_span/src/interner.rs:19-30 | interning never changes what an earlier symbol resolves to |
| Interner.FreshInternPanics | compiler/tilc_span/src/interner.rs:25-28 | as written, the first intern of any string into a new interner fails the `debug_assert!` |
| SymbolTables.Empty | compiler/tilc_macros/src/symbols.rs:69-71 | a new `Entries` table agrees with the empty string order |
| SymbolTables.Len | compiler/tilc_macros/src/symbols.rs:85-87 | `len` is the number of entries, and panics exactly when that exceeds `u32::MAX` |
| SymbolTables.Insert | compiler/tilc_macros/src/symbols.rs:73-84 | a known key returns its old index and changes nothing; an unseen key is added at index `len` and the table grows by one |
| SymbolTables.InsertAgrees | compiler/tilc_macros/src/symbols.rs:73-84 | `insert` keeps the table in step with the interner's `insert_full`: same indices, same order |
| SymbolTables.InsertAllAgrees | compiler/tilc_macros/src/symbols.rs:98-123 | inserting a list in declaration order leaves a table that matches collecting the same strings into the interner |
| SymbolTables.InsertAllIndexes | compiler/tilc_macros/src/symbols.rs:98-123 | every index the loops return points at its own literal in that collected order |
| SymbolTables.Symbols | compiler/tilc_macros/src/symbols.rs:90-146 | the expansion prefills the keywords and then the symbols, all of them in order, and defines one constant per declared name |
| SymbolTables.KeywordSymbols | compiler/tilc_macros/src/symbol.rs:64-108 | the keyword-only macro panics on a parse failure, and otherwise is the two-group expansion with no symbols |
| SymbolTables.SymbolsAgreeWithPrefill | compiler/tilc_macros/src/symbols.rs:125-143 | every generated `kw::`/`sym::` constant resolves in the prefilled interner to its own literal, and `PRE_INTERNED_SYMBOLS_LEN` is the number of distinct literals |
| SymbolTables.EqualLiteralsShareSymbol | compiler/tilc_macros/src/symbols.rs:73-84 | a literal listed as both a keyword and a symbol yields one shared index |
| TokenReader.Start | compiler/tilc_advanced_lexer/src/token_reader.rs:17-25 | a fresh reader over any valid source, at any start position, is consistent, with all input unread at the start position; positions past `u32::MAX` are left to the reads that reach them |
| TokenReader.MapPunctuationInjective | compiler/tilc_advanced_lexer/src/token_reader.rs:62-93 | the primitive-to-AST punctuation mapping is one-to-one: two primitive kinds that map to the same AST kind are equal |
| TokenReader.UnmapPunctuationInverts | compiler/tilc_advanced_lexer/src/token_reader.rs:62-93 | every punctuation kind the table maps can be recovered from its AST kind: the reverse table inverts it |
| TokenReader.MapPunctuationIsPlain | compiler/tilc_advanced_lexer/src/token_reader.rs:62-93 | a mapped punctuation kind is never an identifier, a literal, `Eof`, `Unknown` or an `Empty` delimiter |
| TokenReader.StrFromTo | compiler/tilc_advanced_lexer/src/token_reader.rs:123-125 | with the intended `src_pos`, slicing between two read positions gives exactly the source text between them |
| TokenReader.SrcPos | compiler/tilc_advanced_lexer/src/token_reader.rs:129-131 | as evidently intended, `src_pos` is the offset of a position from the file start: it succeeds exactly for positions at or after the start, and start plus the result is the position |
| TokenReader.SrcPosAsWritten | compiler/tilc_advanced_lexer/src/token_reader.rs:129-131 | as written, `start_post - pos` succeeds exactly for positions at or before the file start and gives their distance back to it; every position past the start panics |
| TokenReader.RecordSymbol | compiler/tilc_advanced_lexer/src/token_reader.rs:104 | the symbol repository maps the symbol to the new span, overwriting an earlier one as `HashMap::insert` does; every other entry is unchanged |
| TokenReader.ReadIdentifier | compiler/tilc_advanced_lexer/src/token_reader.rs:101-106 | `identifier` consumes no input and yields a non-raw identifier kind |
| TokenReader.Classify | compiler/tilc_advanced_lexer/src/token_reader.rs:33-94 | the kind mapping succeeds exactly for `Eof`, mapped punctuation and successfully read identifiers; every other primitive except literals reaches `todo!()` |
| TokenReader.Scan | compiler/tilc_advanced_lexer/src/token_reader.rs:22-25 | one scanner call starts at `pos`, advances `pos` by the primitive's length and drops exactly that many characters; it succeeds exactly when the scanner does and the new position stays within `u32::MAX`, and panics on that overflow (`self.pos += …`) |
| TokenReader.NextTokenFrom | compiler/tilc_advanced_lexer/src/token_reader.rs:17-99 | for a consistent reader of any length at any start position, the `next_token` loop keeps the reader consistent and never changes its source or start position |
| TokenReader.NextTokenFailsWithScan | compiler/tilc_advanced_lexer/src/token_reader.rs:22-25 | a failing scanner step, such as the panic when `pos` would pass `u32::MAX`, ends `next_token` with the same fault |
| TokenReader.NextToken | compiler/tilc_advanced_lexer/src/token_reader.rs:17-99 | on any consistent reader, with no bound on the file's length or start, a successful `next_token` leaves the reader consistent |
| TokenReader.NextTokenSkipsWhitespace | compiler/tilc_advanced_lexer/src/token_reader.rs:34-37 | a whitespace primitive is skipped and sets the "preceded by whitespace" flag |
| TokenReader.NextTokenReturns | compiler/tilc_advanced_lexer/src/token_reader.rs:96-97 | a non-whitespace primitive is returned with the span [its start, pos) and the flag collected so far |
| TokenReader.NextTokenFromSpans | compiler/tilc_advanced_lexer/src/token_reader.rs:17-99 | the returned span lies after the previous position and ends at the new position |
| TokenReader.NextTokenFlag | compiler/tilc_advanced_lexer/src/token_reader.rs:97 | the returned flag is true exactly when the unread input starts with whitespace |
| TokenReader.StrFromToAsWrittenPanics | compiler/tilc_advanced_lexer/src/token_reader.rs:129-131 | as written, `src_pos` computes `start_post - pos`, so slicing any non-empty range panics |
| TokenReader.IdentifierAsWrittenPanics | compiler/tilc_advanced_lexer/src/token_reader.rs:101-106 | as written, reading an identifier always panics |
| TokenReader.IdentifierInternsItsText | compiler/tilc_advanced_lexer/src/token_reader.rs:101-106 | with the intended `src_pos`, an identifier interns exactly its source text and records its span |
| TokenReader.NextTokenPunctuation | compiler/tilc_advanced_lexer/src/token_reader.rs:62-93 | a punctuation character is read as its mapped token, spanning one byte; at position `u32::MAX` advancing past it panics |
| TokenReader.NextTokenSingleSpace | compiler/tilc_advanced_lexer/src/token_reader.rs:34-37 | a single whitespace character advances one byte and sets the flag; at position `u32::MAX` advancing past it panics |
| TokenReader.NextTokenIdentifierAsWritten | compiler/tilc_advanced_lexer/src/token_reader.rs:41 | as written, `next_token` on an identifier panics |
| TokenReader.NextTokenOnIdentifier | compiler/tilc_advanced_lexer/src/token_reader.rs:41 | `next_token` on an identifier primitive returns what `identifier` built |
| TokenReader.NextTokenIdentifierIntended | compiler/tilc_advanced_lexer/src/token_reader.rs:41 | with the intended `src_pos`, an identifier token spans the maximal identifier run; the call succeeds exactly when that run ends within `u32::MAX`, and panics otherwise |
| TokenReader.NextTokenIdentifierText | compiler/tilc_advanced_lexer/src/token_reader.rs:101-106 | with the intended `src_pos`, the call succeeds exactly when the identifier run ends within `u32::MAX` (it panics otherwise), and then the token is an identifier whose symbol resolves to exactly the identifier's text |
| TokenReader.ScannedIdentifierText | compiler/tilc_advanced_lexer/src/token_reader.rs:101-106 | whichever identifier the scanner reads, its symbol resolves to its source text |
| TokenReader.ScanIdentifier | compiler/tilc_advanced_lexer/src/token_reader.rs:22-25 | the scanner reads an identifier primitive over the maximal identifier run, and the step panics exactly when that run would carry `pos` past `u32::MAX` |
| TokenReader.WhitespaceRunIsMaximal | compiler/tilc_advanced_lexer/src/token_reader.rs:34-37 | a whitespace primitive swallows the whole run, so the next primitive is not whitespace |
| TokenReader.ReadPrefixIsSourceSlice | compiler/tilc_advanced_lexer/src/token_reader.rs:123-128 | the next n unread characters are the source between `pos` and `pos + n` |
| ReaderExamples.ReadOpenParen | compiler/tilc_advanced_lexer/src/token_reader.rs:166-172 | on `( );` the first call gives `OpenDelim(Paren)` at [0,1), not preceded by whitespace, as the expectation left commented out in the unit test says |
| ReaderExamples.ReadCloseParen | compiler/tilc_advanced_lexer/src/token_reader.rs:173-179 | the second call gives `CloseDelim(Paren)` at [2,3), preceded by whitespace, as the commented-out expectation says |
| ReaderExamples.ReadSemicolon | compiler/tilc_advanced_lexer/src/token_reader.rs:181-184 | the third call gives `Semicolon` at [3,4), not preceded by whitespace, as the commented-out expectation says |
| TokenTrees.NextRead | compiler/tilc_parse/src/token_trees.rs:95 | the builder reads the reader's output in order, and after the end keeps reading a non-whitespaced `Eof` |
| TokenTrees.GlueLoop | compiler/tilc_parse/src/token_trees.rs:94-113 | the `step` loop always consumes a token while input remains, and at the end returns `Eof` without moving |
| TokenTrees.BuilderStep | compiler/tilc_parse/src/token_trees.rs:93-117 | every `step` that can still read strictly decreases the remaining work, which gives termination |
| TokenTrees.LexTrees | compiler/tilc_parse/src/token_trees.rs:17-53 | `lex_token_trees` consumes input and stops only at `Eof` or at a closing delimiter; it fails only through `todo!()` |
| TokenTrees.LexLoop | compiler/tilc_parse/src/token_trees.rs:24-52 | the collecting loop stops only at `Eof` or at a closing delimiter, never reads backwards, and fails only through `todo!()` on a stray closing delimiter or inside a group |
| TokenTrees.InOpenDelim | compiler/tilc_parse/src/token_trees.rs:54-92 | building a group consumes at least its opening delimiter; it fails only through `todo!()`, so the `unreachable!` arm after the nested collection is indeed unreachable |
| TokenTrees.WhitespacedIsNeverGlued | compiler/tilc_parse/src/token_trees.rs:95-98 | a token preceded by whitespace is never glued, and the spacing returned is `Whitespaced` |
| TokenTrees.StepWithoutGlue | compiler/tilc_parse/src/token_trees.rs:104-116 | `step(false)` returns the current token, installs the next one, and reports `Sticked` unless the old token was `Eof` |
| TokenTrees.StepGlues | compiler/tilc_parse/src/token_trees.rs:99-103 | `step(true)` replaces the current token by the glued one and reads on |
| TokenTrees.StepAtEnd | compiler/tilc_parse/src/token_trees.rs:93-117 | after the last token the builder stays at `Eof` |
| TokenTrees.StrayCloseIsTodo | compiler/tilc_parse/src/token_trees.rs:35-45 | a closing delimiter at the top level reaches `todo!()` |
| TokenTrees.MismatchedCloseIsTodo | compiler/tilc_parse/src/token_trees.rs:74-76 | a group closed by a different delimiter reaches `todo!()` |
| TokenTrees.UnclosedGroupIsAccepted | compiler/tilc_parse/src/token_trees.rs:77 | a group still open at `Eof` is accepted: its close span is the `Eof` span and its close spacing is `Whitespaced` |
| TokenTrees.LexLoopOnLeaf | compiler/tilc_parse/src/token_trees.rs:47-50 | a token that is neither a delimiter nor `Eof` becomes a leaf carrying the spacing after it |
| TokenTrees.LexLoopOnGroup | compiler/tilc_parse/src/token_trees.rs:29-34 | an opening delimiter pushes the completed group and the loop carries on after it |
| TokenTrees.InOpenDelimCloses | compiler/tilc_parse/src/token_trees.rs:54-92 | a matching close builds `Delimited` from the open and close spans, the spacing after each, and the nested stream |
| TokenTrees.GroupOnBalanced | compiler/tilc_parse/src/token_trees.rs:54-92 | on input where no adjacent pair glues, a balanced group becomes one `Delimited` tree, which flattens back to exactly the tokens from its open to its close, and holds no delimiter leaf |
| TokenTrees.LexLoopOnBalanced | compiler/tilc_parse/src/token_trees.rs:21-52 | on balanced input where no adjacent pair glues, the loop collects trees that flatten back to the reader's tokens, up to the matching close or `Eof` |
| TokenTrees.LexAllOnBalanced | compiler/tilc_parse/src/lib.rs:65-73 | `lex_all_token_trees` succeeds on balanced reader output where no adjacent pair glues, and the trees flatten back to the reader's tokens with their spacings |
| TokenTrees.LexAll | compiler/tilc_parse/src/lib.rs:65-73 | `lex_all_token_trees` fails only through `todo!()`, on a stray or mismatched closing delimiter; it never panics |
| TokenTrees.TopStep | compiler/tilc_parse/src/token_trees.rs:21 | the first `step` of `lex_all_token_trees`, which never glues, discards the placeholder token and installs the reader's first token, whatever `glueable` does on adjacent tokens |
| TokenStreams.FromSingle | compiler/tilc_ast/src/token_stream.rs:132-137 | `from_single` uses the same span for both delimiters |
| TokenStreams.FromPair | compiler/tilc_ast/src/token_stream.rs:138-140 | `from_pair` keeps the two spans as given |
| TokenStreams.Entire | compiler/tilc_ast/src/token_stream.rs:142-144 | `entire` runs from the opening delimiter's start to the closing delimiter's end |
| TokenStreams.TreeSpan | compiler/tilc_ast/src/token_stream.rs:112-118 | a leaf's span is its token's span, and a group's span is its entire delimiter span |
| TokenStreams.NewTreeCursor | compiler/tilc_ast/src/token_stream.rs:72-74 | a new tree cursor is positioned before the stream's first tree |
| TokenStreams.TreeStep | compiler/tilc_ast/src/token_stream.rs:76-81 | `step` yields the tree at `idx` and advances exactly when one exists |
| TokenStreams.Look | compiler/tilc_ast/src/token_stream.rs:82-88 | `look(n)` yields the tree at `idx + n` without moving |
| TokenStreams.LookAgreesWithStep | compiler/tilc_ast/src/token_stream.rs:76-88 | `look(0)` sees what the next `step` returns, and stepping shifts every later `look` by one |
| TokenStreams.NewCursor | compiler/tilc_ast/src/token_stream.rs:16-24 | a new cursor has an empty stack, and what it still has to emit is the stream's flattening |
| TokenStreams.LeafEmitsNext | compiler/tilc_ast/src/token_stream.rs:27-31 | a leaf is returned unchanged with its own spacing |
| TokenStreams.OpenGroupEmitsNext | compiler/tilc_ast/src/token_stream.rs:33-48 | entering a non-`Empty` group returns `OpenDelim` at the group's start span with its start spacing |
| TokenStreams.StepOnGroup | compiler/tilc_ast/src/token_stream.rs:33-48 | at a group, `step` pushes the frame and returns its open delimiter, or keeps looping for an `Empty` group |
| TokenStreams.SilentGroupEmitsNext | compiler/tilc_ast/src/token_stream.rs:43 | entering an `Empty` group returns nothing for it and keeps looping |
| TokenStreams.ClosePopEmitsNext | compiler/tilc_ast/src/token_stream.rs:51-59 | leaving a non-`Empty` group restores the parent and returns `CloseDelim` at the end span with the end spacing |
| TokenStreams.StepOnPop | compiler/tilc_ast/src/token_stream.rs:51-59 | at the end of a nested stream, `step` pops the frame and returns its close delimiter, or keeps looping for an `Empty` group |
| TokenStreams.SilentPopEmitsNext | compiler/tilc_ast/src/token_stream.rs:54 | leaving an `Empty` group returns nothing for it and keeps looping |
| TokenStreams.EndEmitsNext | compiler/tilc_ast/src/token_stream.rs:60-62 | with an empty stack and nothing left, `step` returns `(Eof, Span::EMPTY, Sticked)` and stays put |
| TokenStreams.StepProgresses | compiler/tilc_ast/src/token_stream.rs:25-64 | each `step` either leaves strictly less to visit (trees of the current stream and open frames) or, with nothing left, returns `(Eof, Span::EMPTY, Sticked)` and leaves the cursor as it was; so the loop over `Empty` groups always ends |
| TokenStreams.Run | compiler/tilc_ast/src/token_stream.rs:25-64 | n calls of `step` return n outputs |
| TokenStreams.StepEmitsPending | compiler/tilc_ast/src/token_stream.rs:25-64 | every `step` returns the first token still pending and leaves exactly the rest pending |
| TokenStreams.RunEofForever | compiler/tilc_ast/src/token_stream.rs:60-62 | once nothing is pending, every further `step` returns `Eof` |
| TokenStreams.RunEmitsPendingThenEof | compiler/tilc_ast/src/token_stream.rs:25-64 | repeated `step` calls return the pending tokens in order, then `Eof` on every further call |
| TokenStreams.CursorEmitsFlatten | compiler/tilc_ast/src/token_stream.rs:25-64 | over a fresh cursor the output is the stream's reference flattening, then `Eof` forever |
| TokenStreams.FlattenHasNoEmptyDelimiter | compiler/tilc_ast/src/token_stream.rs:43-59 | when no leaf holds a delimiter, the cursor never shows an `Empty` open or close delimiter |
| RoundTrip.CursorReplaysReader | compiler/tilc_parse/src/lib.rs:65-73 | for balanced reader output in which no token glues onto its adjacent predecessor, the cursor over the built trees replays the reader's tokens with their spacings, then `Eof` forever |
| RoundTrip.CursorReturnsReaderToken | compiler/tilc_ast/src/token_stream.rs:25-64 | on the same input, call m of the cursor returns reader token m, with `Whitespaced` exactly when the reader saw whitespace before the next token |
| RoundTrip.CursorEofAfterReader | compiler/tilc_ast/src/token_stream.rs:60-62 | on the same input, once the reader's tokens are used up, every call returns `Eof` |
| RoundTrip.RunPrefix | compiler/tilc_ast/src/token_stream.rs:25-64 | a shorter run of the cursor is a prefix of a longer one |
| RoundTrip.BuiltTreesShowNoEmptyDelimiter | compiler/tilc_parser/src/parser.rs:42-45 | on the same input, the parser's debug assertion cannot fire on built trees: the cursor never yields an `Empty` delimiter |
| Parsers.Step | compiler/tilc_parser/src/parser.rs:38-48 | `step` shifts the current token into `prev_token`, installs the cursor's next output with its spacing and the cursor as stepped, and adds one to `pos`; it panics exactly when `pos` overflows or the token is an `Empty` delimiter |
| Parsers.New | compiler/tilc_parser/src/parser.rs:19-36 | `new` primes `token` with the cursor's first output and resets `pos` to 0 |
| Parsers.StepIf | compiler/tilc_parser/src/parser.rs:57-64 | the current token is consumed exactly when the test holds; otherwise nothing changes |
| Parsers.Check | compiler/tilc_parser/src/parser.rs:50-52 | `check` compares only the current token's kind and moves nothing; `eat` consumes exactly when it holds (`Parsers.Eat`) |
| Parsers.CheckKw | compiler/tilc_parser/src/parser.rs:53-55 | `check_kw` asks `Token::is_kw` about the current token and moves nothing; `eat_kw` consumes exactly when it holds (`Parsers.EatKw`) |
| Parsers.Eat | compiler/tilc_parser/src/parser.rs:57-64 | `eat` returns true exactly when the current token has the kind; then the result is exactly the parser after one `step` (and it panics exactly when that step does), and otherwise the parser is unchanged |
| Parsers.EatKw | compiler/tilc_parser/src/parser.rs:65-72 | `eat_kw` returns true exactly when `is_kw` holds; then the result is exactly the parser after one `step`, whose `prev_token` is the keyword, and otherwise the parser is unchanged |
| Parsers.Expect | compiler/tilc_parser/src/parser.rs:74-81 | `expect` reaches `todo!()` on a mismatch; on a match the parser is exactly the one after one `step`, and it returns the new current token |
| Parsers.ExpectKw | compiler/tilc_parser/src/parser.rs:82-89 | `expect_kw` reaches `todo!()` on a mismatch; on a match the parser is exactly the one after one `step`, and it returns the consumed keyword token |
| Parsers.LookAheadFrom | compiler/tilc_parser/src/parser.rs:91-100 | stepping a cloned cursor n times gives the n-th token of the cursor's run, or the given token for n = 0 |
| Parsers.LookAhead | compiler/tilc_parser/src/parser.rs:91-100 | `look_ahead(0)` is the current token, and `look_ahead(n)` is the n-th token the cursor would emit |
| Parsers.StepsFollowCursor | compiler/tilc_parser/src/parser.rs:38-48 | n steps succeed while `pos` fits and no `Empty` delimiter shows up; they leave `pos` n higher, holding the n-th cursor output |
| Parsers.LookAheadAgreesWithSteps | compiler/tilc_parser/src/parser.rs:91-104 | `look_ahead(n)` is the token that n steps would make current |
| Parsers.ExpectReturnsLookAheadOne | compiler/tilc_parser/src/parser.rs:74-81 | a successful `expect` returns what `look_ahead(1)` saw before the call |
| Parsers.ParserReadsReaderTokens | compiler/tilc_parser/src/parser.rs:19-48 | a parser over the trees built from balanced reader output where no adjacent pair glues holds reader token m after m steps, with `pos == m` |
| Parsers.ParseIdent | compiler/tilc_parser/src/parse.rs:150-164 | `parse_ident` reaches `todo!()` on a non-identifier or a reserved non-raw identifier; otherwise it returns the identifier and steps once |
| Parsers.ParseItems | compiler/tilc_parser/src/parse.rs:133-138 | the item loop stops at the first `None` from `parse_item` and passes its errors on |
| Parsers.ParseUntil | compiler/tilc_parser/src/parse.rs:125-147 | `parse_until` returns the attributes `parse_attributes` produced, and the stopper has been consumed |
| Parsers.ParseUntilSpanBeforeStopper | compiler/tilc_parser/src/parse.rs:140-143 | the span is fixed at the token before the stopper, before the stopper is eaten; a missing stopper reaches `todo!()` |
| Uidx.Strip | compiler/tilc_macros/src/uidx.rs:24-45 | no `#[max]` attribute survives into the generated struct |
| Uidx.Retain | compiler/tilc_macros/src/uidx.rs:24-45 | the `retain` pass succeeds exactly when there is at most one `#[max]` and it is `max = literal`; it strips every `#[max]` and remembers its value |
| Uidx.ResolveMax | compiler/tilc_macros/src/uidx.rs:24-63 | the bound is the single `#[max = N]` literal, or 0xFFFF_FF00 without one; a second or a malformed `#[max]` panics |
| Uidx.FromU32 | compiler/tilc_macros/src/uidx.rs:88-93 | `from_u32` panics exactly above the bound, and otherwise wraps the value unchanged |
| Uidx.FromU16 | compiler/tilc_macros/src/uidx.rs:81-86 | `from_u16` panics exactly above the bound, and otherwise keeps the value |
| Uidx.FromUsize | compiler/tilc_macros/src/uidx.rs:95-100 | `from_usize` checks the bound on the full `usize`, so the cast that follows never truncates |
| Uidx.AsU16 | compiler/tilc_macros/src/uidx.rs:103-107 | the asserting `as_u16` panics exactly when the value exceeds 65535 |
| Uidx.AsU16Truncating | compiler/tilc_macro/src/uidx.rs:101-104 | the second copy's `as_u16` keeps the value modulo 65536 |
| Uidx.AsU16VariantsAgree | compiler/tilc_macro/src/uidx.rs:101-104 | the two `as_u16` copies agree exactly where the asserting one succeeds |
| Uidx.Add | compiler/tilc_macros/src/uidx.rs:123-129 | `+ usize` succeeds exactly when the sum stays within the bound, and gives the sum |
| Uidx.Sub | compiler/tilc_macros/src/uidx.rs:130-136 | `- usize` on a valid index succeeds exactly when it does not underflow, and gives the difference |
| Uidx.ConversionsRoundTrip | compiler/tilc_macros/src/uidx.rs:138-162 | converting a valid value in through `u32` or `usize` and back out returns it |
| Uidx.SubUndoesAdd | compiler/tilc_macros/src/uidx.rs:123-136 | subtracting what was added gives the index back |
| Uidx.DeclareConsts | compiler/tilc_macros/src/uidx.rs:47-61 | declared constants go through `from_u32`, so the expansion succeeds exactly when each is within the bound |
| Uidx.Expand | compiler/tilc_macros/src/uidx.rs:63-77 | the expansion has `MAX` = the bound and `EMPTY` = 0, both valid, and strips the `#[max]` attributes |
| Uidx.TwoMaxAttributesPanic | compiler/tilc_macros/src/uidx.rs:34-36 | a second `#[max]` is rejected |
| Uidx.MaxTwoTest | compiler/tilc_macros_tests/src/lib.rs:7-15 | with `#[max = 2]`, `from_u16(1) + 1` gives 2, and one more step would panic |
| DefIds.IsLocal | compiler/tilc_span/src/def_id.rs:67-69 | `is_local` holds exactly for ids of the local sandyq; these are the images of `to_def_id` (`DefIds.LocalDefIdsAreConverted`) |
| DefIds.ToDefId | compiler/tilc_span/src/def_id.rs:34-41 | `to_def_id` keeps the index and marks the id as local |
| DefIds.LocalDefIdsAreConverted | compiler/tilc_span/src/def_id.rs:66-69 | the local ids are exactly the images of `to_def_id`, and `to_def_id` is injective |
| DefIds.ConstantsAreEmpty | compiler/tilc_span/src/def_id.rs:27-45 | `LOCAL_SANDYQ` and `SANDYQ_DEF_IDX` are both index 0 and pass the bound check |
| DefIds.IdxNew | compiler/tilc_span/src/def_id.rs:18-20 | `Idx::new` panics exactly above the default bound |
| DefIds.IdxRoundTrip | compiler/tilc_span/src/def_id.rs:14-21 | `index(new(v)) == v` wherever `new` accepts `v`, and `new(index(i)) == i` for every valid index |
| Resolver.New | compiler/tilc_resolver/src/resolver.rs:17-32 | the counter starts at the root node index, which is already mapped to the crate root definition |
| Resolver.NextNodeIdx | compiler/tilc_resolver/src/resolver.rs:38-44 | `next_node_idx` returns the counter and stores its successor, panicking when the successor exceeds the bound |
| Resolver.NextNodeIdxsCount | compiler/tilc_resolver/src/resolver.rs:38-44 | successive calls return consecutive, hence distinct, indices starting at the counter |
| Resolver.FirstNodeIsRoot | compiler/tilc_resolver/src/resolver.rs:17-44 | the first call after `new` returns the root's index, which `new` has already mapped |
| Resolver.NeverYieldsDummy | compiler/tilc_resolver/src/resolver.rs:38-44 | the counter never hands out `NodeIdx::DUMMY`, and `checked_add` never overflows |
| Sandyq.NodeIdxConstants | compiler/tilc_ast/src/sandyq.rs:9-15 | `NodeIdx::DUMMY` is `MAX` and passes its own bound check, and `SANDYQ_NODE_IDX` is 0 |
| Sandyq.MakeAttrIdx | compiler/tilc_ast/src/sandyq.rs:482-486 | as written, `make_attr_idx` panics only at `u32::MAX`; otherwise it returns the counter and increments it |
| Sandyq.MakeAttrIdxExceedsMax | compiler/tilc_ast/src/sandyq.rs:482-486 | as written, the generator hands out an index above `AttrIdx::MAX` that `from_u32` would reject |
| Sandyq.MakeAttrIdxChecked | compiler/tilc_ast/src/sandyq.rs:482-486 | with the bound enforced, every index handed out is valid, and the call fails exactly past the bound |
| Sandyq.AttrIdxsCountUp | compiler/tilc_ast/src/sandyq.rs:476-486 | the generator yields 0, 1, 2, … in call order, each a valid index |
| Sandyq.Attrs | compiler/tilc_ast/src/sandyq.rs:546-568 | `attrs` reads the attribute list of the node the statement kind selects: the local for `Let`, the item, or the expression; `WalkAttrs` changes exactly that list |
| Sandyq.WalkAttrs | compiler/tilc_ast/src/sandyq.rs:546-574 | walking a statement's attributes applies the function to the list of the node the statement kind selects, and changes nothing else |
| Sandyq.WalkAttrsLaws | compiler/tilc_ast/src/sandyq.rs:546-574 | walking with the identity changes nothing, and two walks compose |
| Holders.New | compiler/tilc_data_structure/src/holder.rs:8-12 | a new holder is full, with the given value |
| Holders.Look | compiler/tilc_data_structure/src/holder.rs:14-22 | `look` returns the held value, and panics exactly on an empty holder |
| Holders.Steal | compiler/tilc_data_structure/src/holder.rs:23-27 | `steal` returns the held value and leaves the holder empty; it panics exactly on an empty holder |
| Holders.GetMut | compiler/tilc_data_structure/src/holder.rs:28-34 | `get_mut` lets the caller update a full holder, and panics on an empty one |
| Holders.NewLookSteal | compiler/tilc_data_structures/src/holder.rs:8-18 | what a new holder holds is what `look` shows and `steal` returns |
| Holders.EmptyStaysEmpty | compiler/tilc_data_structures/src/holder.rs:14-18 | once stolen, a holder stays empty: every operation on it panics |
| Holders.LookKeepsHolder | compiler/tilc_data_structure/src/holder.rs:14-22 | `look` never changes the holder |
| Diagnostics.NewInner | compiler/tilc_error/src/diagnostic.rs:127-134 | `DiagInner::new` stores the level and message, with span `Span::EMPTY` |
| Diagnostics.IsError | compiler/tilc_error/src/diagnostic.rs:135-141 | `is_error` holds for `Error` and `Fatal` only; it decides which diagnostics yield an `ErrorGuaranteed` (`Diagnostics.EmitDiagnostic`) |
| Diagnostics.EmitDiagnostic | compiler/tilc_error/src/diagnostic.rs:98-116 | `emit_diagnostic` returns an `ErrorGuaranteed` exactly for errors and fatal errors |
| Diagnostics.NewDiag | compiler/tilc_error/src/diagnostic.rs:19-25 | `Diag::new` holds the new inner diagnostic |
| Diagnostics.TakeDiag | compiler/tilc_error/src/diagnostic.rs:30-32 | `take_diag` returns the inner diagnostic and leaves none; it panics exactly when none is left |
| Diagnostics.Emit | compiler/tilc_error/src/diagnostic.rs:26-37 | `Diag::emit` succeeds exactly for an error or fatal diagnostic; a note or warning makes the `unwrap` panic |
| Diagnostics.EmitFresh | compiler/tilc_error/src/diagnostic.rs:19-37 | a fresh diagnostic is taken exactly once, and emitting it succeeds exactly for errors and fatal errors |
| Caches.UnitLookup | compiler/tilc_query_system/src/query/cache.rs:41-43 | a unit cache's `lookup` returns the cell's value, if set; `Caches.UnitCompute` relates it to `compute` |
| Caches.SetOnce | compiler/tilc_query_system/src/query/cache.rs:45-47 | `OnceLock::set(..).ok().unwrap()` succeeds exactly on an empty cell, which then holds the value |
| Caches.UnitComputeChecked | compiler/tilc_middle/src/query/cache.rs:29-37 | the first crate's `UnitCache::compute` panics exactly when a value is present, and otherwise stores it |
| Caches.UnitCompute | compiler/tilc_query_system/src/query/cache.rs:40-48 | the second crate's `UnitCache::compute` succeeds exactly on an empty cache, and `lookup` then returns the value |
| Caches.UnitComputesAgree | compiler/tilc_middle/src/query/cache.rs:32-37 | the two unit caches behave alike, and a second `compute` panics |
| Caches.Lookup | compiler/tilc_middle/src/query/cache.rs:63-66 | `lookup` finds a value exactly for a stored key, and returns that value |
| Caches.ComputeOnce | compiler/tilc_middle/src/query/cache.rs:67-73 | `DefaultCahce::compute` inserts into a vacant key, panics on an occupied one, and leaves other keys alone |
| Caches.ComputeOverwrite | compiler/tilc_query_system/src/query/cache.rs:79-81 | `DefaultCache::compute` stores the value under the key and leaves other keys alone |
| Caches.ComputeOnceTwicePanics | compiler/tilc_middle/src/query/cache.rs:68-72 | each key of the write-once cache is written at most once |
| Caches.LastWriteWins | compiler/tilc_query_system/src/query/cache.rs:79-81 | in the overwriting cache a second write replaces the first |
| Caches.DefIdCompute | compiler/tilc_query_system/src/query/cache.rs:112-118 | local keys go to the local map by their index and leave the foreign cache alone; foreign keys leave the local map alone |
| Caches.DefIdLookup | compiler/tilc_query_system/src/query/cache.rs:105-111 | local keys are looked up by their index in the local map, foreign keys in the foreign cache; `Caches.DefIdCacheIsAMap` shows the split is invisible |
| Caches.DefIdCacheIsAMap | compiler/tilc_query_system/src/query/cache.rs:105-118 | the split is invisible from outside: after `compute(k, v)` the lookup of k is v, and other keys are unaffected |
| Queries.IntoQueryParam | compiler/tilc_middle/src/query/query_system.rs:52-66 | `into_query_param` is the identity, except that a `LocalDefIdx` becomes its local `DefId` |
| Queries.QueryGet | compiler/tilc_middle/src/query/query_system.rs:9-22 | `query_get` returns the cached value on a hit; when the cache agrees with the provider, it returns the provider's value |
| Queries.Feed | compiler/tilc_middle/src/query/query_system.rs:151-158 | feeding panics exactly when the key is cached, and otherwise stores the value |
| Queries.FeedIsWriteOnce | compiler/tilc_middle/src/query/query_system.rs:151-158 | even over the overwriting cache, feeding is write-once, and other keys are unaffected |
| Queries.QueryAfterFeed | compiler/tilc_middle/src/query/query_system.rs:9-22 | a fed value is what the query returns next, whatever the provider |
| Queries.FeedKeepsCoherence | compiler/tilc_middle/src/query/query_system.rs:151-158 | feeding the provider's own value keeps the cache in agreement with the provider |
| Queries.LocalFeedGoesToLocalMap | compiler/tilc_middle/src/query/query_system.rs:61-65 | a `LocalDefIdx` key is fed into the local map under its own index |
| Queries.GetQuery | compiler/tilc_middle/src/query/system.rs:5-19 | `get_query` returns the cached value on a hit; when the cache agrees with the executor, it returns the executor's value |
| Queries.FeedOnce | compiler/tilc_middle/src/query/system.rs:116-122 | the feedable setter panics exactly when the key is present, and otherwise stores the value and leaves other keys alone |
| Queries.GetQueryAfterFeedOnce | compiler/tilc_middle/src/query/system.rs:116-122 | after a feed, `get_query` answers with the fed value, and a second feed panics |
| ArenaMath.AlignDown | compiler/tilc_arena/src/lib.rs:13-16 | `align_down` gives a multiple of the alignment, at most v and less than one alignment below it |
| ArenaMath.AlignUp | compiler/tilc_arena/src/lib.rs:19-22 | `align_up` gives a multiple of the alignment, at least v and less than one alignment above it |
| ArenaMath.AlignBounds | compiler/tilc_arena/src/lib.rs:12-22 | `align_down` is the largest multiple not above v, and `align_up` the smallest not below it |
| ArenaMath.AlignedIsFixed | compiler/tilc_arena/src/lib.rs:12-22 | aligning an aligned value changes nothing |
| ArenaMath.NextCapacity | compiler/tilc_data_structures/src/arena.rs:129-144 | a new chunk holds at least the request; the first is one page of elements and later ones double, capped at half a huge page, so the capacity never exceeds a huge page unless the request does |
| DataArena.AllocRawWithoutGrow | compiler/tilc_data_structures/src/arena.rs:53-69 | a block taken from the top of the free space is aligned, lies inside it, is the highest aligned fit, and becomes the new `end` |
| DataArena.WithoutGrowFindsAnyFit | compiler/tilc_data_structures/src/arena.rs:61-68 | the block search fails only when no aligned block fits anywhere in the free space |
| DataArena.Grow | compiler/tilc_data_structures/src/arena.rs:71-87 | `grow` pushes a chunk of at least the requested size and makes its full capacity the free space; the chunk assertions panic on capacity 0 |
| DataArena.AllocLoop | compiler/tilc_data_structures/src/arena.rs:44-50 | the retry loop returns a block that was free before any grow, or one in the newest chunk, and keeps the arena valid |
| DataArena.AllocRaw | compiler/tilc_data_structures/src/arena.rs:41-51 | `alloc_raw` panics exactly on a zero size |
| DataArena.Alloc | compiler/tilc_data_structures/src/arena.rs:30-39 | `alloc` panics for types that need dropping and for zero-sized ones |
| DataArena.AllocRawAfterOneGrow | compiler/tilc_data_structures/src/arena.rs:41-51 | with a suitably aligned fresh chunk, one grow is always enough |
| DataArena.SuccessiveBlocksDisjoint | compiler/tilc_data_structures/src/arena.rs:61-66 | successive blocks without a grow are disjoint, at strictly decreasing addresses |
| DataArena.RecordEntries | compiler/tilc_data_structures/src/arena.rs:134-137 | the chunk being left records how many whole elements it holds; the subtraction and division panic on bad input |
| DataArena.TypedGrow | compiler/tilc_data_structures/src/arena.rs:129-150 | a zero-sized type panics; otherwise a valid arena grows by a fresh chunk of at least the request at the given address |
| DataArena.TypedAlloc | compiler/tilc_data_structures/src/arena.rs:109-127 | `alloc` grows when start meets end, then returns the slot at start and bumps start by one element; a valid arena stays valid and the slot lies in the newest chunk |
| DataArena.SlotFits | compiler/tilc_data_structures/src/arena.rs:121-122 | a valid arena with free space has room for a whole element at start |
| DataArena.SuccessiveSlotsAdjacent | compiler/tilc_data_structures/src/arena.rs:121-124 | without a grow in between, consecutive slots are adjacent |
| DataArena.ZeroSizedTypedPanics | compiler/tilc_data_structures/src/arena.rs:161-163 | a zero-sized element type panics on its first `alloc` |
| TilcArena.ChunkEndAsWritten | compiler/tilc_arena/src/lib.rs:197-199 | as written, a fresh chunk's end (zero entries) is its start |
| TilcArena.ChunkEnd | compiler/tilc_arena/src/lib.rs:197-199 | as intended, a chunk ends one past the last element of its storage |
| TilcArena.TryAlloc | compiler/tilc_arena/src/lib.rs:130-145 | one pass of `alloc_raw` panics exactly when `end` is not aligned to `ALIGNMENT`; a block it finds is aligned to the layout and to `ALIGNMENT` |
| TilcArena.TryAllocFindsAnyFit | compiler/tilc_arena/src/lib.rs:134-144 | one pass finds a block whenever any suitably aligned block fits, and returns the highest one |
| TilcArena.StaysAligned | compiler/tilc_arena/src/lib.rs:136-139 | aligning an `ALIGNMENT`-aligned address down to any power of two keeps it `ALIGNMENT`-aligned, so the `assert!` that `end` is `ALIGNMENT`-aligned holds after every allocation |
| TilcArena.Grow | compiler/tilc_arena/src/lib.rs:151-175 | as intended, grow makes room for the request plus worst-case padding, in whole pages; as written, the free window is empty, and an unaligned chunk panics |
| TilcArena.PagesAreAligned | compiler/tilc_arena/src/lib.rs:165-168 | a whole number of pages after an aligned base ends aligned |
| TilcArena.AllocLoop | compiler/tilc_arena/src/lib.rs:129-148 | the loop returns an aligned block that becomes the new `end`; as intended, it keeps the arena valid and the block lies in the newest chunk |
| TilcArena.TakingKeepsValid | compiler/tilc_arena/src/lib.rs:138-143 | lowering `end` onto an aligned block inside the free window keeps the arena valid, and the block lies in the newest chunk |
| TilcArena.AllocRaw | compiler/tilc_arena/src/lib.rs:126-149 | `alloc_raw` panics on a zero size, and otherwise returns an aligned block |
| TilcArena.Alloc | compiler/tilc_arena/src/lib.rs:112-124 | `alloc` panics for types that need dropping and for zero-sized types |
| TilcArena.DroplessNeverAllocates | compiler/tilc_arena/src/lib.rs:197-199 | as written, the dropless arena never hands out a block: it panics on an unaligned chunk, or grows forever |
| TilcArena.NewDroplessNeverAllocates | compiler/tilc_arena/src/lib.rs:100-107 | the arena `new` returns is in that never-allocating state |
| TilcArena.DroplessAllocAfterOneGrow | compiler/tilc_arena/src/lib.rs:126-175 | with the intended chunk end, one grow is always enough whenever the fresh chunk starts `ALIGNMENT`-aligned, whatever its alignment for the layout |
| TilcArena.SlackFitsAlignedRequest | compiler/tilc_arena/src/lib.rs:134-153 | the `max(ALIGNMENT, align) - 1` bytes of slack `grow` adds to the request guarantee that the block `alloc_raw` carves below `end` starts inside the new chunk |
| TilcArena.SlackedChunkFits | compiler/tilc_arena/src/lib.rs:134-144 | an `ALIGNMENT`-aligned free window carrying that slack serves the request in one pass, without growing |
| TilcArena.RecordEntries | compiler/tilc_arena/src/lib.rs:66-70 | the chunk being left records how many whole elements it holds; a zero-sized type panics on the division |
| TilcArena.TypedGrow | compiler/tilc_arena/src/lib.rs:62-83 | a valid arena always grows; as intended, the new chunk gives a valid arena |
| TilcArena.TypedAlloc | compiler/tilc_arena/src/lib.rs:42-60 | `alloc` returns the slot at `ptr` and bumps it by one element; as intended, a valid arena stays valid and the slot lies in the newest chunk |
| TilcArena.SlotFits | compiler/tilc_arena/src/lib.rs:54-55 | a valid arena with free space has room for a whole element at `ptr` |
| TilcArena.TypedOverrunsChunk | compiler/tilc_arena/src/lib.rs:197-199 | as written, for a 4096-byte type the second `alloc` returns a slot just past its one-element chunk |

## Left out

- Locks, atomics and `RefCell` are left out. The interner, the caches, the holders, `AttrIdxGen` and the diagnostic context are modelled as plain sequential state.
- Printing is left out: `println!`, `dbg!` and `eprintln!`.
- File loading, hashing (`SandyqId::new`) and the session are left out.
- Raw memory is left out. The arenas work on integer addresses, and the pointer writes, `MaybeUninit`, `Box::leak` and `forget` are not modelled. The address of each fresh chunk is a parameter.
- Allocator failure is not modelled.
- Address arithmetic is unbounded. `usize` overflow in `align_up`, in the arenas' `additional` and in pointer arithmetic is not modelled, because `Layout` bounds the sizes in the source.
- `align_down`/`align_up` clear the low bits with a mask. The model states this as the remainder the mask clears; the two agree for powers of two.
- The tree builder is modelled over the reader's complete output, a sequence of (token, whitespace-before) pairs ending in `Eof`, rather than by pulling tokens on demand.
- The parser primitives appear twice, in parser.rs and parse.rs. They are identical, so they are modelled once (module `Parsers`).
- `Token::glueable`, `Token::is_kw`, `Token::ident`, `Ident::is_reserved`, `Span::to`, `parse_attributes` and `parse_item` are not in this model's sources. They are function parameters.
- `look_ahead_and` only applies its closure to `look_ahead` and is not modelled separately.
- The reader's `literal` path and every primitive the reader does not map (comments, raw and invalid identifiers, lifetimes, literals, `Unknown`) reach `todo!()` and are modelled only as that outcome.
- The third argument of the reader's `Span::new` (the module index) is dropped, since `Span` has two fields.
- The proc-macro parsing with syn/quote is left out. The model keeps the `Entries` tables, the attribute pass of `uidx!`, and what the expansions define.
- The `define_arenas!` macro only dispatches to the two arenas and is left out.
- The arena crates' `#[test]` functions only allocate and print, and assert nothing.
- Loops that need not terminate (`alloc_raw`'s retry loop and `parse_until`'s item loop) carry a `fuel` bound. A run that needs more rounds than the fuel allows is reported as `Diverge`, so results that hold "eventually" are stated for sufficient fuel.
- TokenTrees.GlueLoop: `glueable` is assumed never to glue a token onto `Eof`. If it did, `step`'s loop could keep gluing onto the `Eof` the exhausted reader returns again and again, and never end. That divergence is not modelled (`NeverGluesOntoEof`).
- TokenReader.Scan: a single primitive longer than `u32::MAX` bytes is taken to panic like any other position overflow; the source's `token.len as u32` would first truncate its length and could carry on with a wrapped position.
- TokenReader.RecordSymbol: `SymbolRepo::insert` is not part of this model's sources; it is taken to be `HashMap::insert` on the repository's map, which overwrites the span of a symbol already present.
- Lexer.CharToToken: the scanner is modelled only on ASCII input without NUL. NUL is the end-of-input sentinel, so such input is outside what the scanner can read faithfully.
- TokenStreams.Run: its contract states only the output length; what the output contains is stated by `TokenStreams.RunEmitsPendingThenEof` and `TokenStreams.CursorEmitsFlatten`.

## Findings

| source | as written | input that shows it | evidently intended | confidence | as-written member | corrected member |
|---|---|---|---|---|---|---|
| compiler/tilc_advanced_lexer/src/token_reader.rs:129-131 | `src_pos` returns `start_post - pos`: the file start minus the current position | any identifier after the file start, e.g. `a` at offset 0 of a file starting at 0 that has been read to offset 1; `0 - 1` underflows | `pos - start_post`: the position's offset inside the file | not executed | TokenReader.IdentifierAsWrittenPanics | TokenReader.IdentifierInternsItsText |
| compiler/tilc_span/src/interner.rs:25-28 | `debug_assert!(!is_new)` right after `insert_full` of a string known to be absent | interning any string into `Interner::new()` | assert that the string was new, or no assertion | not executed | Interner.FreshInternPanics | Interner.InternIdempotent |
| compiler/tilc_arena/src/lib.rs:197-199 | `ArenaChunk::end` is `start().add(self.entries)`, and `entries` is 0 for a fresh chunk | a `DroplessArena` asked for 8 bytes gets an empty free window after every `grow`; a `TypedArena` of a 4096-byte type writes its second element past the one-element chunk | the end of the storage: `start().add(storage.len())` | not executed | TilcArena.DroplessNeverAllocates | TilcArena.DroplessAllocAfterOneGrow |
| compiler/tilc_ast/src/sandyq.rs:482-486 | `make_attr_idx` builds `AttrIdx(next_idx)` directly and only checks against `u32::MAX` | the calls return 0, 1, 2, …, so the 0xFFFF_FF02nd call returns index 0xFFFF_FF01, above `AttrIdx::MAX` = 0xFFFF_FF00 | go through `AttrIdx::from_u32`, which enforces the bound | not executed | Sandyq.MakeAttrIdxExceedsMax | Sandyq.MakeAttrIdxChecked |

=== FILE: arena_math.dfy ===
/** Address arithmetic shared by the two arena crates
    (tilc_arena/src/lib.rs and tilc_data_structures/src/arena.rs).

    Addresses and sizes are plain naturals: the arenas' pointers are modelled
    by their integer addresses only, never by the memory behind them. */
module ArenaMath {
  import opened Outcomes

  /** `PAGE` and `HUGE_PAGE` of both crates. */
  const PAGE: nat := 4096
  const HUGE_PAGE: nat := 2 * 1024 * 1024

  predicate IsPowerOfTwo(a: nat)
    decreases a
  {
    a == 1 || (a >= 2 && a % 2 == 0 && IsPowerOfTwo(a / 2))
  }

  /** `val & !(align - 1)`, written as the remainder it clears. The two agree
      because `align` is a power of two, which both crates `debug_assert!`. */
  function AlignDown(v: nat, a: nat): (r: nat)
    requires IsPowerOfTwo(a)
    ensures r % a == 0 && r <= v && v - r < a
  {
    PowerOfTwoPositive(a);
    RemainderCleared(v, a);
    v - v % a
  }

  /** `(val + align - 1) & !(align - 1)`. */
  function AlignUp(v: nat, a: nat): (r: nat)
    requires IsPowerOfTwo(a)
    ensures r % a == 0 && v <= r && r - v < a
  {
    AlignDown(v + a - 1, a)
  }

  /** `align_down` is the largest multiple of `a` not above `v`, `align_up`
      the smallest not below it. */
  lemma AlignBounds(v: nat, a: nat, m: nat)
    requires IsPowerOfTwo(a) && m % a == 0
    ensures m <= v ==> m <= AlignDown(v, a)
    ensures m >= v ==> m >= AlignUp(v, a)
  {
    var d := AlignDown(v, a);
    var u := AlignUp(v, a);
    if m <= v && m > d {
      MultiplesApart(d, m, a);
    }
    if m >= v && m < u {
      MultiplesApart(m, u, a);
    }
  }

  lemma PowerOfTwoPositive(a: nat)
    requires IsPowerOfTwo(a)
    ensures a > 0
  {
  }

  /** Taking away the remainder leaves a multiple. */
  lemma RemainderCleared(v: nat, a: nat)
    requires a > 0
    ensures v % a <= v && v % a < a && (v - v % a) % a == 0
  {
    assert v == a * (v / a) + v % a;
    assert v / a >= 0 && a * (v / a) >= 0;
    MultipleMod(a, v / a);
  }

  /** Aligning an aligned value changes nothing. */
  lemma AlignedIsFixed(v: nat, a: nat)
    requires IsPowerOfTwo(a) && v % a == 0
    ensures AlignDown(v, a) == v && AlignUp(v, a) == v
  {
    AlignBounds(v, a, v);
  }

  /** Of two powers of two, the larger is a multiple of the smaller. */
  lemma {:induction false} PowersOfTwoDivide(a: nat, b: nat)
    requires IsPowerOfTwo(a) && IsPowerOfTwo(b) && a <= b
    ensures b % a == 0
    decreases a
  {
    if a != 1 {
      PowersOfTwoDivide(a / 2, b / 2);
      var k := (b / 2) / (a / 2);
      assert b / 2 == (a / 2) * k;
      assert b == a * k;
      MultipleMod(a, k);
    }
  }

  /** A multiple of a multiple of `a` is a multiple of `a`. */
  lemma DividesTransitive(x: nat, a: nat, b: nat)
    requires a > 0 && b > 0 && x % b == 0 && b % a == 0
    ensures x % a == 0
  {
    var qb, qa := x / b, b / a;
    assert x == b * qb;
    assert b == a * qa;
    assert x == a * (qa * qb);
    MultipleMod(a, qa * qb);
  }

  /** Two distinct multiples of `a` are at least `a` apart. */
  lemma MultiplesApart(x: nat, y: nat, a: nat)
    requires a > 0 && x % a == 0 && y % a == 0 && x < y
    ensures x + a <= y
  {
    var qx, qy := x / a, y / a;
    if qy < qx {
      MulStep(a, qy, qx);
      assert false;
    } else if qx < qy {
      MulStep(a, qx, qy);
    }
  }

  /** The sum of two multiples of `a` is one. */
  lemma MultipleAdd(x: nat, y: nat, a: nat)
    requires a > 0 && x % a == 0 && y % a == 0
    ensures (x + y) % a == 0
  {
    var qx, qy := x / a, y / a;
    assert a * (qx + qy) == a * qx + a * qy;
    DivModUnique(x + y, a, qx + qy, 0);
  }

  /** Division by `a` undoes multiplication by it. */
  lemma MultipleMod(a: nat, q: nat)
    requires a > 0
    ensures (a * q) % a == 0 && (a * q) / a == q
  {
    DivModUnique(a * q, a, q, 0);
  }

  /** Quotient and remainder are the only ones. */
  lemma DivModUnique(v: nat, a: nat, q: nat, r: nat)
    requires a > 0 && r < a && v == a * q + r
    ensures v / a == q && v % a == r
  {
    var q' := v / a;
    if q < q' {
      MulStep(a, q, q');
      assert false;
    } else if q' < q {
      MulStep(a, q', q);
      assert false;
    }
  }

  lemma MulStep(a: nat, x: nat, y: nat)
    requires x < y
    ensures a * x + a <= a * y
  {
    var d := y - x - 1;
    assert y == x + 1 + d;
    assert a * y == a * x + a + a * d;
  }

  lemma DivMonotone(x: nat, y: nat, d: nat)
    requires x <= y && d > 0
    ensures x / d <= y / d
  {
    if y / d < x / d {
      MulStep(d, y / d, x / d);
      assert false;
    }
  }

  /** The capacity rule of every `grow`, in elements of `elem` bytes: the
      first chunk holds a page, each later one twice its predecessor but at
      most half a huge page doubled, and never less than the request. */
  function NextCapacity(last: Option<nat>, additional: nat, elem: nat): (r: nat)
    requires elem >= 1
    ensures r >= additional
    ensures r <= Max(additional, HUGE_PAGE / elem)
  {
    var huge := HUGE_PAGE / elem;
    var cap := match last
      case None => PAGE / elem
      case Some(c) => 2 * Min(c, huge / 2);
    assert PAGE / elem <= huge by { DivMonotone(PAGE, HUGE_PAGE, elem); }
    assert cap <= huge;
    Max(additional, cap)
  }


  function Max(a: nat, b: nat): nat {
    if a >= b then a else b
  }

  function Min(a: nat, b: nat): nat {
    if a <= b then a else b
  }
}

=== FILE: caches.dfy ===
/** Query result caches: the write-once caches of tilc_middle/src/query/cache.rs
    and the caches of tilc_query_system/src/query/cache.rs, whose `DefaultCache`
    overwrites and whose `DefIdCache` splits local from foreign keys.

    Locks are left out; each cache is its map (or its one `OnceLock` cell), and
    `lookup` is a pure read, so it cannot change the cache. `try_get_cache`
    returns `lookup` unchanged and needs no member of its own. */
module Caches {
  import opened Outcomes
  import Uidx
  import DefIds

  /** `UnitCache`: one `OnceLock` cell for the query with key `()`. */
  datatype UnitCache<V> = UnitCache(cell: Option<V>)

  function UnitLookup<V>(c: UnitCache<V>): Option<V> {
    c.cell
  }

  /** `OnceLock::set(..).ok().unwrap()`: fails on a filled cell. */
  function SetOnce<V>(c: UnitCache<V>, v: V): (r: Res<UnitCache<V>>)
    ensures r.Ok? <==> c.cell.None?
    ensures r.Ok? ==> UnitLookup(r.value) == Some(v)
  {
    if c.cell.Some? then Fail(Panic) else Ok(UnitCache(Some(v)))
  }

  /** `UnitCache::compute` of tilc_middle: panic if a value is present, then
      set the cell. */
  function UnitComputeChecked<V>(c: UnitCache<V>, v: V): (r: Res<UnitCache<V>>)
    ensures r.Ok? <==> UnitLookup(c).None?
    ensures r.Fail? ==> r.fault == Panic
    ensures r.Ok? ==> UnitLookup(r.value) == Some(v)
  {
    if UnitLookup(c).Some? then Fail(Panic) else SetOnce(c, v)
  }

  /** `UnitCache::compute` of tilc_query_system: set the cell directly. */
  function UnitCompute<V>(c: UnitCache<V>, v: V): (r: Res<UnitCache<V>>)
    ensures r.Ok? <==> UnitLookup(c).None?
    ensures r.Ok? ==> UnitLookup(r.value) == Some(v)
  {
    SetOnce(c, v)
  }

  /** The two unit caches behave alike: the extra `lookup` of the first only
      moves the panic, it does not change when one happens. Either way a
      value is computed at most once. */
  lemma UnitComputesAgree<V>(c: UnitCache<V>, v: V, w: V)
    ensures UnitComputeChecked(c, v) == UnitCompute(c, v)
    ensures UnitCompute(c, v).Ok? ==> UnitCompute(UnitCompute(c, v).value, w) == Fail(Panic)
  {
  }

  /** A `HashMap`-backed cache. */
  datatype MapCache<K, V> = MapCache(entries: map<K, V>)

  function Lookup<K, V>(c: MapCache<K, V>, k: K): (r: Option<V>)
    ensures r.Some? <==> k in c.entries
    ensures r.Some? ==> r.value == c.entries[k]
  {
    if k in c.entries then Some(c.entries[k]) else None
  }

  /** `DefaultCahce::compute` of tilc_middle: insert into a vacant entry, panic
      on an occupied one. */
  function ComputeOnce<K(!new), V>(c: MapCache<K, V>, k: K, v: V): (r: Res<MapCache<K, V>>)
    ensures r.Ok? <==> Lookup(c, k).None?
    ensures r.Fail? ==> r.fault == Panic
    ensures r.Ok? ==> Lookup(r.value, k) == Some(v)
    ensures r.Ok? ==> forall j :: j != k ==> Lookup(r.value, j) == Lookup(c, j)
  {
    if k in c.entries then Fail(Panic) else Ok(MapCache(c.entries[k := v]))
  }

  /** `DefaultCache::compute` of tilc_query_system: `insert`, so the last
      write wins. */
  function ComputeOverwrite<K(!new), V>(c: MapCache<K, V>, k: K, v: V): (r: MapCache<K, V>)
    ensures Lookup(r, k) == Some(v)
    ensures forall j :: j != k ==> Lookup(r, j) == Lookup(c, j)
  {
    MapCache(c.entries[k := v])
  }

  /** Each key of the write-once cache is written at most once. */
  lemma ComputeOnceTwicePanics<K(!new), V>(c: MapCache<K, V>, k: K, v: V, w: V)
    requires ComputeOnce(c, k, v).Ok?
    ensures ComputeOnce(ComputeOnce(c, k, v).value, k, w) == Fail(Panic)
  {
  }

  /** In the overwriting cache a second write replaces the first. */
  lemma LastWriteWins<K(!new), V>(c: MapCache<K, V>, k: K, v: V, w: V)
    ensures ComputeOverwrite(ComputeOverwrite(c, k, v), k, w) == ComputeOverwrite(c, k, w)
  {
  }

  /** `DefIdCache`: local definitions by their `DefIdx`, the rest in a
      `DefaultCache` keyed by the whole `DefId`. */
  datatype DefIdCache<V> = DefIdCache(local: map<Uidx.Idx, V>, foreign: MapCache<DefIds.DefId, V>)

  /** `DefIdCache::lookup`: route by `sandyq_idx == LOCAL_SANDYQ`. */
  function DefIdLookup<V>(c: DefIdCache<V>, k: DefIds.DefId): Option<V> {
    if k.sandyqIdx == DefIds.LOCAL_SANDYQ then
      if k.defIdx in c.local then Some(c.local[k.defIdx]) else None
    else Lookup(c.foreign, k)
  }

  /** `DefIdCache::compute`: the same routing; both sides overwrite. Local
      keys never touch the foreign cache and foreign keys never touch the
      local map. */
  function DefIdCompute<V>(c: DefIdCache<V>, k: DefIds.DefId, v: V): (r: DefIdCache<V>)
    ensures DefIds.IsLocal(k) ==> r.foreign == c.foreign && k.defIdx in r.local
    ensures !DefIds.IsLocal(k) ==> r.local == c.local
  {
    if k.sandyqIdx == DefIds.LOCAL_SANDYQ then DefIdCache(c.local[k.defIdx := v], c.foreign)
    else DefIdCache(c.local, ComputeOverwrite(c.foreign, k, v))
  }

  /** The split is invisible from outside: the `DefIdCache` behaves as one
      overwriting map from `DefId` to value. */
  lemma DefIdCacheIsAMap<V>(c: DefIdCache<V>, k: DefIds.DefId, v: V, j: DefIds.DefId)
    ensures DefIdLookup(DefIdCompute(c, k, v), k) == Some(v)
    ensures j != k ==> DefIdLookup(DefIdCompute(c, k, v), j) == DefIdLookup(c, j)
  {
  }
}

=== FILE: data_arena.dfy ===
/** The arenas of tilc_data_structures/src/arena.rs.

    A `DroplessArena` hands out raw blocks from the free space `[start, end)`
    of its newest chunk, taking each block from the top and moving `end` down;
    when a block does not fit, `grow` pushes a fresh chunk and the loop retries.
    A `TypedArena<T>` hands out one element slot at a time from the bottom,
    moving `start` up by `size_of::<T>()`, and grows when `start` meets `end`.

    Pointers are modelled by their addresses. The address of each fresh chunk
    comes from the allocator, a parameter `addrOf` indexed by how many chunks
    the arena already owns. The unbounded `loop` of `alloc_raw` carries a
    `fuel` bound: running out of fuel is reported as `Diverge`. */
module DataArena {
  import opened Outcomes
  import opened ArenaMath

  /** An `ArenaChunk`: the address of its storage, the `entries` a typed arena
      records when it leaves the chunk, and its capacity in elements. */
  datatype Chunk = Chunk(storage: nat, entries: nat, capacity: nat)

  function LastCapacity(chunks: seq<Chunk>): Option<nat> {
    if |chunks| == 0 then None else Some(chunks[|chunks| - 1].capacity)
  }

  /** A `DroplessArena` (elements are bytes). */
  datatype Dropless = Dropless(start: nat, end: nat, chunks: seq<Chunk>)

  /** `DroplessArena::new`: both pointers null and no chunk. */
  const NEW_DROPLESS := Dropless(0, 0, [])

  /** The free space lies in the newest chunk and begins at its storage. */
  predicate DroplessValid(a: Dropless) {
    if |a.chunks| == 0 then a.start == 0 && a.end == 0
    else
      var last := a.chunks[|a.chunks| - 1];
      a.start == last.storage && a.start <= a.end <= last.storage + last.capacity
  }

  /** `alloc_raw_without_grow`: take `size` bytes from the top of the free
      space, rounded down to `align`. The block returned is the highest
      aligned one that fits; `None` leaves the arena as it was. */
  function AllocRawWithoutGrow(a: Dropless, size: nat, align: nat): (r: Option<(nat, Dropless)>)
    requires IsPowerOfTwo(align)
    ensures r.Some? ==> && r.value.0 % align == 0
                        && a.start <= r.value.0 && r.value.0 + size <= a.end
                        && a.end - (r.value.0 + size) < align
                        && r.value.1 == a.(end := r.value.0)
  {
    if a.end < size then None
    else
      var newEnd := AlignDown(a.end - size, align);
      if a.start <= newEnd then Some((newEnd, a.(end := newEnd))) else None
  }

  /** `alloc_raw_without_grow` fails only when no aligned block fits at all:
      any aligned block inside the free space is at or below the one it returns. */
  lemma WithoutGrowFindsAnyFit(a: Dropless, size: nat, align: nat, m: nat)
    requires IsPowerOfTwo(align) && m % align == 0 && a.start <= m && m + size <= a.end
    ensures AllocRawWithoutGrow(a, size, align).Some?
    ensures m <= AllocRawWithoutGrow(a, size, align).value.0
  {
    AlignBounds(a.end - size, align, m);
  }

  /** `DroplessArena::grow`: a chunk of `NextCapacity` bytes at `base` becomes
      the free space. `ArenaChunk::new` asserts a non-zero capacity. */
  function Grow(a: Dropless, additional: nat, base: nat): (r: Res<Dropless>)
    ensures r.Ok? <==> NextCapacity(LastCapacity(a.chunks), additional, 1) > 0
    ensures r.Fail? ==> r.fault == Panic
    ensures r.Ok? ==> && r.value.start == base
                      && r.value.end - r.value.start >= additional
                      && r.value.chunks == a.chunks + [Chunk(base, 0, r.value.end - base)]
                      && DroplessValid(r.value)
  {
    var cap := NextCapacity(LastCapacity(a.chunks), additional, 1);
    if cap == 0 then Fail(Panic)
    else Ok(Dropless(base, base + cap, a.chunks + [Chunk(base, 0, cap)]))
  }

  /** The `loop` of `alloc_raw`, with at most `fuel` calls to `grow`. A block
      taken without growing lies in the old free space; from a valid arena,
      every block lies in the newest chunk. */
  function AllocLoop(a: Dropless, size: nat, align: nat, addrOf: nat -> nat, fuel: nat): (r: Res<(nat, Dropless)>)
    requires IsPowerOfTwo(align) && size > 0
    decreases fuel
    ensures r.Fail? ==> r.fault == Diverge
    ensures r.Ok? ==> r.value.0 % align == 0 && r.value.1.end == r.value.0 && |r.value.1.chunks| >= |a.chunks|
    ensures r.Ok? && |r.value.1.chunks| == |a.chunks| ==>
              r.value.1 == a.(end := r.value.0) && a.start <= r.value.0 && r.value.0 + size <= a.end
    ensures r.Ok? && DroplessValid(a) ==> DroplessValid(r.value.1) && InNewestChunk(r.value.1, r.value.0, size)
  {
    match AllocRawWithoutGrow(a, size, align)
    case Some(hit) => Ok(hit)
    case None =>
      if fuel == 0 then Fail(Diverge)
      else AllocLoop(Grow(a, size, addrOf(|a.chunks|)).value, size, align, addrOf, fuel - 1)
  }

  predicate InNewestChunk(a: Dropless, p: nat, size: nat) {
    |a.chunks| > 0 && a.chunks[|a.chunks| - 1].storage <= p
    && p + size <= a.chunks[|a.chunks| - 1].storage + a.chunks[|a.chunks| - 1].capacity
  }

  /** `alloc_raw`: a zero-sized layout panics, anything else loops until a
      block fits. */
  function AllocRaw(a: Dropless, size: nat, align: nat, addrOf: nat -> nat, fuel: nat): (r: Res<(nat, Dropless)>)
    requires IsPowerOfTwo(align)
    ensures size == 0 <==> r == Fail(Panic)
    ensures r.Ok? ==> r.value.0 % align == 0
    ensures r.Ok? && DroplessValid(a) ==> DroplessValid(r.value.1) && InNewestChunk(r.value.1, r.value.0, size)
  {
    if size == 0 then Fail(Panic) else AllocLoop(a, size, align, addrOf, fuel)
  }

  /** `DroplessArena::alloc::<T>`: refuses types that need dropping, then
      takes a block of `T`'s layout. */
  function Alloc(a: Dropless, size: nat, align: nat, needsDrop: bool, addrOf: nat -> nat, fuel: nat): (r: Res<(nat, Dropless)>)
    requires IsPowerOfTwo(align)
    ensures (needsDrop || size == 0) <==> r == Fail(Panic)
    ensures r.Ok? ==> r == AllocRaw(a, size, align, addrOf, fuel)
  {
    if needsDrop then Fail(Panic) else AllocRaw(a, size, align, addrOf, fuel)
  }

  /** One `grow` is always enough when the allocator's next chunk is aligned
      for the layout: `alloc_raw` succeeds with a single unit of fuel. */
  lemma AllocRawAfterOneGrow(a: Dropless, size: nat, align: nat, addrOf: nat -> nat, fuel: nat)
    requires IsPowerOfTwo(align) && size > 0 && fuel >= 1 && addrOf(|a.chunks|) % align == 0
    ensures AllocRaw(a, size, align, addrOf, fuel).Ok?
  {
    if AllocRawWithoutGrow(a, size, align).None? {
      var g := Grow(a, size, addrOf(|a.chunks|)).value;
      WithoutGrowFindsAnyFit(g, size, align, g.start);
      assert AllocLoop(g, size, align, addrOf, fuel - 1).Ok?;
    }
  }

  /** Two blocks taken from the same chunk do not overlap: the later one ends
      where the earlier one begins, or below. */
  lemma SuccessiveBlocksDisjoint(a: Dropless, s1: nat, al1: nat, s2: nat, al2: nat, addrOf: nat -> nat, f1: nat, f2: nat)
    requires IsPowerOfTwo(al1) && IsPowerOfTwo(al2)
    requires AllocRaw(a, s1, al1, addrOf, f1).Ok?
    requires AllocRaw(AllocRaw(a, s1, al1, addrOf, f1).value.1, s2, al2, addrOf, f2).Ok?
    requires |AllocRaw(AllocRaw(a, s1, al1, addrOf, f1).value.1, s2, al2, addrOf, f2).value.1.chunks|
             == |AllocRaw(a, s1, al1, addrOf, f1).value.1.chunks|
    ensures AllocRaw(AllocRaw(a, s1, al1, addrOf, f1).value.1, s2, al2, addrOf, f2).value.0 + s2
            <= AllocRaw(a, s1, al1, addrOf, f1).value.0
  {
  }

  /** A `TypedArena<T>` for a `T` of `elemSize` bytes: slots are handed out
      upwards from `start`. */
  datatype Typed = Typed(start: nat, end: nat, chunks: seq<Chunk>)

  /** `TypedArena::new`. */
  const NEW_TYPED := Typed(0, 0, [])

  /** The slot an `alloc` returns: an address, or the dangling pointer used for
      zero-sized types. */
  datatype Slot = At(addr: nat) | Dangling

  /** The free slots `[start, end)` are whole elements of the newest chunk,
      which `end` closes. */
  predicate TypedValid(t: Typed, elemSize: nat) {
    elemSize > 0 &&
    if |t.chunks| == 0 then t.start == 0 && t.end == 0
    else
      var last := t.chunks[|t.chunks| - 1];
      && last.capacity > 0
      && last.storage <= t.start <= t.end == last.storage + elemSize * last.capacity
      && (t.start - last.storage) % elemSize == 0
  }

  /** The `needs_drop` branch of `grow`: the chunk being left records how many
      elements it holds; the `usize` subtraction and the division can panic. */
  function RecordEntries(t: Typed, elemSize: nat): (r: Res<seq<Chunk>>)
    requires |t.chunks| > 0
    ensures r.Ok? <==> t.chunks[|t.chunks| - 1].storage <= t.start && elemSize > 0
    ensures r.Fail? ==> r.fault == Panic
    ensures r.Ok? ==> && |r.value| == |t.chunks| && r.value[..|t.chunks| - 1] == t.chunks[..|t.chunks| - 1]
                      && r.value[|t.chunks| - 1].capacity == t.chunks[|t.chunks| - 1].capacity
                      && r.value[|t.chunks| - 1].storage == t.chunks[|t.chunks| - 1].storage
                      && elemSize * r.value[|t.chunks| - 1].entries <= t.start - t.chunks[|t.chunks| - 1].storage
  {
    var last := t.chunks[|t.chunks| - 1];
    if t.start < last.storage || elemSize == 0 then Fail(Panic)
    else
      var entries := (t.start - last.storage) / elemSize;
      assert elemSize * entries <= t.start - last.storage by { RemainderCleared(t.start - last.storage, elemSize); }
      Ok(t.chunks[..|t.chunks| - 1] + [last.(entries := entries)])
  }

  /** `TypedArena::grow`: a chunk of `NextCapacity` elements at `base`.
      `ArenaChunk::new` asserts that `T` is not zero-sized and that the
      capacity is not zero. */
  function TypedGrow(t: Typed, additional: nat, elemSize: nat, needsDrop: bool, base: nat): (r: Res<Typed>)
    ensures elemSize == 0 ==> r == Fail(Panic)
    ensures r.Fail? ==> r.fault == Panic
    ensures r.Ok? ==> && r.value.start == base
                      && |r.value.chunks| == |t.chunks| + 1
                      && r.value.chunks[|t.chunks|].storage == base
                      && r.value.chunks[|t.chunks|].entries == 0
                      && r.value.chunks[|t.chunks|].capacity >= additional
                      && TypedValid(r.value, elemSize)
    ensures TypedValid(t, elemSize) && additional > 0 ==> r.Ok?
  {
    var chunks :- if |t.chunks| > 0 && needsDrop then RecordEntries(t, elemSize) else Ok(t.chunks);
    var cap := NextCapacity(LastCapacity(t.chunks), additional, Max(1, elemSize));
    if elemSize == 0 || cap == 0 then Fail(Panic)
    else FreshChunk(chunks, base, elemSize, cap)
  }

  /** The arena right after `grow` pushed a chunk of `cap` elements at `base`. */
  function FreshChunk(chunks: seq<Chunk>, base: nat, elemSize: nat, cap: nat): (r: Res<Typed>)
    requires elemSize > 0 && cap > 0
    ensures r.Ok? && r.value.start == base && r.value.chunks == chunks + [Chunk(base, 0, cap)]
    ensures TypedValid(r.value, elemSize)
  {
    assert (base - base) % elemSize == 0;
    Ok(Typed(base, base + elemSize * cap, chunks + [Chunk(base, 0, cap)]))
  }

  /** `TypedArena::alloc`: grow when the free space is empty, then take the
      slot at `start`. A zero-sized `T` only bumps `start` by one byte. */
  function TypedAlloc(t: Typed, elemSize: nat, needsDrop: bool, base: nat): (r: Res<(Slot, Typed)>)
    ensures elemSize == 0 && t.start == t.end ==> r == Fail(Panic)
    ensures r.Ok? && elemSize == 0 ==> r.value.0 == Dangling
    ensures r.Ok? && elemSize > 0 && |r.value.1.chunks| == |t.chunks| ==>
              r.value.0 == At(t.start) && r.value.1 == t.(start := t.start + elemSize)
    ensures TypedValid(t, elemSize) ==> && r.Ok? && TypedValid(r.value.1, elemSize)
                                        && r.value.0.At? && InTypedChunk(r.value.1, r.value.0.addr, elemSize)
  {
    var t1 :- if t.start == t.end then TypedGrow(t, 1, elemSize, needsDrop, base) else Ok(t);
    if elemSize == 0 then Ok((Dangling, t1.(start := t1.start + 1)))
    else
      SlotFits(t1, elemSize);
      Ok((At(t1.start), t1.(start := t1.start + elemSize)))
  }

  predicate InTypedChunk(t: Typed, p: nat, elemSize: nat) {
    |t.chunks| > 0 && t.chunks[|t.chunks| - 1].storage <= p
    && p + elemSize <= t.chunks[|t.chunks| - 1].storage + elemSize * t.chunks[|t.chunks| - 1].capacity
  }

  /** A valid typed arena with free space has room for a whole element at
      `start`, and taking it keeps the arena valid. */
  lemma SlotFits(t: Typed, elemSize: nat)
    requires elemSize > 0
    ensures TypedValid(t, elemSize) && t.start < t.end ==>
              && TypedValid(t.(start := t.start + elemSize), elemSize)
              && InTypedChunk(t.(start := t.start + elemSize), t.start, elemSize)
  {
    if TypedValid(t, elemSize) && t.start < t.end {
      var last := t.chunks[|t.chunks| - 1];
      MultipleMod(elemSize, last.capacity);
      MultiplesApart(t.start - last.storage, t.end - last.storage, elemSize);
      MultipleAdd(t.start - last.storage, elemSize, elemSize);
      assert (t.start + elemSize) - last.storage == (t.start - last.storage) + elemSize;
    }
  }

  /** Without a `grow` in between, consecutive slots are adjacent. */
  lemma SuccessiveSlotsAdjacent(t: Typed, elemSize: nat, needsDrop: bool, b1: nat, b2: nat)
    requires TypedValid(t, elemSize)
    requires |TypedAlloc(TypedAlloc(t, elemSize, needsDrop, b1).value.1, elemSize, needsDrop, b2).value.1.chunks|
             == |TypedAlloc(t, elemSize, needsDrop, b1).value.1.chunks|
    ensures TypedAlloc(TypedAlloc(t, elemSize, needsDrop, b1).value.1, elemSize, needsDrop, b2).value.0.addr
            == TypedAlloc(t, elemSize, needsDrop, b1).value.0.addr + elemSize
  {
  }

  /** A zero-sized `T` panics on its first `alloc`: the debug assertion of
      `ArenaChunk::new` rejects it. */
  lemma ZeroSizedTypedPanics(needsDrop: bool, base: nat)
    ensures TypedAlloc(NEW_TYPED, 0, needsDrop, base) == Fail(Panic)
  {
  }
}

=== FILE: def_id.dfy ===
/** Definition identifiers (tilc_span/src/def_id.rs).

    `DefIdx` and `SandyqIdx` are `uidx!` types with the default bound. A `DefId`
    pairs a definition index with the index of the sandyq (compilation unit)
    that owns it; the local sandyq is `SandyqIdx::EMPTY`, index 0. The hashed
    `SandyqId` is left out. */
module DefIds {
  import opened Outcomes
  import Uidx

  /** `LOCAL_SANDYQ`: `SandyqIdx::EMPTY`. */
  const LOCAL_SANDYQ: Uidx.Idx := Uidx.Idx(0)

  datatype LocalDefIdx = LocalDefIdx(local: Uidx.Idx)

  datatype DefId = DefId(defIdx: Uidx.Idx, sandyqIdx: Uidx.Idx)

  /** `SANDYQ_DEF_IDX`: the local definition with `DefIdx::EMPTY`. */
  const SANDYQ_DEF_IDX: LocalDefIdx := LocalDefIdx(Uidx.Idx(0))

  /** `DefId::is_local`. */
  predicate IsLocal(d: DefId) {
    d.sandyqIdx == LOCAL_SANDYQ
  }

  /** `LocalDefIdx::to_def_id`: keep the index, mark it as local. */
  function ToDefId(l: LocalDefIdx): (d: DefId)
    ensures d.defIdx == l.local && IsLocal(d)
  {
    DefId(l.local, LOCAL_SANDYQ)
  }

  /** The local `DefId`s are exactly the images of `to_def_id`, and it loses
      nothing. */
  lemma LocalDefIdsAreConverted(d: DefId, a: LocalDefIdx, b: LocalDefIdx)
    ensures IsLocal(d) <==> d == ToDefId(LocalDefIdx(d.defIdx))
    ensures ToDefId(a) == ToDefId(b) ==> a == b
  {
  }

  /** The constants are what the crate says: both are index 0, and both pass
      the default bound. */
  lemma ConstantsAreEmpty()
    ensures Uidx.FromU32(Uidx.DEFAULT_MAX, 0) == Ok(LOCAL_SANDYQ)
    ensures ToDefId(SANDYQ_DEF_IDX) == DefId(Uidx.Idx(0), Uidx.Idx(0))
  {
  }

  /** `Idx::new` for `DefIdx`: `from_usize` under the default bound. */
  function IdxNew(v: usize): (r: Res<Uidx.Idx>)
    ensures r.Ok? <==> v as int <= Uidx.DEFAULT_MAX as int
  {
    Uidx.FromUsize(Uidx.DEFAULT_MAX, v)
  }

  /** `Idx::index` for `DefIdx`. */
  function Index(i: Uidx.Idx): usize {
    Uidx.AsUsize(i)
  }

  /** `index(new(v)) == v` wherever `new` accepts `v`, and `new(index(i)) == i`
      for every valid index. */
  lemma IdxRoundTrip(v: usize, i: Uidx.Idx)
    ensures IdxNew(v).Ok? ==> Index(IdxNew(v).value) == v
    ensures Uidx.Valid(Uidx.DEFAULT_MAX, i) ==> IdxNew(Index(i)) == Ok(i)
  {
  }
}

=== FILE: diagnostic.dfy ===
/** Diagnostics (tilc_error/src/diagnostic.rs).

    A `Diag` owns an optional boxed `DiagInner`, which emitting takes out. The
    context's `emit_diagnostic` returns an `ErrorGuaranteed` token for errors
    and fatal errors only, and `Diag::emit` unwraps it. The `RefCell` of the
    context and the `PhantomData` marker are left out. */
module Diagnostics {
  import opened Outcomes
  import opened Spans

  datatype Level = Note | Warning | Error | Fatal

  datatype DiagInner = DiagInner(level: Level, message: string, span: Span)

  /** Proof that an error was reported. */
  datatype ErrorGuaranteed = ErrorGuaranteed

  /** `DiagInner::new`: no location yet. */
  function NewInner(level: Level, message: string): (d: DiagInner)
    ensures d.level == level && d.message == message && d.span == EMPTY
  {
    DiagInner(level, message, EMPTY)
  }

  /** `DiagInner::is_error`. */
  predicate IsError(d: DiagInner) {
    d.level == Error || d.level == Fatal
  }

  /** `DiagCtxtInner::emit_diagnostic`: warnings return at once; the rest
      return a token exactly when they are errors. */
  function EmitDiagnostic(d: DiagInner): (r: Option<ErrorGuaranteed>)
    ensures r.Some? <==> d.level == Error || d.level == Fatal
  {
    if d.level == Warning then None
    else if IsError(d) then Some(ErrorGuaranteed)
    else None
  }

  datatype Diag = Diag(diag: Option<DiagInner>)

  /** `Diag::new`. */
  function NewDiag(level: Level, message: string): (d: Diag)
    ensures d.diag == Some(NewInner(level, message))
  {
    Diag(Some(NewInner(level, message)))
  }

  /** `take_diag`: the inner diagnostic, leaving none behind. */
  function TakeDiag(d: Diag): (r: Res<(DiagInner, Diag)>)
    ensures r.Ok? <==> d.diag.Some?
    ensures r.Ok? ==> Some(r.value.0) == d.diag && r.value.1.diag.None?
  {
    match d.diag
    case None => Fail(Panic)
    case Some(inner) => Ok((inner, Diag(None)))
  }

  /** `Diag::emit` (through `emit_error_guaranteed`): take the diagnostic and
      unwrap what the context returns. */
  function Emit(d: Diag): (r: Res<ErrorGuaranteed>)
    ensures r.Ok? <==> d.diag.Some? && IsError(d.diag.value)
    ensures r.Fail? ==> r.fault == Panic
  {
    var taken :- TakeDiag(d);
    match EmitDiagnostic(taken.0)
    case None => Fail(Panic)
    case Some(g) => Ok(g)
  }

  /** A fresh diagnostic is taken exactly once, and emitting it succeeds for
      errors and fatal errors while a note or a warning makes the `unwrap`
      panic. */
  lemma EmitFresh(level: Level, message: string)
    ensures TakeDiag(NewDiag(level, message)).Ok?
    ensures TakeDiag(TakeDiag(NewDiag(level, message)).value.1) == Fail(Panic)
    ensures Emit(NewDiag(level, message)).Ok? <==> level == Error || level == Fatal
  {
  }
}

=== FILE: holder.dfy ===
/** The steal-once cell `Holder` (tilc_data_structure/src/holder.rs and the
    smaller copy tilc_data_structures/src/holder.rs, which has only `new` and
    `steal`).

    A holder starts full; `steal` takes the value out and leaves it empty for
    good. The `RwLock` around the cell is left out: every operation is
    sequential here. `get_mut` hands out a mutable reference; it is modelled by
    the update `f` the caller applies through it. */
module Holders {
  import opened Outcomes

  datatype Holder<T> = Holder(value: Option<T>)

  predicate IsEmpty<T>(h: Holder<T>) {
    h.value.None?
  }

  /** `Holder::new`. */
  function New<T>(v: T): (h: Holder<T>)
    ensures !IsEmpty(h) && h.value.value == v
  {
    Holder(Some(v))
  }

  /** `look`: the held value, unchanged; an empty holder panics. */
  function Look<T>(h: Holder<T>): (r: Res<T>)
    ensures r.Ok? <==> !IsEmpty(h)
    ensures r.Fail? ==> r.fault == Panic
    ensures r.Ok? ==> Some(r.value) == h.value
  {
    match h.value
    case None => Fail(Panic)
    case Some(v) => Ok(v)
  }

  /** `steal`: `take()` then `unwrap()`; the holder is emptied either way
      (the `take` runs before the `unwrap` panics). */
  function Steal<T>(h: Holder<T>): (r: Res<(T, Holder<T>)>)
    ensures r.Ok? <==> !IsEmpty(h)
    ensures r.Fail? ==> r.fault == Panic
    ensures r.Ok? ==> Some(r.value.0) == h.value && IsEmpty(r.value.1)
  {
    match h.value
    case None => Fail(Panic)
    case Some(v) => Ok((v, Holder(None)))
  }

  /** `get_mut` followed by the caller's update `f`; an empty holder panics. */
  function GetMut<T>(h: Holder<T>, f: T -> T): (r: Res<Holder<T>>)
    ensures r.Ok? <==> !IsEmpty(h)
    ensures r.Ok? ==> !IsEmpty(r.value) && r.value.value.value == f(h.value.value)
  {
    match h.value
    case None => Fail(Panic)
    case Some(v) => Ok(Holder(Some(f(v))))
  }

  /** What a full holder holds is what `look` shows and `steal` returns;
      after `get_mut` it holds the update. */
  lemma NewLookSteal<T>(v: T, f: T -> T)
    ensures Look(New(v)) == Ok(v)
    ensures Steal(New(v)) == Ok((v, Holder(None)))
    ensures GetMut(New(v), f).Ok? && Look(GetMut(New(v), f).value) == Ok(f(v))
  {
  }

  /** An operation a caller can perform on a holder. */
  datatype Op<!T> = LookOp | StealOp | GetMutOp(f: T -> T)

  /** The holder after an operation, if the operation does not panic. */
  function Apply<T>(h: Holder<T>, op: Op<T>): Res<Holder<T>> {
    match op
    case LookOp => var v :- Look(h); Ok(h)
    case StealOp => var s :- Steal(h); Ok(s.1)
    case GetMutOp(f) => GetMut(h, f)
  }

  /** Once stolen, a holder stays empty: no operation refills it, and every
      operation on it panics. A second `steal` in particular panics. */
  lemma EmptyStaysEmpty<T>(h: Holder<T>, op: Op<T>)
    requires IsEmpty(h)
    ensures Apply(h, op) == Fail(Panic)
  {
  }

  /** `look` never changes the holder. */
  lemma LookKeepsHolder<T>(h: Holder<T>)
    ensures Apply(h, LookOp).Ok? ==> Apply(h, LookOp).value == h
  {
  }
}

=== FILE: interner.dfy ===
/** The string interner (tilc_span/src/interner.rs).

    The interner is an `IndexSet` of strings behind a lock: a symbol is the
    position of its string in insertion order. The lock is left out and the
    table is plain sequential state.

    `intern` on a string that is not yet present calls `insert_full` and then
    `debug_assert!(!is_new)`. `insert_full` reports `is_new == true` on exactly
    that path, so in a debug build every fresh intern panics. The model keeps
    that behaviour in `InternAsWritten` and uses the evidently intended
    `Intern`, which appends the string and returns its new index. */
module Interner {
  import opened Outcomes

  /** A symbol is the index of a string in the interner, as a `u32`. */
  datatype Symbol = Symbol(idx: u32)

  /** No string occurs twice. */
  predicate Distinct(ss: seq<string>) {
    forall i, j :: 0 <= i < j < |ss| ==> ss[i] != ss[j]
  }

  /** `IndexSet::get_index_of`. */
  function IndexOf(ss: seq<string>, s: string): (r: Option<nat>)
    ensures r.Some? ==> r.value < |ss| && ss[r.value] == s
    ensures r.Some? ==> forall k :: 0 <= k < r.value ==> ss[k] != s
    ensures r.None? <==> s !in ss
  {
    if |ss| == 0 then None
    else if ss[0] == s then Some(0)
    else match IndexOf(ss[1..], s)
      case None => None
      case Some(k) => Some(k + 1)
  }

  /** In a table without duplicates a string's index is the only one holding it. */
  lemma IndexOfDistinct(ss: seq<string>, i: nat)
    requires Distinct(ss) && i < |ss|
    ensures IndexOf(ss, ss[i]) == Some(i)
  {
  }

  /** The result of `IndexSet::insert_full`. */
  datatype Inserted = Inserted(strings: seq<string>, idx: nat, isNew: bool)

  /** `IndexSet::insert_full`: an existing string keeps its index; a new one is
      appended at the end. */
  function InsertFull(ss: seq<string>, s: string): (r: Inserted)
    ensures r.isNew <==> s !in ss
    ensures r.idx < |r.strings| && r.strings[r.idx] == s
    ensures ss <= r.strings && |r.strings| <= |ss| + 1
    ensures r.isNew ==> r.idx == |ss|
    ensures !r.isNew ==> r.strings == ss
    ensures Distinct(ss) ==> Distinct(r.strings)
  {
    match IndexOf(ss, s)
    case Some(i) => Inserted(ss, i, false)
    case None => Inserted(ss + [s], |ss|, true)
  }

  /** Insert every string of `init`, in order, into the table `ss`. */
  function CollectInto(ss: seq<string>, init: seq<string>): (r: seq<string>)
    decreases |init|
    ensures ss <= r
    ensures Distinct(ss) ==> Distinct(r)
    ensures forall x :: x in r <==> x in ss || x in init
    ensures |r| <= |ss| + |init|
  {
    if |init| == 0 then ss
    else
      assert forall x :: x in init <==> x == init[0] || x in init[1..];
      CollectInto(InsertFull(ss, init[0]).strings, init[1..])
  }

  /** Collecting a concatenation is collecting the parts one after the other. */
  lemma {:induction false} CollectIntoConcat(ss: seq<string>, a: seq<string>, b: seq<string>)
    ensures CollectInto(ss, a + b) == CollectInto(CollectInto(ss, a), b)
    decreases |a|
  {
    if |a| > 0 {
      assert (a + b)[0] == a[0];
      assert (a + b)[1..] == a[1..] + b;
      CollectIntoConcat(InsertFull(ss, a[0]).strings, a[1..], b);
    } else {
      assert a + b == b;
    }
  }

  /** `collect()` into an `IndexSet`: insert every string in order. */
  function Collect(init: seq<string>): (ss: seq<string>)
    ensures Distinct(ss)
    ensures forall x :: x in ss <==> x in init
    ensures |ss| <= |init|
  {
    CollectInto([], init)
  }

  datatype Interner = Interner(strings: seq<string>)

  /** The interner's own invariant: the `IndexSet` holds no duplicates. */
  predicate Valid(t: Interner) {
    Distinct(t.strings)
  }

  /** `Interner::new`. */
  function New(): (t: Interner)
    ensures Valid(t) && |t.strings| == 0
  {
    Interner([])
  }

  /** `Interner::prefill`: the given strings, duplicates collapsed, in the order
      of their first occurrence. */
  function Prefill(init: seq<string>): (t: Interner)
    ensures Valid(t)
    ensures forall x :: x in t.strings <==> x in init
  {
    Interner(Collect(init))
  }

  /** `Interner::get`: the string at the symbol's index; `unwrap` panics when the
      index is out of range. */
  function Get(t: Interner, sym: Symbol): (r: Res<string>)
    ensures r.Ok? <==> (sym.idx as int) < |t.strings|
    ensures r.Ok? ==> r.value == t.strings[sym.idx]
    ensures r.Fail? ==> r.fault == Panic
  {
    if (sym.idx as int) < |t.strings| then Ok(t.strings[sym.idx]) else Fail(Panic)
  }

  /** `Interner::intern` exactly as written, in a debug build. */
  function InternAsWritten(t: Interner, s: string): (r: Res<(Interner, Symbol)>)
    ensures r.Ok? <==> s in t.strings
    ensures r.Fail? ==> r.fault == Panic
    ensures r.Ok? ==> r.value.0 == t
    ensures r.Ok? && |t.strings| <= U32_MAX + 1 ==> Get(t, r.value.1) == Ok(s)
  {
    match IndexOf(t.strings, s)
    case Some(i) => Ok((t, Symbol(TruncU32(i))))
    case None =>
      var ins := InsertFull(t.strings, s);
      if ins.isNew then Fail(Panic) else Ok((Interner(ins.strings), Symbol(TruncU32(ins.idx))))
  }

  /** `Interner::intern` as evidently intended: a present string returns its
      index; a new string is appended and returns the previous size. */
  function Intern(t: Interner, s: string): (r: (Interner, Symbol))
    ensures t.strings <= r.0.strings && |r.0.strings| <= |t.strings| + 1
    ensures s in t.strings ==> r.0 == t
    ensures s !in t.strings ==> r.0.strings == t.strings + [s] && r.1.idx as int == TruncU32(|t.strings|) as int
    ensures Valid(t) ==> Valid(r.0)
    ensures |t.strings| <= U32_MAX ==> Get(r.0, r.1) == Ok(s)
  {
    var ins := InsertFull(t.strings, s);
    (Interner(ins.strings), Symbol(TruncU32(ins.idx)))
  }

  /** The symbol of a string already interned. */
  lemma InternExisting(t: Interner, i: nat)
    requires Valid(t) && i < |t.strings| && |t.strings| <= U32_MAX + 1
    ensures Intern(t, t.strings[i]) == (t, Symbol(i as u32))
    ensures InternAsWritten(t, t.strings[i]) == Ok((t, Symbol(i as u32)))
  {
    IndexOfDistinct(t.strings, i);
  }

  /** Interning is idempotent: a second intern of the same string changes nothing
      and returns the same symbol. */
  lemma InternIdempotent(t: Interner, s: string)
    requires Valid(t) && |t.strings| <= U32_MAX
    ensures Intern(Intern(t, s).0, s) == Intern(t, s)
  {
    var (t1, sym) := Intern(t, s);
    var i := IndexOf(t1.strings, s).value;
    IndexOfDistinct(t1.strings, i);
    InternExisting(t1, i);
  }

  /** Two interns give the same symbol exactly when the strings are equal. */
  lemma InternInjective(t: Interner, a: string, b: string)
    requires Valid(t) && |t.strings| + 2 <= U32_MAX
    ensures var (t1, x) := Intern(t, a);
            var (t2, y) := Intern(t1, b);
            x == y <==> a == b
  {
    var (t1, x) := Intern(t, a);
    var (t2, y) := Intern(t1, b);
    assert Get(t1, x) == Ok(a);
    assert Get(t2, y) == Ok(b);
    assert Get(t2, x) == Ok(a);
    if a == b {
      InternIdempotent(t, a);
    }
  }

  /** Interning never disturbs a symbol handed out earlier. */
  lemma InternPreservesSymbols(t: Interner, s: string, sym: Symbol)
    requires Get(t, sym).Ok?
    ensures Get(Intern(t, s).0, sym) == Get(t, sym)
  {
  }

  /** The debug assertion fires on the first intern of any string that is not
      pre-interned, for instance in a fresh interner. */
  lemma FreshInternPanics(s: string)
    ensures InternAsWritten(New(), s) == Fail(Panic)
  {
  }
}

=== FILE: lexer.dfy ===
/** The primitive character scanner (tilc_lexer/src/lexer.rs).

    The scanner walks a `&str` with a `Chars` iterator. `step` consumes one
    character and returns the NUL character `'\0'` forever once the input is
    exhausted; `peek` and `nth` look ahead without consuming. Every call of
    `char_to_token` consumes the characters of one primitive token and reports
    how many it consumed.

    The model works on the remaining input as a `seq<char>`. The source is
    assumed to be ASCII without NUL (`ValidSource`), so a character count is
    also a byte count and `'\0'` only ever means "end of input". The model
    follows a debug build: `debug_assert_eq!(self.step(), c)` consumes a
    character. */
module Lexer {
  import opened Outcomes

  /** The end-of-input sentinel returned by `peek`, `nth` and `step`. */
  const EOF_CHAR: char := '\0'

  /** The marker character of raw identifiers and raw strings. */
  const RAW_CHAR: char := 's'

  predicate IsWhitespace(c: char) {
    c == ' ' || c == '\t' || c == '\r' || c == '\n'
  }

  predicate IsAsciiAlpha(c: char) {
    ('a' <= c <= 'z') || ('A' <= c <= 'Z')
  }

  predicate IsAsciiDigit(c: char) {
    '0' <= c <= '9'
  }

  predicate IsIdentifierStart(c: char) {
    IsAsciiAlpha(c) || c == '_'
  }

  predicate IsIdentifier(c: char) {
    IsAsciiAlpha(c) || IsAsciiDigit(c) || c == '_'
  }

  /** Source text the model covers: ASCII, and free of the NUL sentinel. */
  predicate ValidSource(s: seq<char>) {
    forall i :: 0 <= i < |s| ==> 0 < s[i] as int < 128
  }

  datatype Base = Binary | Octal | Decimal | Hexadecimal

  /** The literal kinds the scanner produces (`RawString`, not `RawStr`). */
  datatype LiteralKind =
    | Int(base: Base)
    | Float(base: Base)
    | Char
    | Str
    | Byte
    | RawString

  /** Primitive token kinds, as the scanner's behaviour uses them. */
  datatype TokenKind =
    | Whitespace
    | LineComment
    | BlockComment
    | Identifier
    | RawIdentifier
    | InvalidIdentifier
    | Literal(kind: LiteralKind, suffixPos: u32)
    | Lifetime
    | Semicolon | Colon | Comma | Dot
    | OpenParen | CloseParen | OpenBrace | CloseBrace | OpenBracket | CloseBracket
    | At | Hashtag | Tilde | Question | Dollar | Eq | Bang | Lt | Gt
    | Minus | Plus | And | Or | Star | Slash | Caret | Percent
    | Eof
    | Unknown

  /** A primitive token: a kind and the number of characters it covers. */
  datatype Token = Token(kind: TokenKind, len: nat)

  /** `peek`: the next character, or the sentinel at end of input. */
  function Peek(s: seq<char>): char {
    if |s| > 0 then s[0] else EOF_CHAR
  }

  /** `nth(n)` for `n >= 1`: the n-th character ahead, or the sentinel. */
  function Nth(s: seq<char>, n: nat): char
    requires n >= 1
  {
    if n - 1 < |s| then s[n - 1] else EOF_CHAR
  }

  /** `consume(p)`: the length of the longest prefix of `s` whose characters satisfy `p`. */
  function RunLen(s: seq<char>, p: char -> bool): (n: nat)
    ensures n <= |s|
    ensures forall k :: 0 <= k < n ==> p(s[k])
    ensures n < |s| ==> !p(s[n])
  {
    if |s| == 0 || !p(s[0]) then 0 else 1 + RunLen(s[1..], p)
  }

  /** The index of the first occurrence of `c` in `s`, if any. */
  function FirstIndexOf(s: seq<char>, c: char): (r: Option<nat>)
    ensures r.Some? ==> r.value < |s| && s[r.value] == c
    ensures r.Some? ==> forall k :: 0 <= k < r.value ==> s[k] != c
    ensures r.None? ==> forall k :: 0 <= k < |s| ==> s[k] != c
  {
    if |s| == 0 then None
    else if s[0] == c then Some(0)
    else match FirstIndexOf(s[1..], c)
      case None => None
      case Some(k) => Some(k + 1)
  }

  /** `line_comment`, entered with `s` starting at the second `/`.
      The debug assertion consumes that `/`; the loop then steps up to and
      including the next newline. Without a newline `step` keeps returning the
      sentinel and the loop never ends. Returns the number of characters consumed. */
  function LineCommentLen(s: seq<char>): (r: Res<nat>)
    requires |s| > 0 && s[0] == '/'
    ensures r.Ok? <==> '\n' in s[1..]
    ensures r.Fail? ==> r.fault == Diverge
    ensures r.Ok? ==> 2 <= r.value <= |s| && s[r.value - 1] == '\n'
    ensures r.Ok? ==> forall k :: 1 <= k < r.value - 1 ==> s[k] != '\n'
  {
    match FirstIndexOf(s[1..], '\n')
    case None => Fail(Diverge)
    case Some(k) => Ok(k + 2)
  }

  /** The first position `i >= from` holding a `*` immediately followed by `/`. */
  function BlockEnd(s: seq<char>, from: nat): (r: Option<nat>)
    requires from <= |s|
    decreases |s| - from
    ensures r.Some? ==> from <= r.value && r.value + 1 < |s| && s[r.value] == '*' && s[r.value + 1] == '/'
    ensures r.Some? ==> forall i :: from <= i < r.value ==> !(s[i] == '*' && s[i + 1] == '/')
    ensures r.None? ==> forall i :: from <= i && i + 1 < |s| ==> !(s[i] == '*' && s[i + 1] == '/')
  {
    if from + 1 >= |s| then None
    else if s[from] == '*' && s[from + 1] == '/' then Some(from)
    else BlockEnd(s, from + 1)
  }

  /** `block_comment`, entered with `s` starting at the `*` after the opening `/`.
      The debug assertion consumes that `*`; the loop steps one character at a
      time and returns right after a `*` whose next character is `/`, leaving the
      closing `/` unconsumed. Nesting is not tracked. */
  function BlockCommentLen(s: seq<char>): (r: Res<nat>)
    requires |s| > 0 && s[0] == '*'
    ensures r.Fail? ==> r.fault == Diverge
    ensures r.Ok? ==> 2 <= r.value < |s| && s[r.value - 1] == '*' && s[r.value] == '/'
    ensures r.Ok? ==> forall i :: 1 <= i < r.value - 1 ==> !(s[i] == '*' && s[i + 1] == '/')
    ensures r.Fail? ==> forall i :: 1 <= i && i + 1 < |s| ==> !(s[i] == '*' && s[i + 1] == '/')
  {
    match BlockEnd(s, 1)
    case None => Fail(Diverge)
    case Some(i) => Ok(i + 1)
  }

  /** `raw_string`, entered with `s` starting at `#"`. The two debug assertions
      consume `#` and `"`; the loop consumes through the next `"`. */
  function RawStringLen(s: seq<char>): (r: Res<nat>)
    requires |s| >= 2 && s[0] == '#' && s[1] == '"'
    ensures r.Ok? <==> '"' in s[2..]
    ensures r.Fail? ==> r.fault == Diverge
    ensures r.Ok? ==> 3 <= r.value <= |s| && s[r.value - 1] == '"'
    ensures r.Ok? ==> forall k :: 2 <= k < r.value - 1 ==> s[k] != '"'
  {
    match FirstIndexOf(s[2..], '"')
    case None => Fail(Diverge)
    case Some(k) => Ok(k + 3)
  }

  predicate IsDigitOrSeparator(c: char) {
    IsAsciiDigit(c) || c == '_'
  }

  /** What `is_digit` returns: whether a digit was seen, and how many characters
      it consumed. */
  datatype DigitRun = DigitRun(hasDigits: bool, len: nat)

  /** `is_digit`: consumes a run of digits and `_` separators. A `.` or `E` right
      after the run makes the loop spin without stepping. `_` never counts as a
      digit. */
  function ScanDigits(s: seq<char>): (r: Res<DigitRun>)
    ensures r.Fail? <==> RunLen(s, IsDigitOrSeparator) < |s| && s[RunLen(s, IsDigitOrSeparator)] in {'.', 'E'}
    ensures r.Fail? ==> r.fault == Diverge
    ensures r.Ok? ==> r.value.len == RunLen(s, IsDigitOrSeparator)
    ensures r.Ok? ==> (r.value.hasDigits <==> exists k :: 0 <= k < r.value.len && IsAsciiDigit(s[k]))
  {
    var n := RunLen(s, IsDigitOrSeparator);
    if n < |s| && (s[n] == '.' || s[n] == 'E') then Fail(Diverge)
    else Ok(DigitRun(HasDigit(s[..n]), n))
  }

  /** Whether some character of `s` is an ASCII digit. */
  function HasDigit(s: seq<char>): (b: bool)
    ensures b <==> exists k :: 0 <= k < |s| && IsAsciiDigit(s[k])
  {
    if |s| == 0 then false
    else if IsAsciiDigit(s[0]) then true
    else
      assert forall k :: 1 <= k < |s| ==> s[k] == s[1..][k - 1];
      HasDigit(s[1..])
  }

  /** The unfinished floating-point check at the end of `number_kind`. */
  function FloatCheck(s: seq<char>): Res<LiteralKind> {
    if Peek(s) == '.' && Nth(s, 2) != '.' then Fail(Todo) else Ok(Int(Decimal))
  }

  /** After a successful digit scan the next character is not `.`, so the
      float check that follows always reports a decimal integer. */
  lemma DigitRunEndsInteger(s: seq<char>)
    requires ScanDigits(s).Ok?
    ensures ScanDigits(s).value.len <= |s|
    ensures FloatCheck(s[ScanDigits(s).value.len..]) == Ok(Int(Decimal))
  {
  }

  /** `number_kind`, entered with the first digit `c` consumed and `s` the rest.
      Returns the literal kind and the number of characters consumed after `c`. */
  function NumberKind(c: char, s: seq<char>): (r: Res<(LiteralKind, nat)>)
    requires IsAsciiDigit(c)
    ensures r.Ok? ==> r.value.1 <= |s|
    ensures r.Fail? ==> r.fault == Diverge
    ensures r.Ok? ==> r.value.0.Int?
    ensures r.Ok? && r.value.0.base != Decimal ==>
      c == '0' && Peek(s) in {'e', 's'} && r.value.1 >= 1 && !HasDigit(s[1..r.value.1])
    ensures c == '0' && Peek(s) in {'e', 's'} ==>
      && (r.Ok? <==> ScanDigits(s[1..]).Ok?)
      && (r.Ok? ==> r.value.1 == 1 + RunLen(s[1..], IsDigitOrSeparator))
      && (r.Ok? ==> (r.value.0.base == Decimal <==> HasDigit(s[1..r.value.1])))
      && (r.Ok? && r.value.0.base != Decimal ==> r.value.0.base == (if Peek(s) == 'e' then Binary else Octal))
    ensures c == '0' && Peek(s) !in {'e', 's'} && !IsDigitOrSeparator(Peek(s)) ==>
      r.Ok? && r.value.0 == Int(Decimal) && r.value.1 == 0
    ensures c != '0' || IsDigitOrSeparator(Peek(s)) ==>
      && (r.Ok? <==> ScanDigits(s).Ok?)
      && (r.Ok? ==> r.value.0 == Int(Decimal) && r.value.1 == RunLen(s, IsDigitOrSeparator))
  {
    if c == '0' && Peek(s) in {'e', 's'} then
      PrefixedNumber(if Peek(s) == 'e' then Binary else Octal, s)
    else if c == '0' && !IsDigitOrSeparator(Peek(s)) then
      Ok((Int(Decimal), 0))
    else
      DecimalNumber(s)
  }

  /** The `0e` / `0s` arm of `number_kind`, with `s` starting at the prefix
      letter: the base holds only when no digit follows the prefix. */
  function PrefixedNumber(base: Base, s: seq<char>): (r: Res<(LiteralKind, nat)>)
    requires |s| > 0 && base != Decimal
    ensures r.Fail? ==> r.fault == Diverge
    ensures r.Ok? ==> r.value.0.Int? && 1 <= r.value.1 <= |s|
    ensures r.Ok? && r.value.0.base != Decimal ==> !HasDigit(s[1..r.value.1])
    ensures r.Ok? <==> ScanDigits(s[1..]).Ok?
    ensures r.Ok? ==> r.value.1 == 1 + RunLen(s[1..], IsDigitOrSeparator)
    ensures r.Ok? ==> (r.value.0.base == Decimal <==> HasDigit(s[1..r.value.1]))
    ensures r.Ok? && r.value.0.base != Decimal ==> r.value.0.base == base
  {
    var run :- ScanDigits(s[1..]);
    if !run.hasDigits then
      assert s[1..1 + run.len] == s[1..][..run.len];
      Ok((Int(base), 1 + run.len))
    else
      DigitRunEndsInteger(s[1..]);
      assert s[1..][run.len..] == s[1 + run.len..];
      Ok((FloatCheck(s[1 + run.len..]).value, 1 + run.len))
  }

  /** The decimal arm of `number_kind`: the digit run, then the float check. */
  function DecimalNumber(s: seq<char>): (r: Res<(LiteralKind, nat)>)
    ensures r.Fail? ==> r.fault == Diverge
    ensures r.Ok? ==> r.value.0 == Int(Decimal) && r.value.1 <= |s|
    ensures r.Ok? <==> ScanDigits(s).Ok?
    ensures r.Ok? ==> r.value.1 == RunLen(s, IsDigitOrSeparator)
  {
    var run :- ScanDigits(s);
    DigitRunEndsInteger(s);
    Ok((FloatCheck(s[run.len..]).value, run.len))
  }

  /** The stopping characters of the quote scan: whitespace other than a space. */
  predicate StopsQuoteScan(c: char) {
    c == '\t' || c == '\r' || c == '\n'
  }

  /** What the quote scan saw: a second quote (a character literal) or not (a lifetime). */
  datatype QuoteScan = QuoteScan(isChar: bool, len: nat)

  /** `char_literal_or_lifetime`'s loop from position `k` of `s`: keep stepping
      while the next character is not tab, CR or LF; stop right after the first
      `'`. At end of input `peek` yields the sentinel, which is not whitespace,
      so the loop spins without consuming. */
  function QuoteScanFrom(s: seq<char>, k: nat): (r: Res<QuoteScan>)
    requires k <= |s|
    decreases |s| - k
    ensures r.Fail? <==> forall i :: k <= i < |s| ==> !StopsQuoteScan(s[i]) && s[i] != '\''
    ensures r.Fail? ==> r.fault == Diverge
    ensures r.Ok? && r.value.isChar ==>
      k < r.value.len <= |s| && s[r.value.len - 1] == '\''
      && forall i :: k <= i < r.value.len - 1 ==> !StopsQuoteScan(s[i]) && s[i] != '\''
    ensures r.Ok? && !r.value.isChar ==>
      k <= r.value.len < |s| && StopsQuoteScan(s[r.value.len])
      && forall i :: k <= i < r.value.len ==> !StopsQuoteScan(s[i]) && s[i] != '\''
  {
    if k == |s| then Fail(Diverge)
    else if StopsQuoteScan(s[k]) then Ok(QuoteScan(false, k))
    else if s[k] == '\'' then Ok(QuoteScan(true, k + 1))
    else QuoteScanFrom(s, k + 1)
  }

  /** `terminated_string`'s loop from position `k`: the number of characters
      consumed through the closing quote, or `None` at end of input. A backslash
      directly before a quote makes the loop step over that quote. */
  function StringEnd(s: seq<char>, k: nat): (r: Option<nat>)
    requires k <= |s|
    decreases |s| - k
    ensures r.Some? ==> k < r.value <= |s| && s[r.value - 1] == '"'
    ensures r.Some? ==> forall i :: k <= i < r.value - 1 && s[i] == '"' ==> k < i && s[i - 1] == '\\'
    ensures r.Some? ==> r.value - 1 == k || s[r.value - 2] != '\\'
    ensures r.None? ==> forall i :: k <= i < |s| && s[i] == '"' ==> k < i && s[i - 1] == '\\'
  {
    if k == |s| then None
    else if s[k] == '"' then Some(k + 1)
    else if s[k] == '\\' && Peek(s[k + 1..]) == '"' then StringEnd(s, k + 2)
    else StringEnd(s, k + 1)
  }

  /** On `a\"b"` the escaped quote is stepped over, and the string ends at the
      last character. */
  lemma StringEndSkipsEscapedQuote()
    ensures StringEnd(['a', '\\', '"', 'b', '"'], 0) == Some(5)
  {
    var s := ['a', '\\', '"', 'b', '"'];
    assert StringEnd(s, 4) == Some(5);
    assert Peek(s[2..]) == '"';
  }

  /** `char_to_token`: scan one primitive token from the remaining input `s`.
      Returns the token and the input left after it. */
  function CharToToken(s: seq<char>): (r: Res<(Token, seq<char>)>)
    requires ValidSource(s)
    ensures r.Ok? ==> r.value.0.len <= |s| && r.value.1 == s[r.value.0.len..]
    ensures |s| == 0 ==> r == Ok((Token(Eof, 0), s))
    ensures |s| > 0 && r.Ok? ==> r.value.0.len >= 1 && !r.value.0.kind.Eof?
  {
    if |s| == 0 then Ok((Token(Eof, 0), s))
    else
      var c := s[0];
      var t := s[1..];
      var scanned :- ScanAfter(c, t);
      var kind := scanned.0;
      var used := scanned.1;
      Ok((Token(kind, 1 + used), t[used..]))
  }

  /** The classification of `char_to_token` once its first character `c` has been
      consumed: the token kind and how many more characters of `t` it consumes. */
  function ScanAfter(c: char, t: seq<char>): (r: Res<(TokenKind, nat)>)
    ensures r.Ok? ==> r.value.1 <= |t| && !r.value.0.Eof?
  {
    if IsWhitespace(c) then
      Ok((Whitespace, RunLen(t, IsWhitespace)))
    else if c == '/' then SlashOrComment(t)
    else if c == RAW_CHAR && Peek(t) == '#' && IsIdentifierStart(Nth(t, 2)) then
      Ok((RawIdentifier, RunLen(t, IsIdentifier)))
    else if c == RAW_CHAR && Peek(t) == '#' && Nth(t, 2) == '"' then RawStringLiteral(t)
    else if IsIdentifierStart(c) then
      Ok((Identifier, RunLen(t, IsIdentifier)))
    else if IsAsciiDigit(c) then NumberLiteral(c, t)
    else if c == '\'' then CharLiteralOrLifetime(t)
    else if c == '"' then StringLiteral(t)
    else Ok((PunctuationKind(c), 0))
  }

  /** The `/` arm of `char_to_token`: a line comment, a block comment, or a lone slash. */
  function SlashOrComment(t: seq<char>): (r: Res<(TokenKind, nat)>)
    ensures r.Ok? ==> r.value.1 <= |t| && !r.value.0.Eof?
  {
    if Peek(t) == '/' then
      var n :- LineCommentLen(t);
      Ok((LineComment, n))
    else if Peek(t) == '*' then
      var n :- BlockCommentLen(t);
      Ok((BlockComment, n))
    else Ok((Slash, 0))
  }

  /** `raw_string`, after the `s`. */
  function RawStringLiteral(t: seq<char>): (r: Res<(TokenKind, nat)>)
    requires |t| >= 2 && t[0] == '#' && t[1] == '"'
    ensures r.Ok? ==> r.value.1 <= |t| && !r.value.0.Eof?
  {
    var n :- RawStringLen(t);
    Ok((Literal(RawString, TruncU32(1 + n)), n))
  }

  /** The digit arm of `char_to_token`: `number_kind`, the suffix position right
      after it, then the identifier suffix. */
  function NumberLiteral(c: char, t: seq<char>): (r: Res<(TokenKind, nat)>)
    requires IsAsciiDigit(c)
    ensures r.Ok? ==> r.value.1 <= |t| && !r.value.0.Eof?
  {
    var number :- NumberKind(c, t);
    var suffix := RunLen(t[number.1..], IsIdentifier);
    Ok((Literal(number.0, TruncU32(1 + number.1)), number.1 + suffix))
  }

  /** `char_literal_or_lifetime`, after the opening `'`. */
  function CharLiteralOrLifetime(t: seq<char>): (r: Res<(TokenKind, nat)>)
    ensures r.Ok? ==> r.value.1 <= |t| && !r.value.0.Eof?
  {
    var q :- QuoteScanFrom(t, 0);
    if q.isChar then Ok((Literal(Char, TruncU32(1 + q.len)), q.len))
    else Ok((Lifetime, q.len))
  }

  /** `string_literal`, after the opening `"`: panics when `terminated_string`
      reaches the end of input. */
  function StringLiteral(t: seq<char>): (r: Res<(TokenKind, nat)>)
    ensures r.Ok? ==> r.value.1 <= |t| && !r.value.0.Eof?
  {
    match StringEnd(t, 0)
    case None => Fail(Panic)
    case Some(n) => Ok((Literal(Str, TruncU32(1 + n)), n))
  }

  /** The fixed one-character mappings; everything else, `~` included, is `Unknown`. */
  function PunctuationKind(c: char): TokenKind {
    match c
    case ';' => Semicolon
    case ':' => Colon
    case ',' => Comma
    case '.' => Dot
    case '(' => OpenParen
    case ')' => CloseParen
    case '{' => OpenBrace
    case '}' => CloseBrace
    case '[' => OpenBracket
    case ']' => CloseBracket
    case '@' => At
    case '#' => Hashtag
    case '?' => Question
    case '$' => Dollar
    case '=' => Eq
    case '!' => Bang
    case '<' => Lt
    case '>' => Gt
    case '-' => Minus
    case '+' => Plus
    case '&' => And
    case '|' => Or
    case '*' => Star
    case '^' => Caret
    case '%' => Percent
    case _ => Unknown
  }

  /** The total number of characters covered by a sequence of tokens. */
  function TotalLen(ts: seq<Token>): nat {
    if |ts| == 0 then 0 else ts[0].len + TotalLen(ts[1..])
  }

  /** Drive `char_to_token` until it reports `Eof`, as the reader does. */
  function Tokenize(s: seq<char>): (r: Res<seq<Token>>)
    requires ValidSource(s)
    decreases |s|
    ensures r.Ok? ==> |r.value| >= 1 && r.value[|r.value| - 1].kind.Eof? && r.value[|r.value| - 1].len == 0
    ensures r.Ok? ==> forall i :: 0 <= i < |r.value| - 1 ==> !r.value[i].kind.Eof? && r.value[i].len >= 1
    ensures r.Ok? ==> TotalLen(r.value) == |s|
    ensures r.Ok? ==> |r.value| <= |s| + 1
  {
    var step :- CharToToken(s);
    if step.0.kind.Eof? then Ok([step.0])
    else
      assert ValidSource(step.1) by {
        forall i | 0 <= i < |step.1| ensures 0 < step.1[i] as int < 128 {
          assert step.1[i] == s[step.0.len + i];
        }
      }
      var more :- Tokenize(step.1);
      assert ([step.0] + more)[1..] == more;
      Ok([step.0] + more)
  }

  /** Characters that `char_to_token` maps through the one-character table. */
  predicate IsPunctuationStart(c: char) {
    !IsWhitespace(c) && c != '/' && !IsIdentifierStart(c) && !IsAsciiDigit(c) && c != '\'' && c != '"'
  }

  /** A punctuation character is a token of length one, whatever follows it. */
  lemma PunctuationScansOneChar(s: seq<char>)
    requires ValidSource(s) && |s| > 0 && IsPunctuationStart(s[0])
    ensures CharToToken(s) == Ok((Token(PunctuationKind(s[0]), 1), s[1..]))
  {
    assert ScanAfter(s[0], s[1..]) == Ok((PunctuationKind(s[0]), 0));
  }

  /** A whitespace token covers the whole run of whitespace at the front. */
  lemma WhitespaceScansWholeRun(s: seq<char>)
    requires ValidSource(s) && |s| > 0 && IsWhitespace(s[0])
    ensures CharToToken(s) == Ok((Token(Whitespace, 1 + RunLen(s[1..], IsWhitespace)), s[1 + RunLen(s[1..], IsWhitespace)..]))
    ensures forall k :: 0 <= k < 1 + RunLen(s[1..], IsWhitespace) ==> IsWhitespace(s[k])
  {
  }

  /** Whether `s` opens a raw identifier or a raw string (`s#`). */
  predicate IsRawPrefix(s: seq<char>) {
    |s| > 0 && s[0] == RAW_CHAR && Peek(s[1..]) == '#' && (IsIdentifierStart(Nth(s[1..], 2)) || Nth(s[1..], 2) == '"')
  }

  /** Outside the raw prefix, an identifier token covers the whole run of
      identifier characters at the front. */
  lemma IdentifierScansWholeRun(s: seq<char>)
    requires ValidSource(s) && |s| > 0 && IsIdentifierStart(s[0]) && !IsRawPrefix(s)
    ensures CharToToken(s) == Ok((Token(Identifier, 1 + RunLen(s[1..], IsIdentifier)), s[1 + RunLen(s[1..], IsIdentifier)..]))
    ensures forall k :: 0 <= k < 1 + RunLen(s[1..], IsIdentifier) ==> IsIdentifier(s[k])
    ensures 1 + RunLen(s[1..], IsIdentifier) < |s| ==> !IsIdentifier(s[1 + RunLen(s[1..], IsIdentifier)])
  {
  }

  /** A raw identifier consumes nothing past `s`: the `#` after it is not an
      identifier character, so the token is the lone `s`. */
  lemma RawIdentifierIsOneChar(s: seq<char>)
    requires ValidSource(s) && IsRawPrefix(s) && IsIdentifierStart(Nth(s[1..], 2))
    ensures CharToToken(s) == Ok((Token(RawIdentifier, 1), s[1..]))
  {
    assert RunLen(s[1..], IsIdentifier) == 0;
  }

  /** `char_to_token` wraps the dispatch: the token covers the first character
      and what the dispatch consumed after it, and a failed dispatch fails the call. */
  lemma CharToTokenFromScan(s: seq<char>)
    requires ValidSource(s) && |s| > 0
    ensures ScanAfter(s[0], s[1..]).Fail? ==> CharToToken(s) == Fail(ScanAfter(s[0], s[1..]).fault)
    ensures ScanAfter(s[0], s[1..]).Ok? ==>
      var (kind, used) := ScanAfter(s[0], s[1..]).value;
      CharToToken(s) == Ok((Token(kind, 1 + used), s[1 + used..]))
  {
  }

  /** The dispatch on a digit: `number_kind`, then the identifier suffix. */
  lemma ScanAfterDigit(c: char, t: seq<char>)
    requires IsAsciiDigit(c)
    ensures ScanAfter(c, t) == NumberLiteral(c, t)
  {
  }




  /** The dispatch on `'`: the quote scan from the start of `t`. */
  lemma ScanAfterQuote(t: seq<char>)
    ensures QuoteScanFrom(t, 0).Fail? ==> ScanAfter('\'', t) == Fail(Diverge)
    ensures QuoteScanFrom(t, 0).Ok? && QuoteScanFrom(t, 0).value.isChar ==>
      ScanAfter('\'', t) == Ok((Literal(Char, TruncU32(1 + QuoteScanFrom(t, 0).value.len)), QuoteScanFrom(t, 0).value.len))
    ensures QuoteScanFrom(t, 0).Ok? && !QuoteScanFrom(t, 0).value.isChar ==>
      ScanAfter('\'', t) == Ok((Lifetime, QuoteScanFrom(t, 0).value.len))
  {
  }

  /** A `//` comment runs through the first newline after the two slashes.
      Without a newline the scan never ends. */
  lemma LineCommentRunsThroughNewline(s: seq<char>)
    requires ValidSource(s) && |s| >= 2 && s[0] == '/' && s[1] == '/'
    ensures CharToToken(s).Ok? <==> '\n' in s[2..]
    ensures CharToToken(s).Fail? ==> CharToToken(s).fault == Diverge
    ensures CharToToken(s).Ok? ==>
      var tok := CharToToken(s).value.0;
      && tok.kind == LineComment && 3 <= tok.len && s[tok.len - 1] == '\n'
      && forall k :: 2 <= k < tok.len - 1 ==> s[k] != '\n'
  {
    var t := s[1..];
    assert t[1..] == s[2..];
    match LineCommentLen(t)
    case Fail(_) =>
    case Ok(n) =>
      assert ScanAfter(s[0], t) == Ok((LineComment, n));
      assert forall k :: 1 <= k < n - 1 ==> t[k] == s[k + 1];
  }

  /** A block comment ends at the first `*` followed by `/` after the opening
      pair; the token stops before that `/`. Without such a pair the scan never ends. */
  lemma BlockCommentStopsBeforeSlash(s: seq<char>)
    requires ValidSource(s) && |s| >= 2 && s[0] == '/' && s[1] == '*'
    ensures CharToToken(s).Fail? ==>
      && CharToToken(s).fault == Diverge
      && forall i :: 2 <= i && i + 1 < |s| ==> !(s[i] == '*' && s[i + 1] == '/')
    ensures CharToToken(s).Ok? ==>
      var tok := CharToToken(s).value.0;
      && tok.kind == BlockComment && 3 <= tok.len < |s| && s[tok.len - 1] == '*' && s[tok.len] == '/'
      && forall i :: 2 <= i < tok.len - 1 ==> !(s[i] == '*' && s[i + 1] == '/')
  {
    var t := s[1..];
    match BlockCommentLen(t)
    case Fail(_) =>
      assert ScanAfter(s[0], t).Fail?;
      forall i | 2 <= i && i + 1 < |s| ensures !(s[i] == '*' && s[i + 1] == '/') {
        assert t[i - 1] == s[i] && t[i] == s[i + 1];
      }
    case Ok(n) =>
      assert ScanAfter(s[0], t) == Ok((BlockComment, n));
      forall i | 2 <= i < n ensures !(s[i] == '*' && s[i + 1] == '/') {
        assert t[i - 1] == s[i] && t[i] == s[i + 1];
      }
  }

  /** A `/` that opens no comment is a lone `Slash` token. */
  lemma LoneSlashIsOneChar(s: seq<char>)
    requires ValidSource(s) && |s| > 0 && s[0] == '/' && Peek(s[1..]) != '/' && Peek(s[1..]) != '*'
    ensures CharToToken(s) == Ok((Token(Slash, 1), s[1..]))
  {
    assert ScanAfter(s[0], s[1..]) == Ok((Slash, 0));
  }

  /** A number is an integer literal whose suffix position is just past the
      digits `number_kind` consumed; the token then takes the whole run of
      identifier characters after them as its suffix. */
  lemma NumberTakesIdentifierSuffix(s: seq<char>, kind: LiteralKind, d: nat)
    requires ValidSource(s) && |s| > 0 && IsAsciiDigit(s[0]) && NumberKind(s[0], s[1..]) == Ok((kind, d))
    ensures kind.Int? && CharToToken(s).Ok?
    ensures var tok := CharToToken(s).value.0;
      && tok.kind.Literal? && tok.kind.kind == kind && tok.kind.suffixPos == TruncU32(1 + d)
      && 1 + d <= tok.len
      && (forall k :: 1 + d <= k < tok.len ==> IsIdentifier(s[k]))
      && (tok.len < |s| ==> !IsIdentifier(s[tok.len]))
  {
    ScanAfterDigit(s[0], s[1..]);
    NumberLiteralInSource(s, kind, d);
    IdentifierRunFrom(s, 1 + d);
    CharToTokenFromScan(s);
  }

  /** When `number_kind` diverges, so does the whole scan. */
  lemma NumberDivergesWithNumberKind(s: seq<char>)
    requires ValidSource(s) && |s| > 0 && IsAsciiDigit(s[0]) && NumberKind(s[0], s[1..]).Fail?
    ensures CharToToken(s) == Fail(Diverge)
  {
    ScanAfterDigit(s[0], s[1..]);
    CharToTokenFromScan(s);
  }


  /** The digit arm's token kind once `number_kind` has returned `(kind, d)`. */
  lemma NumberLiteralKind(c: char, t: seq<char>, kind: LiteralKind, d: nat)
    requires IsAsciiDigit(c) && NumberKind(c, t) == Ok((kind, d))
    ensures NumberLiteral(c, t).Ok? && NumberLiteral(c, t).value.0.Literal?
    ensures NumberLiteral(c, t).value.0.kind == kind
    ensures NumberLiteral(c, t).value.0.suffixPos == TruncU32(1 + d)
  {
  }

  /** The digit arm's length once `number_kind` has returned `(kind, d)`. */
  lemma NumberLiteralLen(c: char, t: seq<char>, kind: LiteralKind, d: nat)
    requires IsAsciiDigit(c) && NumberKind(c, t) == Ok((kind, d))
    ensures d <= |t|
    ensures NumberLiteral(c, t).Ok? && NumberLiteral(c, t).value.1 == d + RunLen(t[d..], IsIdentifier)
  {
  }

  /** The digit arm over the input after the digit, restated in positions of `s`. */
  lemma NumberLiteralInSource(s: seq<char>, kind: LiteralKind, d: nat)
    requires |s| > 0 && IsAsciiDigit(s[0]) && NumberKind(s[0], s[1..]) == Ok((kind, d))
    ensures d < |s|
    ensures NumberLiteral(s[0], s[1..]).Ok?
    ensures NumberLiteral(s[0], s[1..]).value.0.Literal?
    ensures NumberLiteral(s[0], s[1..]).value.0.kind == kind
    ensures NumberLiteral(s[0], s[1..]).value.0.suffixPos == TruncU32(1 + d)
    ensures NumberLiteral(s[0], s[1..]).value.1 == d + RunLen(s[1 + d..], IsIdentifier)
  {
    NumberLiteralKind(s[0], s[1..], kind, d);
    NumberLiteralLen(s[0], s[1..], kind, d);
    assert s[1..][d..] == s[1 + d..];
  }





  /** `consume(is_identifier)` from position `d`, restated in positions of `s`. */
  lemma IdentifierRunFrom(s: seq<char>, d: nat)
    requires d <= |s|
    ensures forall k :: d <= k < d + RunLen(s[d..], IsIdentifier) ==> IsIdentifier(s[k])
    ensures d + RunLen(s[d..], IsIdentifier) < |s| ==> !IsIdentifier(s[d + RunLen(s[d..], IsIdentifier)])
  {
    var n := RunLen(s[d..], IsIdentifier);
    forall k | d <= k < d + n ensures IsIdentifier(s[k]) {
      assert s[k] == s[d..][k - d];
    }
    if d + n < |s| {
      assert s[d + n] == s[d..][n];
    }
  }


  /** A `'` starts a character literal that ends right after the next `'`, or a
      lifetime that stops before the next tab, CR or LF, whichever comes first.
      When neither comes before the end of input the scan never ends. */
  lemma QuoteIsCharOrLifetime(s: seq<char>)
    requires ValidSource(s) && |s| > 0 && s[0] == '\''
    ensures CharToToken(s).Fail? <==> forall i :: 1 <= i < |s| ==> !StopsQuoteScan(s[i]) && s[i] != '\''
    ensures CharToToken(s).Fail? ==> CharToToken(s).fault == Diverge
    ensures CharToToken(s).Ok? ==>
      var tok := CharToToken(s).value.0;
      tok.kind == Lifetime || tok.kind == Literal(Char, TruncU32(tok.len))
    ensures CharToToken(s).Ok? && CharToToken(s).value.0.kind == Lifetime ==>
      var tok := CharToToken(s).value.0;
      && tok.len < |s| && StopsQuoteScan(s[tok.len])
      && forall i :: 1 <= i < tok.len ==> !StopsQuoteScan(s[i]) && s[i] != '\''
    ensures CharToToken(s).Ok? && CharToToken(s).value.0.kind != Lifetime ==>
      var tok := CharToToken(s).value.0;
      && 2 <= tok.len && s[tok.len - 1] == '\''
      && forall i :: 1 <= i < tok.len - 1 ==> !StopsQuoteScan(s[i]) && s[i] != '\''
  {
    ScanAfterQuote(s[1..]);
    CharToTokenFromScan(s);
    QuoteScanAfterQuote(s);
  }

  /** The quote scan over the input after the `'`, restated in positions of `s`. */
  lemma QuoteScanAfterQuote(s: seq<char>)
    requires |s| > 0
    ensures QuoteScanFrom(s[1..], 0).Fail? <==> forall i :: 1 <= i < |s| ==> !StopsQuoteScan(s[i]) && s[i] != '\''
    ensures QuoteScanFrom(s[1..], 0).Ok? && QuoteScanFrom(s[1..], 0).value.isChar ==>
      var n := 1 + QuoteScanFrom(s[1..], 0).value.len;
      && 2 <= n <= |s| && s[n - 1] == '\''
      && forall i :: 1 <= i < n - 1 ==> !StopsQuoteScan(s[i]) && s[i] != '\''
    ensures QuoteScanFrom(s[1..], 0).Ok? && !QuoteScanFrom(s[1..], 0).value.isChar ==>
      var n := 1 + QuoteScanFrom(s[1..], 0).value.len;
      && n < |s| && StopsQuoteScan(s[n])
      && forall i :: 1 <= i < n ==> !StopsQuoteScan(s[i]) && s[i] != '\''
  {
    var t := s[1..];
    match QuoteScanFrom(t, 0)
    case Fail(_) =>
      forall i | 1 <= i < |s| ensures !StopsQuoteScan(s[i]) && s[i] != '\'' {
        assert s[i] == t[i - 1];
      }
    case Ok(q) =>
      forall i | 1 <= i <= q.len && i < |s| ensures s[i] == t[i - 1] {
      }
      if q.isChar {
        assert s[q.len] == '\'';
      } else {
        assert StopsQuoteScan(s[1 + q.len]);
      }
  }




  /** A `"` starts a string literal that ends at the first `"` not directly
      preceded by a backslash; without one the scanner panics. */
  lemma StringEndsAtUnescapedQuote(s: seq<char>)
    requires ValidSource(s) && |s| > 0 && s[0] == '"'
    ensures CharToToken(s).Fail? ==>
      && CharToToken(s).fault == Panic
      && forall i :: 1 <= i < |s| && s[i] == '"' ==> 1 < i && s[i - 1] == '\\'
    ensures CharToToken(s).Ok? ==>
      var tok := CharToToken(s).value.0;
      && tok.kind == Literal(Str, TruncU32(tok.len))
      && 2 <= tok.len && s[tok.len - 1] == '"' && (tok.len == 2 || s[tok.len - 2] != '\\')
      && forall i :: 1 <= i < tok.len - 1 && s[i] == '"' ==> 1 < i && s[i - 1] == '\\'
  {
    ScanAfterString(s[1..]);
    CharToTokenFromScan(s);
    StringEndAfterQuote(s);
  }

  /** The dispatch on `"`: `terminated_string`, and a panic when it reports
      end of input. */
  lemma ScanAfterString(t: seq<char>)
    ensures StringEnd(t, 0).None? ==> ScanAfter('"', t) == Fail(Panic)
    ensures StringEnd(t, 0).Some? ==> ScanAfter('"', t) == Ok((Literal(Str, TruncU32(1 + StringEnd(t, 0).value)), StringEnd(t, 0).value))
  {
  }

  /** The string scan over the input after the `"`, restated in positions of `s`. */
  lemma StringEndAfterQuote(s: seq<char>)
    requires |s| > 0
    ensures StringEnd(s[1..], 0).None? ==> forall i :: 1 <= i < |s| && s[i] == '"' ==> 1 < i && s[i - 1] == '\\'
    ensures StringEnd(s[1..], 0).Some? ==>
      var n := 1 + StringEnd(s[1..], 0).value;
      && 2 <= n <= |s| && s[n - 1] == '"' && (n == 2 || s[n - 2] != '\\')
      && forall i :: 1 <= i < n - 1 && s[i] == '"' ==> 1 < i && s[i - 1] == '\\'
  {
    var t := s[1..];
    forall i | 1 <= i < |s| ensures s[i] == t[i - 1] {
    }
  }


  /** A raw string `s#"` ends right after the next `"`, with no escapes; without
      one the scan never ends. Its suffix position is the whole token. */
  lemma RawStringEndsAtNextQuote(s: seq<char>)
    requires ValidSource(s) && |s| >= 3 && s[0] == RAW_CHAR && s[1] == '#' && s[2] == '"'
    ensures CharToToken(s).Ok? <==> '"' in s[3..]
    ensures CharToToken(s).Fail? ==> CharToToken(s).fault == Diverge
    ensures CharToToken(s).Ok? ==>
      var tok := CharToToken(s).value.0;
      && tok.kind == Literal(RawString, TruncU32(tok.len))
      && 4 <= tok.len && s[tok.len - 1] == '"'
      && forall k :: 3 <= k < tok.len - 1 ==> s[k] != '"'
  {
    ScanAfterRawString(s[1..]);
    CharToTokenFromScan(s);
    RawStringLenAfterPrefix(s);
  }

  /** The dispatch on `s#"`: the raw string scan. */
  lemma ScanAfterRawString(t: seq<char>)
    requires |t| >= 2 && t[0] == '#' && t[1] == '"'
    ensures RawStringLen(t).Fail? ==> ScanAfter(RAW_CHAR, t) == Fail(Diverge)
    ensures RawStringLen(t).Ok? ==> ScanAfter(RAW_CHAR, t) == Ok((Literal(RawString, TruncU32(1 + RawStringLen(t).value)), RawStringLen(t).value))
  {
  }

  /** The raw string scan over the input after `s`, restated in positions of `s`. */
  lemma RawStringLenAfterPrefix(s: seq<char>)
    requires |s| >= 3 && s[1] == '#' && s[2] == '"'
    ensures RawStringLen(s[1..]).Ok? <==> '"' in s[3..]
    ensures RawStringLen(s[1..]).Ok? ==>
      var n := 1 + RawStringLen(s[1..]).value;
      && 4 <= n <= |s| && s[n - 1] == '"'
      && forall k :: 3 <= k < n - 1 ==> s[k] != '"'
  {
    var t := s[1..];
    assert t[2..] == s[3..];
    forall i | 1 <= i < |s| ensures s[i] == t[i - 1] {
    }
  }

}

=== FILE: outcomes.dfy ===
/** Failure-aware result types shared by every module of the model.

    The compiler aborts in three different ways and the model keeps them apart:
    a `todo!()` / `unreachable!()` placeholder, a `panic!` (including failed
    `assert!`, `debug_assert!`, `unwrap` and integer overflow in a debug build),
    and a loop that never ends. */
module Outcomes {

  /** How a computation of the compiler gives up. */
  datatype Fault =
    | Todo     // `todo!()`, `unimplemented!()` or `unreachable!()` reached
    | Panic    // a panic, failed assertion, failed unwrap or arithmetic overflow
    | Diverge  // a loop that never terminates

  /** The outcome of an operation that may abort. */
  datatype Res<+T> = Ok(value: T) | Fail(fault: Fault) {
    predicate IsFailure() {
      Fail?
    }

    function PropagateFailure<U>(): Res<U>
      requires Fail?
    {
      Fail(fault)
    }

    function Extract(): T
      requires Ok?
    {
      value
    }
  }

  /** The conventional optional value. */
  datatype Option<+T> = None | Some(value: T)

  /** The largest value of a Rust `u32`. */
  const U32_MAX: int := 0xFFFF_FFFF

  /** The largest value of a Rust `u16`. */
  const U16_MAX: int := 0xFFFF

  /** `usize` on the 64-bit targets the compiler is built for. */
  const USIZE_MAX: int := 0xFFFF_FFFF_FFFF_FFFF

  newtype u16 = x: int | 0 <= x <= U16_MAX
  newtype u32 = x: int | 0 <= x <= U32_MAX
  newtype usize = x: int | 0 <= x <= USIZE_MAX

  /** An `as u32` cast of a non-negative value: the low 32 bits. */
  function TruncU32(n: nat): (r: u32)
    ensures r as int == n % (U32_MAX + 1)
    ensures n <= U32_MAX ==> r as int == n
  {
    (n % (U32_MAX + 1)) as u32
  }
}

=== FILE: parser.dfy ===
/** The parser's token primitives (tilc_parser/src/parser.rs and the older copy
    in tilc_parser/src/parse.rs, which has the same bodies).

    The parser keeps the current token, the previous one, the spacing after the
    current one, a `TokenCursor` and a `u32` position. Every operation that can
    move it returns the new parser; `look_ahead` and the checks return values
    only, so they cannot change it. Debug builds are modelled: the `Empty`
    delimiter `debug_assert!` is live and `pos += 1` panics on `u32` overflow.
    `Token::DUMMY`, `Token::is_kw`, `Token::ident`, `Ident::is_reserved`,
    `Span::to`, `parse_attributes` and `parse_item` are not part of this model
    and are taken as parameters. */
module Parsers {
  import opened Outcomes
  import opened Spans
  import opened Tokens
  import TokenStreams
  import opened TokenTrees
  import RoundTrip

  datatype Parser = Parser(token: Token, prevToken: Token, spacing: Spacing, cursor: TokenStreams.TokenCursor, pos: u32)

  /** `Parser::step`: fetch the cursor's next token, shift the current one into
      `prev_token` and count the step. */
  function Step(p: Parser): (r: Res<Parser>)
    ensures r.Ok? <==> p.pos as int < U32_MAX && !TokenStreams.IsEmptyDelimiter(TokenStreams.Run(p.cursor, 1)[0].0.kind)
    ensures r.Fail? ==> r.fault == Panic
    ensures r.Ok? ==> && TokenStreams.Run(p.cursor, 1) == [(r.value.token, r.value.spacing)]
                      && r.value.prevToken == p.token
                      && r.value.pos as int == p.pos as int + 1
                      && r.value.cursor == TokenStreams.Step(p.cursor).2
  {
    var out := TokenStreams.Step(p.cursor);
    if p.pos as int + 1 > U32_MAX then Fail(Panic)
    else if TokenStreams.IsEmptyDelimiter(out.0.kind) then Fail(Panic)
    else Ok(Parser(out.0, p.token, out.1, out.2, p.pos + 1))
  }

  /** `Parser::new`: both tokens start as the dummy token, one step primes the
      current token, and the position is reset to 0. */
  function New(stream: seq<TokenStreams.TokenTree>, dummy: Token): (r: Res<Parser>)
    ensures r.Ok? <==> !TokenStreams.IsEmptyDelimiter(TokenStreams.Run(TokenStreams.NewCursor(stream), 1)[0].0.kind)
    ensures r.Ok? ==> && (r.value.token, r.value.spacing) == TokenStreams.Run(TokenStreams.NewCursor(stream), 1)[0]
                      && r.value.prevToken == dummy
                      && r.value.pos == 0
                      && r.value.cursor == TokenStreams.Step(TokenStreams.NewCursor(stream)).2
  {
    var p0 := Parser(dummy, dummy, Whitespaced, TokenStreams.NewCursor(stream), 0);
    var p1 :- Step(p0);
    Ok(p1.(pos := 0))
  }

  predicate Check(p: Parser, kind: TokenKind) {
    p.token.kind == kind
  }

  /** `Token::is_kw` is not part of this model. */
  type IsKw = (Token, Interner.Symbol) -> bool

  predicate CheckKw(p: Parser, kw: Interner.Symbol, isKw: IsKw) {
    isKw(p.token, kw)
  }

  /** Consume the current token exactly when `check` holds. */
  function StepIf(p: Parser, hit: bool): (r: Res<(bool, Parser)>)
    ensures r.Ok? ==> r.value.0 == hit
    ensures !hit ==> r == Ok((false, p))
    ensures hit ==> (r.Ok? <==> Step(p).Ok?) && (r.Ok? ==> r.value.1 == Step(p).value)
  {
    if hit then
      var q :- Step(p);
      Ok((true, q))
    else Ok((false, p))
  }

  /** `Parser::eat`: true exactly when the current token has the given kind, in
      which case that token is consumed and becomes `prev_token`; otherwise the
      parser is unchanged. */
  function Eat(p: Parser, kind: TokenKind): (r: Res<(bool, Parser)>)
    ensures r.Fail? ==> Check(p, kind) && r.fault == Panic
    ensures r.Ok? ==> (r.value.0 <==> Check(p, kind))
    ensures r.Ok? && !r.value.0 ==> r.value.1 == p
    ensures r.Ok? && r.value.0 ==> && r.value.1.prevToken == p.token
                                   && r.value.1.prevToken.kind == kind
                                   && r.value.1.pos as int == p.pos as int + 1
    ensures Check(p, kind) ==> (r.Ok? <==> Step(p).Ok?) && (r.Ok? ==> r.value.1 == Step(p).value)
  {
    StepIf(p, Check(p, kind))
  }

  /** `Parser::eat_kw`: as `eat`, with the keyword test. */
  function EatKw(p: Parser, kw: Interner.Symbol, isKw: IsKw): (r: Res<(bool, Parser)>)
    ensures r.Fail? ==> CheckKw(p, kw, isKw) && r.fault == Panic
    ensures r.Ok? ==> (r.value.0 <==> isKw(p.token, kw))
    ensures r.Ok? && !r.value.0 ==> r.value.1 == p
    ensures r.Ok? && r.value.0 ==> && isKw(r.value.1.prevToken, kw)
                                   && r.value.1.pos as int == p.pos as int + 1
    ensures CheckKw(p, kw, isKw) ==> (r.Ok? <==> Step(p).Ok?) && (r.Ok? ==> r.value.1 == Step(p).value)
  {
    StepIf(p, CheckKw(p, kw, isKw))
  }

  /** `Parser::expect`: a mismatch reaches `todo!()`; on a match it steps and
      returns the token that is current AFTER the step, i.e. the one following
      the expected token. */
  function Expect(p: Parser, kind: TokenKind): (r: Res<(Token, Parser)>)
    ensures !Check(p, kind) ==> r == Fail(Todo)
    ensures Check(p, kind) ==> (r.Ok? <==> Step(p).Ok?) && (r.Ok? ==> r.value.1 == Step(p).value)
    ensures r.Ok? ==> && r.value.0 == r.value.1.token
                      && r.value.1.prevToken == p.token
                      && r.value.1.pos as int == p.pos as int + 1
  {
    if Check(p, kind) then
      var q :- Step(p);
      Ok((q.token, q))
    else Fail(Todo)
  }

  /** `Parser::expect_kw`: a mismatch reaches `todo!()`; on a match it steps and
      returns the consumed keyword token. */
  function ExpectKw(p: Parser, kw: Interner.Symbol, isKw: IsKw): (r: Res<(Token, Parser)>)
    ensures !isKw(p.token, kw) ==> r == Fail(Todo)
    ensures isKw(p.token, kw) ==> (r.Ok? <==> Step(p).Ok?) && (r.Ok? ==> r.value.1 == Step(p).value)
    ensures r.Ok? ==> && r.value.0 == p.token
                      && r.value.0 == r.value.1.prevToken
                      && isKw(r.value.0, kw)
                      && r.value.1.pos as int == p.pos as int + 1
  {
    if CheckKw(p, kw, isKw) then
      var q :- Step(p);
      Ok((q.prevToken, q))
    else Fail(Todo)
  }

  /** The token after `n` steps of a cloned cursor, starting from `tok`. */
  function LookAheadFrom(c: TokenStreams.TokenCursor, tok: Token, n: nat): (t: Token)
    decreases n
    ensures n == 0 ==> t == tok
    ensures n > 0 ==> t == TokenStreams.Run(c, n)[n - 1].0
  {
    if n == 0 then tok
    else
      var out := TokenStreams.Step(c);
      LookAheadFrom(out.2, out.0, n - 1)
  }

  /** `Parser::look_ahead`: the current token for `n == 0`, else the `n`-th
      token the cursor would hand out. The parser itself is not touched. */
  function LookAhead(p: Parser, n: usize): (t: Token)
    ensures n == 0 ==> t == p.token
    ensures n > 0 ==> t == TokenStreams.Run(p.cursor, n as nat)[n - 1].0
  {
    LookAheadFrom(p.cursor, p.token, n as nat)
  }

  /** No output in `out` is an `Empty` open or close delimiter. */
  predicate NoEmptyDelimiter(out: seq<TokenStreams.Emitted>) {
    forall i :: 0 <= i < |out| ==> !TokenStreams.IsEmptyDelimiter(out[i].0.kind)
  }

  /** `n` successive `step` calls. */
  function Steps(p: Parser, n: nat): (r: Res<Parser>)
    decreases n
  {
    if n == 0 then Ok(p)
    else
      var q :- Step(p);
      Steps(q, n - 1)
  }

  /** Stepping `n` times succeeds while the position does not overflow and no
      `Empty` delimiter comes out; the parser then holds the `n`-th cursor
      output, which is what `look_ahead(n)` predicted. */
  lemma {:induction false} StepsFollowCursor(p: Parser, n: nat)
    requires p.pos as int + n <= U32_MAX
    requires NoEmptyDelimiter(TokenStreams.Run(p.cursor, n))
    ensures Steps(p, n).Ok?
    ensures Steps(p, n).value.pos as int == p.pos as int + n
    ensures n > 0 ==> (Steps(p, n).value.token, Steps(p, n).value.spacing) == TokenStreams.Run(p.cursor, n)[n - 1]
    decreases n
  {
    if n > 0 {
      TokenStreams.RunStep(p.cursor, n);
      RoundTrip.RunPrefix(p.cursor, 1, n);
      assert TokenStreams.Run(p.cursor, 1)[0] == TokenStreams.Run(p.cursor, n)[0];
      var q := Step(p).value;
      assert q.cursor == TokenStreams.Step(p.cursor).2;
      assert TokenStreams.Run(q.cursor, n - 1) == TokenStreams.Run(p.cursor, n)[1..];
      StepsFollowCursor(q, n - 1);
      if n > 1 {
        assert TokenStreams.Run(q.cursor, n - 1)[n - 2] == TokenStreams.Run(p.cursor, n)[n - 1];
      }
    }
  }

  /** `look_ahead(n)` is the token that `n` steps would make current. */
  lemma LookAheadAgreesWithSteps(p: Parser, n: usize)
    requires p.pos as int + n as int <= U32_MAX
    requires NoEmptyDelimiter(TokenStreams.Run(p.cursor, n as nat))
    ensures Steps(p, n as nat).Ok? && Steps(p, n as nat).value.token == LookAhead(p, n)
  {
    StepsFollowCursor(p, n as nat);
  }

  /** `expect` hands back what `look_ahead(1)` saw before the call. */
  lemma ExpectReturnsLookAheadOne(p: Parser, kind: TokenKind)
    requires Expect(p, kind).Ok?
    ensures Expect(p, kind).value.0 == LookAhead(p, 1)
  {
  }

  /** The token a parser over the built trees holds after `m` steps. */
  function ReaderTokenAt(toks: seq<Read>, m: nat): Token
    requires |toks| > 0
  {
    if m < |toks| - 1 then toks[m].0 else TokenStreams.EOF_OUTPUT.0
  }

  /** The front end composed: a parser built over the trees of balanced reader
      output that never glues starts on the reader's first token, and after `m`
      steps holds the reader's token `m` (then `Eof` forever), without tripping
      the `Empty` delimiter assertion as long as `pos` does not overflow. */
  lemma ParserReadsReaderTokens(toks: seq<Read>, glue: Glue, dummy: Token, m: nat) returns (trees: seq<TokenStreams.TokenTree>)
    requires IsReaderOutput(toks) && NoGlueIn(toks, glue) && Balanced(toks)
    requires m <= U32_MAX
    ensures LexAll(toks, glue, dummy) == Ok(trees)
    ensures New(trees, dummy).Ok?
    ensures Steps(New(trees, dummy).value, m).Ok?
    ensures Steps(New(trees, dummy).value, m).value.token == ReaderTokenAt(toks, m)
    ensures Steps(New(trees, dummy).value, m).value.pos as int == m
  {
    RoundTrip.BuiltTreesShowNoEmptyDelimiter(toks, glue, dummy, m + 1);
    trees := LexAll(toks, glue, dummy).value;
    var c0 := TokenStreams.NewCursor(trees);
    var all := TokenStreams.Run(c0, m + 1);
    TokenStreams.RunStep(c0, m + 1);
    RoundTrip.RunPrefix(c0, 1, m + 1);
    assert TokenStreams.Run(c0, 1)[0] == all[0];
    var p := New(trees, dummy).value;
    assert TokenStreams.Run(p.cursor, m) == all[1..];
    StepsFollowCursor(p, m);
    var q := Steps(p, m).value;
    if m > 0 {
      assert q.token == all[m].0;
    } else {
      assert q.token == all[0].0;
    }
    if m < |toks| - 1 {
      var t := RoundTrip.CursorReturnsReaderToken(toks, glue, dummy, m);
    } else {
      var t := RoundTrip.CursorEofAfterReader(toks, glue, dummy, m);
    }
  }

  /** `Parser::parse_ident`. `Token::ident` (the identifier and its raw flag, if
      the token is one) and `Ident::is_reserved` are parameters. A non-identifier
      or a reserved non-raw identifier reaches `todo!()`; otherwise the
      identifier is returned and the parser steps once. */
  function ParseIdent<I>(p: Parser, ident: Token -> Option<(I, bool)>, isReserved: I -> bool): (r: Res<(I, Parser)>)
    ensures ident(p.token).None? ==> r == Fail(Todo)
    ensures ident(p.token).Some? && !ident(p.token).value.1 && isReserved(ident(p.token).value.0) ==> r == Fail(Todo)
    ensures ident(p.token).Some? && (ident(p.token).value.1 || !isReserved(ident(p.token).value.0)) ==>
      (r.Ok? <==> Step(p).Ok?)
    ensures r.Ok? ==> && ident(p.token).Some? && r.value.0 == ident(p.token).value.0
                      && r.value.1.prevToken == p.token
                      && r.value.1.pos as int == p.pos as int + 1
  {
    match ident(p.token)
    case None => Fail(Todo)
    case Some(found) =>
      if !found.1 && isReserved(found.0) then Fail(Todo)
      else
        var q :- Step(p);
        Ok((found.0, q))
  }

  /** The `loop` of `parse_until`: collect items until `parse_item` returns
      `None`. `parse_item` is a parameter; `fuel` bounds the number of rounds
      and running out of it is `Diverge`. */
  function ParseItems<Item>(p: Parser, parseItem: Parser -> Res<(Option<Item>, Parser)>, fuel: nat): (r: Res<(seq<Item>, Parser)>)
    decreases fuel
    ensures parseItem(p).Fail? ==> r == Fail(parseItem(p).fault)
    ensures parseItem(p).Ok? && parseItem(p).value.0.None? ==> r == Ok(([], parseItem(p).value.1))
    ensures r.Ok? && |r.value.0| > 0 ==> parseItem(p).Ok? && parseItem(p).value.0 == Some(r.value.0[0])
    ensures r.Ok? ==> |r.value.0| <= fuel
  {
    var first :- parseItem(p);
    match first.0
    case None => Ok(([], first.1))
    case Some(item) =>
      if fuel == 0 then Fail(Diverge)
      else
        var rest :- ParseItems(first.1, parseItem, fuel - 1);
        Ok(([item] + rest.0, rest.1))
  }

  /** `Parser::parse_until`. The span runs from the first token to the token
      before the stopper (fixed before the stopper is eaten); a missing stopper
      reaches `todo!()`. `Span::to` and `parse_attributes` are parameters. */
  function ParseUntil<Item, Attr>(
    p: Parser, stopper: TokenKind,
    parseAttrs: Parser -> Res<(seq<Attr>, Parser)>,
    parseItem: Parser -> Res<(Option<Item>, Parser)>,
    spanTo: (Span, Span) -> Span, fuel: nat): (r: Res<(seq<Item>, seq<Attr>, Span, Parser)>)
    ensures parseAttrs(p).Fail? ==> r == Fail(parseAttrs(p).fault)
    ensures r.Ok? ==> && parseAttrs(p).Ok? && r.value.1 == parseAttrs(p).value.0
                      && r.value.3.prevToken.kind == stopper
  {
    var lo := p.token.span;
    var attrs :- parseAttrs(p);
    var items :- ParseItems(attrs.1, parseItem, fuel);
    var span := spanTo(lo, items.1.prevToken.span);
    var eaten :- Eat(items.1, stopper);
    if !eaten.0 then Fail(Todo)
    else Ok((items.0, attrs.0, span, eaten.1))
  }

  /** Where `parse_until`'s span ends: after the attributes and items, the
      parser must stand on the stopper; the span closes at the token before it
      and the stopper is then consumed. */
  lemma ParseUntilSpanBeforeStopper<Item, Attr>(
    p: Parser, stopper: TokenKind,
    parseAttrs: Parser -> Res<(seq<Attr>, Parser)>,
    parseItem: Parser -> Res<(Option<Item>, Parser)>,
    spanTo: (Span, Span) -> Span, fuel: nat)
    requires parseAttrs(p).Ok? && ParseItems(parseAttrs(p).value.1, parseItem, fuel).Ok?
    ensures var q := ParseItems(parseAttrs(p).value.1, parseItem, fuel).value.1;
            var r := ParseUntil(p, stopper, parseAttrs, parseItem, spanTo, fuel);
            && (q.token.kind != stopper ==> r == Fail(Todo))
            && (r.Ok? ==> r.value.2 == spanTo(p.token.span, q.prevToken.span)
                          && r.value.3.prevToken == q.token
                          && r.value.0 == ParseItems(parseAttrs(p).value.1, parseItem, fuel).value.0)
  {
  }
}

=== FILE: queries.dfy ===
/** Query lookup and feeding (tilc_middle/src/query/query_system.rs and the
    older tilc_middle/src/query/system.rs).

    A query first asks its cache and only on a miss runs the provider, whose
    result it does not store. Feeding writes a value into the cache ahead of
    time and panics if one is already there. The providers are parameters; the
    `TyCtxt`, the per-query macro plumbing and the `dbg!` output are left out.
    query_system.rs is modelled on the `DefIdCache` of tilc_query_system,
    system.rs on the write-once map cache of tilc_middle. */
module Queries {
  import opened Outcomes
  import DefIds
  import Caches

  /** The argument of a `DefId` query: a `DefId` or a `LocalDefIdx`. */
  datatype QueryParam = OfDefId(id: DefIds.DefId) | OfLocal(local: DefIds.LocalDefIdx)

  /** `IntoQueryParam`: the identity, except that a `LocalDefIdx` becomes
      its `to_def_id()`. */
  function IntoQueryParam(p: QueryParam): (d: DefIds.DefId)
    ensures p.OfDefId? ==> d == p.id
    ensures p.OfLocal? ==> d == DefIds.ToDefId(p.local) && DefIds.IsLocal(d)
  {
    match p
    case OfDefId(id) => id
    case OfLocal(local) => DefIds.ToDefId(local)
  }

  /** Every cached value is the one the provider computes for its key. */
  ghost predicate Coherent<V>(c: Caches.DefIdCache<V>, run: DefIds.DefId -> V) {
    forall k :: Caches.DefIdLookup(c, k).Some? ==> Caches.DefIdLookup(c, k).value == run(k)
  }

  /** `query_get`: the cached value on a hit, otherwise the provider's. The
      cache is not returned, so a miss stores nothing. */
  function QueryGet<V>(c: Caches.DefIdCache<V>, run: DefIds.DefId -> V, key: QueryParam): (r: V)
    ensures Caches.DefIdLookup(c, IntoQueryParam(key)).Some? ==> r == Caches.DefIdLookup(c, IntoQueryParam(key)).value
    ensures Coherent(c, run) ==> r == run(IntoQueryParam(key))
  {
    var k := IntoQueryParam(key);
    match Caches.DefIdLookup(c, k)
    case Some(v) => v
    case None => run(k)
  }

  /** The feed setter of `define_queries!`: panic when the key is cached,
      otherwise `compute` the value into the cache. */
  function Feed<V>(c: Caches.DefIdCache<V>, key: QueryParam, v: V): (r: Res<Caches.DefIdCache<V>>)
    ensures r.Ok? <==> Caches.DefIdLookup(c, IntoQueryParam(key)).None?
    ensures r.Fail? ==> r.fault == Panic
    ensures r.Ok? ==> Caches.DefIdLookup(r.value, IntoQueryParam(key)) == Some(v)
  {
    var k := IntoQueryParam(key);
    match Caches.DefIdLookup(c, k)
    case Some(_) => Fail(Panic)
    case None => Ok(Caches.DefIdCompute(c, k, v))
  }

  /** Although the `DefIdCache` itself overwrites, feeding is write-once: a
      second feed of the same key panics, and a fed key changes no other
      key's lookup. */
  lemma FeedIsWriteOnce<V>(c: Caches.DefIdCache<V>, key: QueryParam, v: V, w: V, other: DefIds.DefId)
    requires Feed(c, key, v).Ok?
    ensures Feed(Feed(c, key, v).value, key, w) == Fail(Panic)
    ensures other != IntoQueryParam(key) ==> Caches.DefIdLookup(Feed(c, key, v).value, other) == Caches.DefIdLookup(c, other)
  {
    Caches.DefIdCacheIsAMap(c, IntoQueryParam(key), v, other);
  }

  /** A fed value is what the query then returns, whatever the provider. */
  lemma QueryAfterFeed<V>(c: Caches.DefIdCache<V>, run: DefIds.DefId -> V, key: QueryParam, v: V)
    requires Feed(c, key, v).Ok?
    ensures QueryGet(Feed(c, key, v).value, run, key) == v
  {
  }

  /** Feeding the provider's own value keeps the cache coherent, so queries
      keep answering as the provider would. */
  lemma FeedKeepsCoherence<V>(c: Caches.DefIdCache<V>, run: DefIds.DefId -> V, key: QueryParam)
    requires Coherent(c, run) && Feed(c, key, run(IntoQueryParam(key))).Ok?
    ensures Coherent(Feed(c, key, run(IntoQueryParam(key))).value, run)
  {
    var k := IntoQueryParam(key);
    var c1 := Feed(c, key, run(k)).value;
    forall j | Caches.DefIdLookup(c1, j).Some?
      ensures Caches.DefIdLookup(c1, j).value == run(j)
    {
      Caches.DefIdCacheIsAMap(c, k, run(k), j);
    }
  }

  /** A `LocalDefIdx` key is fed into the local map under its own index. */
  lemma LocalFeedGoesToLocalMap<V>(c: Caches.DefIdCache<V>, l: DefIds.LocalDefIdx, v: V)
    requires Feed(c, OfLocal(l), v).Ok?
    ensures Feed(c, OfLocal(l), v).value.local == c.local[l.local := v]
    ensures Feed(c, OfLocal(l), v).value.foreign == c.foreign
  {
  }

  /** `get_query` of system.rs: `into_query_key` is the identity, then the
      cached value or the provider's. */
  function GetQuery<K, V>(c: Caches.MapCache<K, V>, execute: K -> V, key: K): (r: V)
    ensures key in c.entries ==> r == c.entries[key]
    ensures (forall k :: k in c.entries ==> c.entries[k] == execute(k)) ==> r == execute(key)
  {
    match Caches.Lookup(c, key)
    case Some(v) => v
    case None => execute(key)
  }

  /** The feed setter of `define_feedables!`: panic when the key is cached,
      otherwise `compute` into the write-once cache, which then cannot panic. */
  function FeedOnce<K(!new), V>(c: Caches.MapCache<K, V>, key: K, v: V): (r: Res<Caches.MapCache<K, V>>)
    ensures r.Ok? <==> key !in c.entries
    ensures r.Ok? ==> Caches.Lookup(r.value, key) == Some(v)
    ensures r.Ok? ==> forall j :: j != key ==> Caches.Lookup(r.value, j) == Caches.Lookup(c, j)
  {
    match Caches.Lookup(c, key)
    case Some(_) => Fail(Panic)
    case None => Caches.ComputeOnce(c, key, v)
  }

  /** After a feed, `get_query` answers with the fed value, whatever the
      provider, and a second feed panics. */
  lemma GetQueryAfterFeedOnce<K(!new), V>(c: Caches.MapCache<K, V>, execute: K -> V, key: K, v: V, w: V)
    requires FeedOnce(c, key, v).Ok?
    ensures GetQuery(FeedOnce(c, key, v).value, execute, key) == v
    ensures FeedOnce(FeedOnce(c, key, v).value, key, w) == Fail(Panic)
  {
  }
}

=== FILE: reader_examples.dfy ===
/** The reader on the input of the unit test in token_reader.rs. That test's
    assertions are all commented out; the lemmas here state those expectations
    about the model. */
module ReaderExamples {
  import opened Outcomes
  import opened Spans
  import Lexer
  import Interner
  import opened Tokens
  import opened TokenReader

  predicate IsTestInput(src: seq<char>) {
    |src| == 4 && src[0] == '(' && src[1] == ' ' && src[2] == ')' && src[3] == ';'
  }

  /** The reader over `src` after `n` bytes. */
  function At(src: seq<char>, n: nat): Reader
    requires n <= |src| <= U32_MAX
  {
    Reader(src, src[n..], BytePos(0), BytePos(n as u32), Interner.New(), map[])
  }

  /** First call on `( );`: the open paren at [0,1), no whitespace before it. */
  lemma ReadOpenParen(src: seq<char>, v: Variant)
    requires IsTestInput(src)
    ensures NextToken(Start(src, BytePos(0), Interner.New()), v)
         == Ok((At(src, 1), Token(OpenDelim(Paren), Span(0, 1)), false))
  {
    NextTokenPunctuation(At(src, 0), false, v);
  }

  /** Second call: the space is skipped and the close paren at [2,3) is flagged
      as preceded by whitespace. */
  lemma ReadCloseParen(src: seq<char>, v: Variant)
    requires IsTestInput(src)
    ensures NextToken(At(src, 1), v) == Ok((At(src, 3), Token(CloseDelim(Paren), Span(2, 3)), true))
  {
    SpaceBeforeCloseParen(src, v);
    CloseParenAfterSpace(src, v);
  }

  /** The space at byte 1 is skipped, and the loop carries on at byte 2 with the
      flag set. */
  lemma SpaceBeforeCloseParen(src: seq<char>, v: Variant)
    requires IsTestInput(src)
    ensures NextToken(At(src, 1), v) == NextTokenFrom(At(src, 2), true, v)
  {
    var r1 := At(src, 1);
    assert src[1..][1..] == src[2..];
    NextTokenSingleSpace(r1, false, v);
    assert r1.(rest := r1.rest[1..], pos := BytePos(2)) == At(src, 2);
  }

  /** The close paren at byte 2 is read as `CloseDelim(Paren)` over [2,3). */
  lemma CloseParenAfterSpace(src: seq<char>, v: Variant)
    requires IsTestInput(src)
    ensures NextTokenFrom(At(src, 2), true, v) == Ok((At(src, 3), Token(CloseDelim(Paren), Span(2, 3)), true))
  {
    var r2 := At(src, 2);
    assert src[2..][1..] == src[3..];
    assert r2.rest[0] == ')';
    assert MapPunctuation(Lexer.PunctuationKind(')')) == Some(CloseDelim(Paren)) by {
      assert Lexer.PunctuationKind(')') == Lexer.CloseParen;
    }
    NextTokenPunctuation(r2, true, v);
    assert r2.(rest := r2.rest[1..], pos := BytePos(3)) == At(src, 3);
  }

  /** Third call: the semicolon at [3,4). */
  lemma ReadSemicolon(src: seq<char>, v: Variant)
    requires IsTestInput(src)
    ensures NextToken(At(src, 3), v) == Ok((At(src, 4), Token(Semicolon, Span(3, 4)), false))
  {
    NextTokenPunctuation(At(src, 3), false, v);
    assert At(src, 3).(rest := At(src, 3).rest[1..], pos := BytePos(4)) == At(src, 4);
  }
}

=== FILE: resolver.dfy ===
/** The node counter of the name resolver (tilc_resolver/src/resolver.rs).

    `Resolver::new` maps the root node `SANDYQ_NODE_IDX` to the local sandyq's
    definition and starts the counter there; `next_node_idx` hands out the
    counter and advances it. The query context and the `def_kind` feed are left
    out; the map records the `LocalDefIdx` each node's feed is for. */
module Resolver {
  import opened Outcomes
  import Uidx
  import DefIds
  import Sandyq

  datatype Resolver = Resolver(nextNodeIdx: Uidx.Idx, nodeToDef: map<Uidx.Idx, DefIds.LocalDefIdx>)

  /** `Resolver::new`. */
  function New(): (r: Resolver)
    ensures r.nextNodeIdx == Sandyq.SANDYQ_NODE_IDX
    ensures r.nodeToDef == map[Sandyq.SANDYQ_NODE_IDX := DefIds.SANDYQ_DEF_IDX]
  {
    Resolver(Sandyq.SANDYQ_NODE_IDX, map[Sandyq.SANDYQ_NODE_IDX := DefIds.SANDYQ_DEF_IDX])
  }

  /** `next_node_idx`: return the counter and store its successor. The
      `checked_add(1)` and the `from_u32` bound both panic. */
  function NextNodeIdx(r: Resolver): (out: Res<(Uidx.Idx, Resolver)>)
    ensures Sandyq.ValidNode(r.nextNodeIdx) ==>
      (out.Ok? <==> r.nextNodeIdx.value < Sandyq.NODE_MAX)
    ensures out.Fail? ==> out.fault == Panic
    ensures out.Ok? ==> && out.value.0 == r.nextNodeIdx
                        && out.value.1.nextNodeIdx.value as int == r.nextNodeIdx.value as int + 1
                        && Sandyq.ValidNode(out.value.1.nextNodeIdx)
                        && out.value.1.nodeToDef == r.nodeToDef
  {
    var id := r.nextNodeIdx;
    if id.value as int + 1 > U32_MAX then Fail(Panic)
    else
      var next :- Uidx.FromU32(Sandyq.NODE_MAX, id.value + 1);
      Ok((id, r.(nextNodeIdx := next)))
  }

  /** `n` calls of `next_node_idx`, collecting the results. */
  function NextNodeIdxs(r: Resolver, n: nat): (out: Res<(seq<Uidx.Idx>, Resolver)>)
    decreases n
  {
    if n == 0 then Ok(([], r))
    else
      var first :- NextNodeIdx(r);
      var rest :- NextNodeIdxs(first.1, n - 1);
      Ok(([first.0] + rest.0, rest.1))
  }

  /** Successive calls return consecutive indices starting at the counter, so
      they are strictly increasing and pairwise distinct; all `n` calls
      succeed while the bound is not reached. */
  lemma {:induction false} NextNodeIdxsCount(r: Resolver, n: nat)
    requires Sandyq.ValidNode(r.nextNodeIdx)
    requires r.nextNodeIdx.value as int + n <= Sandyq.NODE_MAX as int
    ensures NextNodeIdxs(r, n).Ok?
    ensures var ids := NextNodeIdxs(r, n).value.0;
            |ids| == n && forall i :: 0 <= i < n ==> ids[i].value as int == r.nextNodeIdx.value as int + i
    ensures NextNodeIdxs(r, n).value.1.nextNodeIdx.value as int == r.nextNodeIdx.value as int + n
    decreases n
  {
    if n > 0 {
      var first := NextNodeIdx(r).value;
      NextNodeIdxsCount(first.1, n - 1);
    }
  }

  /** The first call after `new` returns the root's index, which `new` has
      already mapped to the sandyq's definition. */
  lemma FirstNodeIsRoot()
    ensures NextNodeIdx(New()).Ok?
    ensures NextNodeIdx(New()).value.0 == Sandyq.SANDYQ_NODE_IDX
    ensures NextNodeIdx(New()).value.0 in New().nodeToDef
  {
  }

  /** The counter never hands out `NodeIdx::DUMMY`, and `checked_add` never
      fires: the `from_u32` bound stops the counter first. */
  lemma NeverYieldsDummy(r: Resolver)
    requires Sandyq.ValidNode(r.nextNodeIdx)
    ensures NextNodeIdx(r).Ok? ==> NextNodeIdx(r).value.0 != Sandyq.DUMMY
    ensures r.nextNodeIdx.value as int + 1 <= U32_MAX
  {
  }
}

=== FILE: round_trip.dfy ===
/** The reader, the tree builder and the cursor together
    (tilc_parse/src/lib.rs, token_trees.rs and tilc_ast/src/token_stream.rs).

    The parser reads its tokens from a `TokenCursor` over the trees that
    `lex_all_token_trees` built from the reader's output. When the delimiters
    of that output are balanced and no token glues onto the one right before
    it, the cursor hands back exactly the reader's tokens, in order, each with
    the spacing the reader saw after it, and then `Eof` forever. */
module RoundTrip {
  import opened Outcomes
  import opened Tokens
  import opened TokenStreams
  import opened TokenTrees

  /** The cursor over the built trees re-emits the reader's tokens, then `Eof`
      on every further call. */
  lemma CursorReplaysReader(toks: seq<Read>, glue: Glue, dummy: Token, k: nat) returns (trees: seq<TokenTree>)
    requires IsReaderOutput(toks) && NoGlueIn(toks, glue) && Balanced(toks)
    ensures NeverGluesOntoEof(glue) && LexAll(toks, glue, dummy) == Ok(trees)
    ensures Run(NewCursor(trees), |toks| - 1 + k) == Annotated(toks, 0, |toks| - 1) + EofRepeated(k)
  {
    trees := LexAllOnBalanced(toks, glue, dummy);
    CursorEmitsFlatten(trees, k);
    assert |Flatten(trees)| == |toks| - 1;
  }

  /** Pointwise: call `m` of the cursor returns the reader's token `m`, with
      `Whitespaced` exactly when the reader saw whitespace before the next
      token. */
  lemma CursorReturnsReaderToken(toks: seq<Read>, glue: Glue, dummy: Token, m: nat) returns (trees: seq<TokenTree>)
    requires IsReaderOutput(toks) && NoGlueIn(toks, glue) && Balanced(toks) && m < |toks| - 1
    ensures NeverGluesOntoEof(glue) && LexAll(toks, glue, dummy) == Ok(trees)
    ensures Run(NewCursor(trees), m + 1)[m].0 == toks[m].0
    ensures Run(NewCursor(trees), m + 1)[m].1 == Whitespaced <==> toks[m + 1].1
  {
    var n := |toks| - 1;
    trees := CursorReplaysReader(toks, glue, dummy, 0);
    RunPrefix(NewCursor(trees), m + 1, n);
    assert Run(NewCursor(trees), m + 1)[m] == Annotated(toks, 0, n)[m];
    AnnotatedIndex(toks, 0, n, m);
  }

  /** Once the reader's tokens are used up, every call returns `Eof`. */
  lemma CursorEofAfterReader(toks: seq<Read>, glue: Glue, dummy: Token, m: nat) returns (trees: seq<TokenTree>)
    requires IsReaderOutput(toks) && NoGlueIn(toks, glue) && Balanced(toks) && m >= |toks| - 1
    ensures NeverGluesOntoEof(glue) && LexAll(toks, glue, dummy) == Ok(trees)
    ensures Run(NewCursor(trees), m + 1)[m] == EOF_OUTPUT
  {
    var n := |toks| - 1;
    var k := m + 1 - n;
    trees := CursorReplaysReader(toks, glue, dummy, k);
    assert n + k == m + 1;
    var all := Annotated(toks, 0, n) + EofRepeated(k);
    assert Run(NewCursor(trees), m + 1) == all;
    assert all[m] == EofRepeated(k)[m - n];
  }

  /** A shorter run is a prefix of a longer one. */
  lemma {:induction false} RunPrefix(c: TokenCursor, a: nat, b: nat)
    requires a <= b
    ensures Run(c, a) == Run(c, b)[..a]
    decreases a
  {
    if a > 0 {
      var next := Step(c);
      RunPrefix(next.2, a - 1, b - 1);
      assert Run(c, a) == [(next.0, next.1)] + Run(next.2, a - 1);
      assert Run(c, b) == [(next.0, next.1)] + Run(next.2, b - 1);
    }
  }

  /** The parser never sees an `Empty` delimiter from built trees. */
  lemma BuiltTreesShowNoEmptyDelimiter(toks: seq<Read>, glue: Glue, dummy: Token, k: nat)
    requires IsReaderOutput(toks) && NoGlueIn(toks, glue) && Balanced(toks)
    ensures NeverGluesOntoEof(glue) && LexAll(toks, glue, dummy).Ok?
    ensures forall i :: 0 <= i < k ==> !IsEmptyDelimiter(Run(NewCursor(LexAll(toks, glue, dummy).value), k)[i].0.kind)
  {
    var trees := LexAllOnBalanced(toks, glue, dummy);
    var n := |Flatten(trees)|;
    CursorEmitsFlatten(trees, k);
    FlattenHasNoEmptyDelimiter(trees);
    RunPrefix(NewCursor(trees), k, n + k);
    forall i | 0 <= i < k
      ensures !IsEmptyDelimiter(Run(NewCursor(trees), k)[i].0.kind)
    {
      assert Run(NewCursor(trees), k)[i] == (Flatten(trees) + EofRepeated(k))[i];
      if i >= n {
        assert (Flatten(trees) + EofRepeated(k))[i] == EofRepeated(k)[i - n];
      }
    }
  }
}

=== FILE: sandyq.dfy ===
/** Node and attribute indices and statement attributes of the AST
    (tilc_ast/src/sandyq.rs).

    `NodeIdx` and `AttrIdx` are `uidx!` types with the default bound.
    `AttrIdxGen` wraps an `AtomicU32`; it is modelled as a plain counter whose
    `fetch_add` wraps around like the atomic does. The AST node types are
    reduced to what the attribute accessors touch: a statement's kind and, in
    each kind, the node that owns the attribute list. */
module Sandyq {
  import opened Outcomes
  import opened Spans
  import Uidx

  /** The bound of `NodeIdx` and `AttrIdx`: no `#[max]`, so the default. */
  const NODE_MAX: u32 := Uidx.DEFAULT_MAX

  predicate ValidNode(i: Uidx.Idx) {
    Uidx.Valid(NODE_MAX, i)
  }

  /** `NodeIdx::DUMMY`, declared as `Self::MAX.as_u32()`. */
  const DUMMY: Uidx.Idx := Uidx.Idx(NODE_MAX)

  /** `SANDYQ_NODE_IDX`: `NodeIdx::from_u32(0)`. */
  const SANDYQ_NODE_IDX: Uidx.Idx := Uidx.Idx(0)

  /** The `uidx!` expansion of `NodeIdx` declares `DUMMY` as its one constant;
      it is the type's `MAX`, and `SANDYQ_NODE_IDX` is its `EMPTY`. */
  lemma NodeIdxConstants(derives: Uidx.Attr)
    requires !Uidx.IsMaxAttr(derives)
    ensures Uidx.Expand([derives], [Uidx.AsU32(Uidx.Idx(NODE_MAX))]).Ok?
    ensures var e := Uidx.Expand([derives], [Uidx.AsU32(Uidx.Idx(NODE_MAX))]).value;
            e.consts == [DUMMY] && e.maxConst == DUMMY && e.empty == SANDYQ_NODE_IDX
  {
    assert [derives][1..] == [];
  }

  /** `AttrIdxGen`: the next value the atomic will hand out. */
  datatype AttrIdxGen = AttrIdxGen(counter: u32)

  /** `AttrIdxGen::new`. */
  const NEW_GEN: AttrIdxGen := AttrIdxGen(0)

  /** `make_attr_idx` as written: `fetch_add(1)` (wrapping), `assert!` that the
      fetched value is not `u32::MAX`, and build `AttrIdx` directly, without the
      `from_u32` bound check. */
  function MakeAttrIdx(g: AttrIdxGen): (r: Res<(Uidx.Idx, AttrIdxGen)>)
    ensures r.Ok? <==> g.counter as int != U32_MAX
    ensures r.Ok? ==> r.value.0.value == g.counter && r.value.1.counter as int == g.counter as int + 1
  {
    var fetched := g.counter;
    var g1 := AttrIdxGen(TruncU32(fetched as int + 1));
    if fetched as int == U32_MAX then Fail(Panic)
    else Ok((Uidx.Idx(fetched), g1))
  }

  /** The generator hands out an `AttrIdx` above `AttrIdx::MAX`, which no
      constructor of the type would accept, at its 0xFFFF_FF02nd call. */
  lemma MakeAttrIdxExceedsMax()
    ensures MakeAttrIdx(AttrIdxGen((NODE_MAX as int + 1) as u32)).Ok?
    ensures !ValidNode(MakeAttrIdx(AttrIdxGen((NODE_MAX as int + 1) as u32)).value.0)
    ensures Uidx.FromU32(NODE_MAX, (NODE_MAX as int + 1) as u32).Fail?
  {
  }

  /** `make_attr_idx` with the bound enforced by `AttrIdx::from_u32`: every
      index it returns is a valid `AttrIdx`. */
  function MakeAttrIdxChecked(g: AttrIdxGen): (r: Res<(Uidx.Idx, AttrIdxGen)>)
    ensures r.Ok? <==> g.counter <= NODE_MAX
    ensures r.Ok? ==> && ValidNode(r.value.0)
                      && r.value.0.value == g.counter
                      && r.value.1.counter as int == g.counter as int + 1
  {
    var fetched := g.counter;
    var g1 := AttrIdxGen(TruncU32(fetched as int + 1));
    if fetched as int == U32_MAX then Fail(Panic)
    else
      var idx :- Uidx.FromU32(NODE_MAX, fetched);
      Ok((idx, g1))
  }

  /** `n` calls of the checked generator. */
  function MakeAttrIdxs(g: AttrIdxGen, n: nat): (r: Res<(seq<Uidx.Idx>, AttrIdxGen)>)
    decreases n
  {
    if n == 0 then Ok(([], g))
    else
      var first :- MakeAttrIdxChecked(g);
      var rest :- MakeAttrIdxs(first.1, n - 1);
      Ok(([first.0] + rest.0, rest.1))
  }

  /** A fresh generator yields 0, 1, 2, … in call order, each a valid index. */
  lemma {:induction false} AttrIdxsCountUp(g: AttrIdxGen, n: nat)
    requires g.counter as int + n <= NODE_MAX as int + 1
    ensures MakeAttrIdxs(g, n).Ok?
    ensures var ids := MakeAttrIdxs(g, n).value.0;
            |ids| == n && forall i :: 0 <= i < n ==> ids[i].value as int == g.counter as int + i && ValidNode(ids[i])
    decreases n
  {
    if n > 0 {
      var first := MakeAttrIdxChecked(g).value;
      AttrIdxsCountUp(first.1, n - 1);
    }
  }

  /** A node that owns an attribute list (`Local`, `Item`, `Expression`); its
      other fields are `rest`. */
  datatype Owner<A, R> = Owner(attrs: seq<A>, rest: R)

  datatype StatementKind<A, R> =
    | Let(local: Owner<A, R>)
    | Item(item: Owner<A, R>)
    | Expression(expr: Owner<A, R>)
    | Semi(expr: Owner<A, R>)

  datatype Statement<A, R> = Statement(idx: Uidx.Idx, kind: StatementKind<A, R>, span: Span)

  /** The node whose attributes a statement exposes. */
  function OwnerOf<A, R>(k: StatementKind<A, R>): Owner<A, R> {
    match k
    case Let(local) => local
    case Item(item) => item
    case Expression(expr) => expr
    case Semi(expr) => expr
  }

  /** `HasAttrs::attrs` for `Statement`. */
  function Attrs<A, R>(s: Statement<A, R>): seq<A> {
    OwnerOf(s.kind).attrs
  }

  /** `HasAttrs::walk_attrs` (and `access_attrs`) for `Statement`: apply `f` to
      the attribute list of the owning node, in place. */
  function WalkAttrs<A, R>(s: Statement<A, R>, f: seq<A> -> seq<A>): (r: Statement<A, R>)
    ensures Attrs(r) == f(Attrs(s))
    ensures OwnerOf(r.kind).rest == OwnerOf(s.kind).rest
    ensures r.idx == s.idx && r.span == s.span
    ensures r.kind.Let? == s.kind.Let? && r.kind.Item? == s.kind.Item?
    ensures r.kind.Expression? == s.kind.Expression? && r.kind.Semi? == s.kind.Semi?
  {
    var o := OwnerOf(s.kind);
    var o1 := Owner(f(o.attrs), o.rest);
    var k := match s.kind
      case Let(_) => Let(o1)
      case Item(_) => Item(o1)
      case Expression(_) => Expression(o1)
      case Semi(_) => Semi(o1);
    Statement(s.idx, k, s.span)
  }

  /** Walking with the identity changes nothing, and two walks compose. */
  lemma WalkAttrsLaws<A, R>(s: Statement<A, R>, f: seq<A> -> seq<A>, g: seq<A> -> seq<A>)
    ensures WalkAttrs(s, x => x) == s
    ensures WalkAttrs(WalkAttrs(s, f), g) == WalkAttrs(s, x => g(f(x)))
  {
  }
}

=== FILE: spans.dfy ===
/** Byte positions and spans (tilc_span/src/pos.rs and tilc_span/src/span.rs).

    `BytePos` wraps a `u32`; its `+` and `-` are the plain `u32` operators, which
    panic on overflow in a debug build. `Span` is a pair of `u32` offsets whose
    constructor debug-asserts `start <= end`. */
module Spans {
  import opened Outcomes

  /** An absolute byte offset. */
  datatype BytePos = BytePos(offset: u32)

  function FromU32(v: u32): BytePos {
    BytePos(v)
  }

  function ToU32(p: BytePos): u32 {
    p.offset
  }

  /** `from_usize` is an `as u32` cast: it keeps the low 32 bits. */
  function FromUsize(v: usize): (p: BytePos)
    ensures p.offset as int == v as int % (U32_MAX + 1)
    ensures v as int <= U32_MAX ==> p.offset as int == v as int
  {
    BytePos((v as int % (U32_MAX + 1)) as u32)
  }

  function ToUsize(p: BytePos): (r: usize)
    ensures r as int == p.offset as int
  {
    p.offset as int as usize
  }

  /** `BytePos + BytePos`: the sum of the offsets; overflowing `u32` panics. */
  function Add(a: BytePos, b: BytePos): (r: Res<BytePos>)
    ensures r.Ok? <==> a.offset as int + b.offset as int <= U32_MAX
    ensures r.Ok? ==> r.value.offset as int == a.offset as int + b.offset as int
    ensures r.Fail? ==> r.fault == Panic
  {
    if a.offset as int + b.offset as int <= U32_MAX then Ok(BytePos(a.offset + b.offset))
    else Fail(Panic)
  }

  /** `BytePos - BytePos`: the difference of the offsets; underflow panics. */
  function Sub(a: BytePos, b: BytePos): (r: Res<BytePos>)
    ensures r.Ok? <==> b.offset <= a.offset
    ensures r.Ok? ==> r.value.offset as int == a.offset as int - b.offset as int
    ensures r.Fail? ==> r.fault == Panic
  {
    if b.offset <= a.offset then Ok(BytePos(a.offset - b.offset)) else Fail(Panic)
  }

  /** The derived ordering of `BytePos` compares the inner offsets. */
  predicate Less(a: BytePos, b: BytePos) {
    a.offset < b.offset
  }

  /** A half-open byte range `[start, end)`. */
  datatype Span = Span(start: u32, end: u32)

  /** `Span::new` debug-asserts that the range is not reversed. */
  function NewSpan(start: u32, end: u32): (r: Res<Span>)
    ensures r.Ok? <==> start <= end
    ensures r.Ok? ==> r.value.start == start && r.value.end == end
  {
    if start <= end then Ok(Span(start, end)) else Fail(Panic)
  }

  /** The sentinel span: both ends at `u32::MAX`. */
  const EMPTY: Span := Span(U32_MAX as u32, U32_MAX as u32)

  /** `with_hi`: the same span with its end replaced. */
  function WithHi(s: Span, hi: u32): Span {
    Span(s.start, hi)
  }

  lemma FromU32RoundTrip(v: u32)
    ensures ToU32(FromU32(v)) == v
    ensures FromU32(ToU32(BytePos(v))) == BytePos(v)
  {
  }

  /** Offsets wider than 32 bits lose their high bits. */
  lemma FromUsizeTruncates()
    ensures FromUsize((U32_MAX + 1) as usize) == BytePos(0)
    ensures FromUsize((U32_MAX + 7) as usize) == BytePos(6)
  {
  }

  /** Adding then subtracting the same offset gives the original position back. */
  lemma AddSubInverse(a: BytePos, b: BytePos)
    requires Add(a, b).Ok?
    ensures Sub(Add(a, b).value, b) == Ok(a)
  {
  }

  /** The sentinel satisfies the constructor's invariant, and is not mistaken for
      any real span that starts at position 0. */
  lemma EmptySpanIsDistinct(end: u32)
    ensures NewSpan(EMPTY.start, EMPTY.end) == Ok(EMPTY)
    ensures NewSpan(0, end).Ok? && NewSpan(0, end).value != EMPTY
  {
  }
}

=== FILE: symbol_tables.dfy ===
/** The index tables the `symbols!` proc macros build at compile time
    (tilc_macros/src/symbols.rs, tilc_macro/src/symbols.rs and the keyword-only
    tilc_macros/src/symbol.rs).

    All three copies share one `Entries` table: a `HashMap` from a string to the
    index it was first given. Each keyword and symbol literal is inserted in
    declaration order; its index becomes a `Symbol` constant, and the literal
    itself, duplicates included, is appended to the list handed to
    `Interner::prefill`. The table's span bookkeeping only feeds `eprintln!` and
    is left out. */
module SymbolTables {
  import opened Outcomes
  import Interner

  /** `Entries`: each string with the index it was assigned. */
  datatype Entries = Entries(idx: map<string, u32>)

  /** `Entries` holds exactly the strings of `order`, the i-th of them at index i. */
  ghost predicate Agrees(e: Entries, order: seq<string>) {
    && Interner.Distinct(order)
    && |e.idx| == |order|
    && (forall x :: x in e.idx <==> x in order)
    && (forall i :: 0 <= i < |order| ==> e.idx[order[i]] as int == i)
  }

  function Empty(): (e: Entries)
    ensures Agrees(e, [])
  {
    Entries(map[])
  }

  /** `Entries::len`: `u32::try_from(len).expect(..)` panics above `u32::MAX`. */
  function Len(e: Entries): (r: Res<u32>)
    ensures r.Ok? <==> |e.idx| <= U32_MAX
    ensures r.Ok? ==> r.value as int == |e.idx|
    ensures r.Fail? ==> r.fault == Panic
  {
    if |e.idx| <= U32_MAX then Ok(|e.idx| as u32) else Fail(Panic)
  }

  /** `Entries::insert`: a known key returns its old index and changes nothing;
      an unseen key gets the current length as its index. */
  function Insert(e: Entries, key: string): (r: Res<(Entries, u32)>)
    ensures key in e.idx ==> r == Ok((e, e.idx[key]))
    ensures key !in e.idx ==> (r.Ok? <==> |e.idx| <= U32_MAX)
    ensures key !in e.idx && r.Ok? ==>
      r.value.1 as int == |e.idx| && |r.value.0.idx| == |e.idx| + 1
      && key in r.value.0.idx && r.value.0.idx[key] == r.value.1
      && forall k :: k in e.idx ==> k in r.value.0.idx && r.value.0.idx[k] == e.idx[k]
  {
    if key in e.idx then Ok((e, e.idx[key]))
    else
      var n :- Len(e);
      Ok((Entries(e.idx[key := n]), n))
  }

  /** `Insert` runs in lock-step with the interner's `insert_full`: it assigns the
      same index and keeps the table in agreement with the interner's order. */
  lemma InsertAgrees(e: Entries, order: seq<string>, key: string)
    requires Agrees(e, order)
    requires Insert(e, key).Ok?
    ensures Agrees(Insert(e, key).value.0, Interner.InsertFull(order, key).strings)
    ensures Insert(e, key).value.1 as int == Interner.InsertFull(order, key).idx
  {
    var ins := Interner.InsertFull(order, key);
    if key in order {
      var i :| 0 <= i < |order| && order[i] == key;
      Interner.IndexOfDistinct(order, i);
    } else {
      var e2 := Insert(e, key).value.0;
      forall x
        ensures x in e2.idx <==> x in ins.strings
      {
        assert x in ins.strings <==> x in order || x == key;
      }
      forall i | 0 <= i < |ins.strings|
        ensures e2.idx[ins.strings[i]] as int == i
      {
        if i < |order| {
          assert ins.strings[i] == order[i];
        }
      }
    }
  }

  /** Insert every key in order, collecting the returned indices (the two `for`
      loops of the macros). */
  function InsertAll(e: Entries, keys: seq<string>): (r: Res<(Entries, seq<u32>)>)
    decreases |keys|
    ensures r.Ok? ==> |r.value.1| == |keys|
  {
    if |keys| == 0 then Ok((e, []))
    else
      var first :- Insert(e, keys[0]);
      var rest :- InsertAll(first.0, keys[1..]);
      Ok((rest.0, [first.1] + rest.1))
  }

  /** Each returned index points at its key in `order`. */
  predicate IndexesOf(idxs: seq<u32>, order: seq<string>, keys: seq<string>) {
    |idxs| == |keys| && forall k :: 0 <= k < |keys| ==> idxs[k] as int < |order| && order[idxs[k]] == keys[k]
  }

  /** One step of `InsertAll`. */
  lemma InsertAllStep(e: Entries, keys: seq<string>)
    requires |keys| > 0 && InsertAll(e, keys).Ok?
    ensures Insert(e, keys[0]).Ok?
    ensures var first := Insert(e, keys[0]).value;
            && InsertAll(first.0, keys[1..]).Ok?
            && InsertAll(e, keys).value.0 == InsertAll(first.0, keys[1..]).value.0
            && InsertAll(e, keys).value.1 == [first.1] + InsertAll(first.0, keys[1..]).value.1
  {
  }

  /** Inserting a list keeps the table in agreement with the interner's collected
      order. */
  lemma {:induction false} InsertAllAgrees(e: Entries, order: seq<string>, keys: seq<string>)
    requires Agrees(e, order)
    requires InsertAll(e, keys).Ok?
    ensures Agrees(InsertAll(e, keys).value.0, Interner.CollectInto(order, keys))
    decreases |keys|
  {
    if |keys| > 0 {
      InsertAllStep(e, keys);
      var first := Insert(e, keys[0]).value;
      InsertAgrees(e, order, keys[0]);
      InsertAllAgrees(first.0, Interner.InsertFull(order, keys[0]).strings, keys[1..]);
    }
  }

  /** ... and every key's returned index is where the interner puts it. */
  lemma {:induction false} InsertAllIndexes(e: Entries, order: seq<string>, keys: seq<string>)
    requires Agrees(e, order)
    requires InsertAll(e, keys).Ok?
    ensures IndexesOf(InsertAll(e, keys).value.1, Interner.CollectInto(order, keys), keys)
    decreases |keys|
  {
    if |keys| > 0 {
      InsertAllStep(e, keys);
      var first := Insert(e, keys[0]).value;
      InsertAgrees(e, order, keys[0]);
      var order1 := Interner.InsertFull(order, keys[0]).strings;
      InsertAllIndexes(first.0, order1, keys[1..]);
      var all := Interner.CollectInto(order1, keys[1..]);
      assert all == Interner.CollectInto(order, keys);
      assert order1 <= all;
      assert IndexesOf([first.1], all, [keys[0]]);
      IndexesOfConcat([first.1], InsertAll(first.0, keys[1..]).value.1, all, [keys[0]], keys[1..]);
      assert [keys[0]] + keys[1..] == keys;
    }
  }

  lemma IndexesOfConcat(a: seq<u32>, b: seq<u32>, order: seq<string>, ka: seq<string>, kb: seq<string>)
    requires IndexesOf(a, order, ka) && IndexesOf(b, order, kb)
    ensures IndexesOf(a + b, order, ka + kb)
  {
    forall k | 0 <= k < |ka| + |kb|
      ensures (a + b)[k] as int < |order| && order[(a + b)[k]] == (ka + kb)[k]
    {
      if k >= |ka| {
        assert (a + b)[k] == b[k - |a|];
        assert (ka + kb)[k] == kb[k - |ka|];
      }
    }
  }

  /** What a `symbols!` expansion defines. */
  datatype Generated = Generated(
    keywordSyms: seq<u32>,   // `kw::NAME = Symbol::new(idx)`, in declaration order
    symbolSyms: seq<u32>,    // `sym::NAME = Symbol::new(idx)`, in declaration order
    preInternedLen: u32,     // `PRE_INTERNED_SYMBOLS_LEN`
    prefill: seq<string>)    // the literals handed to `Interner::prefill`

  /** `symbols` in tilc_macros/src/symbols.rs and tilc_macro/src/symbols.rs:
      keywords first, then symbols, through one table. */
  function Symbols(keywords: seq<string>, symbols: seq<string>): (r: Res<Generated>)
    ensures r.Ok? ==> r.value.prefill == keywords + symbols
    ensures r.Ok? ==> |r.value.keywordSyms| == |keywords| && |r.value.symbolSyms| == |symbols|
  {
    var kw :- InsertAll(Empty(), keywords);
    var sym :- InsertAll(kw.0, symbols);
    var len :- Len(sym.0);
    Ok(Generated(kw.1, sym.1, len, keywords + symbols))
  }

  /** `symbols` in tilc_macros/src/symbol.rs: keywords only. A parse failure of
      the macro input (`None`) panics. */
  function KeywordSymbols(parsed: Option<seq<string>>): (r: Res<Generated>)
    ensures parsed.None? ==> r == Fail(Panic)
    ensures parsed.Some? ==> r == Symbols(parsed.value, [])
  {
    match parsed
    case None => Fail(Panic)
    case Some(keywords) => Symbols(keywords, [])
  }

  /** The generated constants agree with the prefilled interner: every `kw::` and
      `sym::` constant names its own literal, and `PRE_INTERNED_SYMBOLS_LEN` is the
      number of distinct literals, i.e. the interner's size after prefill. */
  lemma SymbolsAgreeWithPrefill(keywords: seq<string>, symbols: seq<string>)
    requires Symbols(keywords, symbols).Ok?
    ensures var g := Symbols(keywords, symbols).value;
            var t := Interner.Prefill(g.prefill);
            && g.preInternedLen as int == |t.strings|
            && (forall k :: 0 <= k < |keywords| ==>
                  Interner.Get(t, Interner.Symbol(g.keywordSyms[k])) == Ok(keywords[k]))
            && (forall k :: 0 <= k < |symbols| ==>
                  Interner.Get(t, Interner.Symbol(g.symbolSyms[k])) == Ok(symbols[k]))
  {
    var g := Symbols(keywords, symbols).value;
    var kw := InsertAll(Empty(), keywords).value;
    InsertAllAgrees(Empty(), [], keywords);
    InsertAllIndexes(Empty(), [], keywords);
    var order := Interner.CollectInto([], keywords);
    InsertAllAgrees(kw.0, order, symbols);
    InsertAllIndexes(kw.0, order, symbols);
    Interner.CollectIntoConcat([], keywords, symbols);
    var all := Interner.CollectInto([], keywords + symbols);
    assert order <= all;
    forall k | 0 <= k < |keywords|
      ensures Interner.Get(Interner.Prefill(g.prefill), Interner.Symbol(g.keywordSyms[k])) == Ok(keywords[k])
    {
      assert g.keywordSyms[k] as int < |order|;
      assert all[g.keywordSyms[k]] == order[g.keywordSyms[k]];
    }
  }

  /** A literal listed twice, in either group, yields one shared symbol. */
  lemma EqualLiteralsShareSymbol(keywords: seq<string>, symbols: seq<string>, i: nat, j: nat)
    requires Symbols(keywords, symbols).Ok?
    requires i < |keywords| && j < |symbols| && keywords[i] == symbols[j]
    ensures Symbols(keywords, symbols).value.keywordSyms[i] == Symbols(keywords, symbols).value.symbolSyms[j]
  {
    var g := Symbols(keywords, symbols).value;
    var t := Interner.Prefill(g.prefill);
    SymbolsAgreeWithPrefill(keywords, symbols);
    assert t.strings[g.keywordSyms[i]] == t.strings[g.symbolSyms[j]];
  }
}

=== FILE: tilc_arena.dfy ===
/** The arenas of tilc_arena/src/lib.rs.

    The same two arenas as in tilc_data_structures, with three differences:
    a chunk is a boxed slice whose length is its capacity, the dropless arena
    keeps `end` aligned to `ALIGNMENT` and rounds every request up to it, and
    `ArenaChunk::end` is computed from `entries`. For a fresh chunk `entries`
    is 0, so as written a chunk ends where it starts. `ChunkEndAsWritten` is
    that definition and `ChunkEnd` the evidently intended one, which ends the
    chunk after its `len` elements; every operation takes the rule as a
    parameter, so both behaviours are modelled side by side.

    Addresses are naturals; the allocator's chunk addresses are the parameter
    `addrOf`, and the `loop` of `alloc_raw` is bounded by `fuel` (`Diverge`
    when it runs out). */
module TilcArena {
  import opened Outcomes
  import opened ArenaMath

  /** `DroplessArena::ALIGNMENT`, `align_of::<usize>()` on a 64-bit target. */
  const ALIGNMENT: nat := 8

  /** An `ArenaChunk`: the address of its storage, the storage's length in
      elements, and `entries`. */
  datatype Chunk = Chunk(storage: nat, len: nat, entries: nat)

  datatype EndRule = AsWritten | Intended

  /** `ArenaChunk::end` as written: `start().add(entries)`. */
  function ChunkEndAsWritten(c: Chunk, elemSize: nat): (r: nat)
    ensures c.entries == 0 ==> r == c.storage
  {
    c.storage + elemSize * c.entries
  }

  /** `ArenaChunk::end` as intended: one past the last element of the storage. */
  function ChunkEnd(c: Chunk, elemSize: nat): (r: nat)
    ensures r - c.storage == elemSize * c.len
  {
    c.storage + elemSize * c.len
  }

  function End(rule: EndRule, c: Chunk, elemSize: nat): nat {
    match rule
    case AsWritten => ChunkEndAsWritten(c, elemSize)
    case Intended => ChunkEnd(c, elemSize)
  }

  function LastLen(chunks: seq<Chunk>): Option<nat> {
    if |chunks| == 0 then None else Some(chunks[|chunks| - 1].len)
  }

  /** A `DroplessArena`: the free space is `[start, end)`. */
  datatype Dropless = Dropless(start: nat, end: nat, chunks: seq<Chunk>)

  /** `DroplessArena::new`. */
  const NEW_DROPLESS := Dropless(0, 0, [])

  /** With the intended chunk end: the free space lies in the newest chunk,
      begins at its storage, and `end` is aligned. */
  predicate DroplessValid(a: Dropless) {
    a.end % ALIGNMENT == 0 &&
    if |a.chunks| == 0 then a.start == 0 && a.end == 0
    else
      var last := a.chunks[|a.chunks| - 1];
      a.start == last.storage && a.start <= a.end <= ChunkEnd(last, 1)
  }

  lemma AlignmentIsPowerOfTwo()
    ensures IsPowerOfTwo(ALIGNMENT) && IsPowerOfTwo(PAGE)
  {
    assert IsPowerOfTwo(1);
    assert IsPowerOfTwo(2);
    assert IsPowerOfTwo(4);
    assert IsPowerOfTwo(8);
    assert IsPowerOfTwo(16) && IsPowerOfTwo(32) && IsPowerOfTwo(64) && IsPowerOfTwo(128);
    assert IsPowerOfTwo(256) && IsPowerOfTwo(512) && IsPowerOfTwo(1024) && IsPowerOfTwo(2048);
  }

  /** One pass of the body of `alloc_raw` before `grow`: the request rounded
      up to `ALIGNMENT` is taken from the top of the free space and rounded
      down to `align`. `end` must already be aligned. */
  function TryAlloc(a: Dropless, size: nat, align: nat): (r: Res<Option<(nat, Dropless)>>)
    requires IsPowerOfTwo(align)
    ensures (AlignmentIsPowerOfTwo(); r.Fail? <==> a.end % ALIGNMENT != 0)
    ensures r.Fail? ==> r.fault == Panic
    ensures r.Ok? && r.value.Some? ==> && r.value.value.0 % align == 0 && r.value.value.0 % ALIGNMENT == 0
                                       && a.start <= r.value.value.0 && r.value.value.0 + size <= a.end
                                       && r.value.value.1 == a.(end := r.value.value.0)
  {
    AlignmentIsPowerOfTwo();
    var bytes := AlignUp(size, ALIGNMENT);
    if a.end != AlignDown(a.end, ALIGNMENT) then Fail(Panic)
    else if a.end >= bytes && a.start <= AlignDown(a.end - bytes, align) then
      var newEnd := AlignDown(a.end - bytes, align);
      StaysAligned(a.end - bytes, align);
      Ok(Some((newEnd, a.(end := newEnd))))
    else Ok(None)
  }

  /** Rounding an `ALIGNMENT`-aligned address down to any power of two keeps
      it `ALIGNMENT`-aligned. */
  lemma StaysAligned(x: nat, align: nat)
    requires IsPowerOfTwo(align) && x % ALIGNMENT == 0
    ensures AlignDown(x, align) % ALIGNMENT == 0
  {
    AlignmentIsPowerOfTwo();
    if align >= ALIGNMENT {
      PowersOfTwoDivide(ALIGNMENT, align);
      DividesTransitive(AlignDown(x, align), ALIGNMENT, align);
    } else {
      PowersOfTwoDivide(align, ALIGNMENT);
      DividesTransitive(x, align, ALIGNMENT);
      AlignedIsFixed(x, align);
    }
  }

  /** `TryAlloc` finds a block whenever an address aligned both to `align`
      and to `ALIGNMENT` leaves room for the rounded request. */
  lemma TryAllocFindsAnyFit(a: Dropless, size: nat, align: nat, m: nat)
    requires IsPowerOfTwo(align) && a.end % ALIGNMENT == 0
    requires m % align == 0 && a.start <= m && m + AlignUp(size, ALIGNMENT) <= a.end
    ensures TryAlloc(a, size, align) == Ok(Some((AlignDown(a.end - AlignUp(size, ALIGNMENT), align),
                                                 a.(end := AlignDown(a.end - AlignUp(size, ALIGNMENT), align)))))
  {
    AlignmentIsPowerOfTwo();
    AlignedIsFixed(a.end, ALIGNMENT);
    AlignBounds(a.end - AlignUp(size, ALIGNMENT), align, m);
  }

  /** `DroplessArena::grow`: room for the request plus its worst-case
      alignment slack, rounded up to whole pages; `end` is the chunk end
      rounded down to `ALIGNMENT`, and must not fall below the start. */
  function Grow(a: Dropless, size: nat, align: nat, base: nat, rule: EndRule): (r: Res<Dropless>)
    ensures r.Fail? ==> r.fault == Panic
    ensures r.Ok? ==> && r.value.start == base && r.value.end % ALIGNMENT == 0
                      && |r.value.chunks| == |a.chunks| + 1
                      && r.value.chunks[..|a.chunks|] == a.chunks
                      && r.value.chunks[|a.chunks|].storage == base
                      && r.value.chunks[|a.chunks|].len >= size + Max(ALIGNMENT, align) - 1
                      && r.value.chunks[|a.chunks|].len % PAGE == 0
                      && r.value.end == AlignDown(End(rule, r.value.chunks[|a.chunks|], 1), ALIGNMENT)
    ensures rule == Intended && r.Ok? ==> DroplessValid(r.value)
    ensures rule == Intended && base % ALIGNMENT == 0 ==> r.Ok? && DroplessValid(r.value)
                                                          && r.value.end == ChunkEnd(r.value.chunks[|a.chunks|], 1)
    ensures rule == AsWritten ==> (r.Ok? <==> base % ALIGNMENT == 0)
    ensures rule == AsWritten && r.Ok? ==> r.value.end == base
  {
    AlignmentIsPowerOfTwo();
    var additional := size + Max(ALIGNMENT, align) - 1;
    var cap := NextCapacity(LastLen(a.chunks), additional, 1);
    var chunk := Chunk(base, AlignUp(cap, PAGE), 0);
    var end := AlignDown(End(rule, chunk, 1), ALIGNMENT);
    if base <= end then
      PagesAreAligned(base, chunk.len);
      Ok(Dropless(base, end, a.chunks + [chunk]))
    else Fail(Panic)
  }

  /** A whole number of pages after an aligned base is aligned. */
  lemma PagesAreAligned(base: nat, len: nat)
    requires len % PAGE == 0
    ensures base % ALIGNMENT == 0 ==> (base + len) % ALIGNMENT == 0
    ensures base % ALIGNMENT == 0 ==> AlignDown(base + len, ALIGNMENT) == base + len
    ensures base % ALIGNMENT == 0 ==> AlignDown(base, ALIGNMENT) == base
  {
    AlignmentIsPowerOfTwo();
    var q := len / PAGE;
    assert len == ALIGNMENT * (512 * q);
    MultipleMod(ALIGNMENT, 512 * q);
    if base % ALIGNMENT == 0 {
      MultipleAdd(base, len, ALIGNMENT);
      AlignedIsFixed(base + len, ALIGNMENT);
      AlignedIsFixed(base, ALIGNMENT);
    }
  }

  /** The `loop` of `alloc_raw`, with at most `fuel` calls to `grow`. */
  function AllocLoop(a: Dropless, size: nat, align: nat, addrOf: nat -> nat, rule: EndRule, fuel: nat): (r: Res<(nat, Dropless)>)
    requires IsPowerOfTwo(align) && size > 0
    decreases fuel
    ensures r.Ok? ==> r.value.0 % align == 0 && r.value.1.end == r.value.0
    ensures r.Ok? && rule == Intended && DroplessValid(a) ==>
              DroplessValid(r.value.1) && InNewestChunk(r.value.1, r.value.0, size)
  {
    var step :- TryAlloc(a, size, align);
    match step
    case Some(hit) => TakingKeepsValid(a, hit.0, size); Ok(hit)
    case None =>
      if fuel == 0 then Fail(Diverge)
      else
        var grown :- Grow(a, size, align, addrOf(|a.chunks|), rule);
        AllocLoop(grown, size, align, addrOf, rule, fuel - 1)
  }

  predicate InNewestChunk(a: Dropless, p: nat, size: nat) {
    |a.chunks| > 0 && a.chunks[|a.chunks| - 1].storage <= p
    && p + size <= ChunkEnd(a.chunks[|a.chunks| - 1], 1)
  }

  /** Lowering `end` to an aligned block inside the free space keeps a valid
      arena valid, and the block lies in the newest chunk. */
  lemma TakingKeepsValid(a: Dropless, p: nat, size: nat)
    ensures DroplessValid(a) && size > 0 && p % ALIGNMENT == 0 && a.start <= p && p + size <= a.end ==>
              DroplessValid(a.(end := p)) && InNewestChunk(a.(end := p), p, size)
  {
  }

  /** `alloc_raw`: a zero-sized layout panics, anything else loops. */
  function AllocRaw(a: Dropless, size: nat, align: nat, addrOf: nat -> nat, rule: EndRule, fuel: nat): (r: Res<(nat, Dropless)>)
    requires IsPowerOfTwo(align)
    ensures size == 0 ==> r == Fail(Panic)
    ensures r.Ok? ==> size > 0 && r.value.0 % align == 0
    ensures r.Ok? && rule == Intended && DroplessValid(a) ==>
              DroplessValid(r.value.1) && InNewestChunk(r.value.1, r.value.0, size)
  {
    if size == 0 then Fail(Panic) else AllocLoop(a, size, align, addrOf, rule, fuel)
  }

  /** `DroplessArena::alloc::<T>`: types that need dropping and zero-sized
      types are refused. */
  function Alloc(a: Dropless, size: nat, align: nat, needsDrop: bool, addrOf: nat -> nat, rule: EndRule, fuel: nat): (r: Res<(nat, Dropless)>)
    requires IsPowerOfTwo(align)
    ensures needsDrop || size == 0 ==> r == Fail(Panic)
    ensures !needsDrop ==> r == AllocRaw(a, size, align, addrOf, rule, fuel)
  {
    if needsDrop || size == 0 then Fail(Panic) else AllocRaw(a, size, align, addrOf, rule, fuel)
  }

  /** As written, the dropless arena never hands out a block: every chunk it
      pushes ends where it starts, so the free space stays empty and the loop
      grows forever, or panics on the first chunk whose address is not
      aligned. */
  lemma {:induction false} DroplessNeverAllocates(a: Dropless, size: nat, align: nat, addrOf: nat -> nat, fuel: nat)
    requires IsPowerOfTwo(align) && size > 0 && a.start == a.end && a.end % ALIGNMENT == 0
    ensures AllocRaw(a, size, align, addrOf, AsWritten, fuel).Fail?
    ensures (forall i: nat :: addrOf(i) % ALIGNMENT == 0) ==>
              AllocRaw(a, size, align, addrOf, AsWritten, fuel) == Fail(Diverge)
    decreases fuel
  {
    AlignmentIsPowerOfTwo();
    assert AlignUp(size, ALIGNMENT) > 0;
    assert TryAlloc(a, size, align) == Ok(None);
    if fuel > 0 {
      var g := Grow(a, size, align, addrOf(|a.chunks|), AsWritten);
      if g.Ok? {
        DroplessNeverAllocates(g.value, size, align, addrOf, fuel - 1);
      }
    }
  }

  /** The arena `new` returns is in the state the lemma above starts from. */
  lemma NewDroplessNeverAllocates(size: nat, align: nat, addrOf: nat -> nat, fuel: nat)
    requires IsPowerOfTwo(align) && size > 0
    ensures AllocRaw(NEW_DROPLESS, size, align, addrOf, AsWritten, fuel).Fail?
  {
    DroplessNeverAllocates(NEW_DROPLESS, size, align, addrOf, fuel);
  }

  /** The slack `grow` reserves is enough: in a chunk from `base` to `end`,
      both `ALIGNMENT`-aligned and at least `size + max(ALIGNMENT, align) - 1`
      bytes long, the spot `alloc_raw` picks below `end` lies inside the chunk,
      whatever the alignment of `base` for `align`. */
  lemma SlackFitsAlignedRequest(base: nat, end: nat, size: nat, align: nat)
    requires IsPowerOfTwo(align) && base % ALIGNMENT == 0 && end % ALIGNMENT == 0
    requires base + size + Max(ALIGNMENT, align) - 1 <= end
    ensures AlignUp(size, ALIGNMENT) <= end
    ensures base <= AlignDown(end - AlignUp(size, ALIGNMENT), align)
  {
    AlignmentIsPowerOfTwo();
    var bytes := AlignUp(size, ALIGNMENT);
    var x := end - bytes;
    assert base + Max(ALIGNMENT, align) - ALIGNMENT <= x;
    AlignedDifference(end, bytes);
    var m := AlignDown(x, align);
    StaysAligned(x, align);
    if m < base {
      MultiplesApart(m, base, ALIGNMENT);
    }
  }

  /** A chunk carrying that slack serves the request without growing. */
  lemma SlackedChunkFits(a: Dropless, size: nat, align: nat)
    requires IsPowerOfTwo(align) && a.start % ALIGNMENT == 0 && a.end % ALIGNMENT == 0
    requires a.start + size + Max(ALIGNMENT, align) - 1 <= a.end
    ensures TryAlloc(a, size, align).Ok? && TryAlloc(a, size, align).value.Some?
  {
    SlackFitsAlignedRequest(a.start, a.end, size, align);
    TryAllocFindsAnyFit(a, size, align, AlignDown(a.end - AlignUp(size, ALIGNMENT), align));
  }

  lemma AlignedDifference(x: nat, y: nat)
    requires x % ALIGNMENT == 0 && y % ALIGNMENT == 0 && y <= x
    ensures (x - y) % ALIGNMENT == 0
  {
    assert x - y == ALIGNMENT * (x / ALIGNMENT - y / ALIGNMENT);
  }

  /** With the intended chunk end, one `grow` is always enough when the
      allocator's next chunk is aligned for `ALIGNMENT`: `grow` reserves the
      request plus the worst alignment slack. */
  lemma DroplessAllocAfterOneGrow(a: Dropless, size: nat, align: nat, addrOf: nat -> nat, fuel: nat)
    requires IsPowerOfTwo(align) && size > 0 && fuel >= 1 && DroplessValid(a)
    requires addrOf(|a.chunks|) % ALIGNMENT == 0
    ensures AllocRaw(a, size, align, addrOf, Intended, fuel).Ok?
  {
    AlignmentIsPowerOfTwo();
    var step := TryAlloc(a, size, align);
    if step.value.None? {
      var base := addrOf(|a.chunks|);
      var g := Grow(a, size, align, base, Intended).value;
      assert g.end == g.start + g.chunks[|a.chunks|].len;
      SlackedChunkFits(g, size, align);
      assert AllocLoop(g, size, align, addrOf, Intended, fuel - 1).Ok?;
    }
  }

  /** A `TypedArena<T>` for a `T` of `elemSize` bytes, with its bump pointer `ptr`. */
  datatype Typed = Typed(ptr: nat, end: nat, chunks: seq<Chunk>)

  /** `TypedArena::new`. */
  const NEW_TYPED := Typed(0, 0, [])

  datatype Slot = At(addr: nat) | Dangling

  /** With the intended chunk end: the free slots `[ptr, end)` are whole
      elements of the newest chunk, which `end` closes. */
  predicate TypedValid(t: Typed, elemSize: nat) {
    elemSize > 0 &&
    if |t.chunks| == 0 then t.ptr == 0 && t.end == 0
    else
      var last := t.chunks[|t.chunks| - 1];
      && last.len > 0
      && last.storage <= t.ptr <= t.end == ChunkEnd(last, elemSize)
      && (t.ptr - last.storage) % elemSize == 0
  }

  /** The `needs_drop` branch of `grow`. */
  function RecordEntries(t: Typed, elemSize: nat): (r: Res<seq<Chunk>>)
    requires |t.chunks| > 0
    ensures r.Ok? <==> t.chunks[|t.chunks| - 1].storage <= t.ptr && elemSize > 0
    ensures r.Fail? ==> r.fault == Panic
    ensures r.Ok? ==> && |r.value| == |t.chunks| && r.value[..|t.chunks| - 1] == t.chunks[..|t.chunks| - 1]
                      && r.value[|t.chunks| - 1].len == t.chunks[|t.chunks| - 1].len
                      && r.value[|t.chunks| - 1].storage == t.chunks[|t.chunks| - 1].storage
                      && elemSize * r.value[|t.chunks| - 1].entries <= t.ptr - t.chunks[|t.chunks| - 1].storage
  {
    var last := t.chunks[|t.chunks| - 1];
    if t.ptr < last.storage || elemSize == 0 then Fail(Panic)
    else
      var entries := (t.ptr - last.storage) / elemSize;
      assert elemSize * entries <= t.ptr - last.storage by { RemainderCleared(t.ptr - last.storage, elemSize); }
      Ok(t.chunks[..|t.chunks| - 1] + [last.(entries := entries)])
  }

  /** `TypedArena::grow`: a chunk of `NextCapacity` elements at `base`. */
  function TypedGrow(t: Typed, additional: nat, elemSize: nat, needsDrop: bool, base: nat, rule: EndRule): (r: Res<Typed>)
    ensures r.Fail? ==> r.fault == Panic
    ensures r.Ok? ==> && r.value.ptr == base
                      && |r.value.chunks| == |t.chunks| + 1
                      && r.value.chunks[|t.chunks|] == Chunk(base, r.value.chunks[|t.chunks|].len, 0)
                      && r.value.chunks[|t.chunks|].len >= additional
                      && r.value.end == End(rule, r.value.chunks[|t.chunks|], elemSize)
    ensures rule == Intended && r.Ok? && additional > 0 && elemSize > 0 ==> TypedValid(r.value, elemSize)
    ensures TypedValid(t, elemSize) ==> r.Ok?
  {
    var chunks :- if |t.chunks| > 0 && needsDrop then RecordEntries(t, elemSize) else Ok(t.chunks);
    var cap := NextCapacity(LastLen(t.chunks), additional, Max(1, elemSize));
    var chunk := Chunk(base, cap, 0);
    assert (base - base) % Max(1, elemSize) == 0;
    Ok(Typed(base, End(rule, chunk, elemSize), chunks + [chunk]))
  }

  /** `TypedArena::alloc`: grow when `ptr` meets `end`, then take the slot at
      `ptr`; a zero-sized `T` gets the dangling pointer and bumps `ptr` by a
      byte. */
  function TypedAlloc(t: Typed, elemSize: nat, needsDrop: bool, base: nat, rule: EndRule): (r: Res<(Slot, Typed)>)
    ensures r.Ok? && elemSize == 0 ==> r.value.0 == Dangling
    ensures r.Ok? && elemSize > 0 && t.ptr != t.end ==> r.value.0 == At(t.ptr) && r.value.1 == t.(ptr := t.ptr + elemSize)
    ensures rule == Intended && TypedValid(t, elemSize) ==>
              && r.Ok? && TypedValid(r.value.1, elemSize)
              && r.value.0.At? && InTypedChunk(r.value.1, r.value.0.addr, elemSize)
  {
    var t1 :- if t.ptr == t.end then TypedGrow(t, 1, elemSize, needsDrop, base, rule) else Ok(t);
    if elemSize == 0 then Ok((Dangling, t1.(ptr := t1.ptr + 1)))
    else
      SlotFits(t1, elemSize);
      Ok((At(t1.ptr), t1.(ptr := t1.ptr + elemSize)))
  }

  predicate InTypedChunk(t: Typed, p: nat, elemSize: nat) {
    |t.chunks| > 0 && t.chunks[|t.chunks| - 1].storage <= p
    && p + elemSize <= ChunkEnd(t.chunks[|t.chunks| - 1], elemSize)
  }

  /** A valid typed arena with free space has room for a whole element at
      `ptr`, and taking it keeps the arena valid. */
  lemma SlotFits(t: Typed, elemSize: nat)
    requires elemSize > 0
    ensures TypedValid(t, elemSize) && t.ptr < t.end ==>
              && TypedValid(t.(ptr := t.ptr + elemSize), elemSize)
              && InTypedChunk(t.(ptr := t.ptr + elemSize), t.ptr, elemSize)
  {
    if TypedValid(t, elemSize) && t.ptr < t.end {
      var last := t.chunks[|t.chunks| - 1];
      MultipleMod(elemSize, last.len);
      MultiplesApart(t.ptr - last.storage, t.end - last.storage, elemSize);
      MultipleAdd(t.ptr - last.storage, elemSize, elemSize);
      assert (t.ptr + elemSize) - last.storage == (t.ptr - last.storage) + elemSize;
    }
  }

  /** As written, a typed arena overruns its chunk: for a 4096-byte `T` the
      first chunk holds one element, yet the second `alloc` does not grow and
      places its element right after that chunk's storage. */
  lemma TypedOverrunsChunk()
    ensures TypedAlloc(NEW_TYPED, 4096, false, 8192, AsWritten).Ok?
    ensures var first := TypedAlloc(NEW_TYPED, 4096, false, 8192, AsWritten).value;
            && first.0 == At(8192)
            && first.1.chunks == [Chunk(8192, 1, 0)]
            && TypedAlloc(first.1, 4096, false, 0, AsWritten).Ok?
            && TypedAlloc(first.1, 4096, false, 0, AsWritten).value.0 == At(12288)
            && ChunkEnd(first.1.chunks[0], 4096) == 12288
  {
    assert NextCapacity(None, 1, 4096) == 1;
  }
}

=== FILE: token_reader.dfy ===
/** The token reader (tilc_advanced_lexer/src/token_reader.rs).

    `next_token` drives the character scanner, skips whitespace primitives while
    remembering that it saw one, advances its byte position by every primitive's
    length, and maps the primitive kind to an AST token kind with the span
    `[start, pos)`. Identifiers are interned and recorded in the session's
    symbol repository.

    `src_pos` converts an absolute position to an index into the source text as
    `start_post - pos`, the reverse of the evident intent: for the first
    identifier of a file starting at 0 the subtraction underflows, and in every
    other case the slice bounds come out reversed. Either way the identifier path
    panics. The model keeps that behaviour (`Variant.AsWritten`) and also models
    the evidently intended `pos - start_post` (`Variant.Intended`). The reader as
    written also calls the interner's `intern`, whose debug assertion fires on a
    fresh string; the intended variant uses the intended interner.

    Span construction takes a third argument (a syntax context) in this file;
    that argument is always 0 here and is left out. The symbol repository is a
    `HashMap<Symbol, Span>` (tilc_session/src/parse.rs); its `insert` method is
    not part of this model and is taken to be the map's `insert`, so a repeated
    identifier leaves the span of its latest occurrence. */
module TokenReader {
  import opened Outcomes
  import opened Spans
  import Lexer
  import Interner
  import opened Tokens

  /** Which `src_pos` (and which `intern`) the identifier path uses. */
  datatype Variant = AsWritten | Intended

  /** The reader's state. `rest` is the scanner's remaining input. */
  datatype Reader = Reader(
    src: seq<char>,
    rest: seq<char>,
    startPos: BytePos,
    pos: BytePos,
    interner: Interner.Interner,
    repo: map<Interner.Symbol, Span>)

  /** `rest` is the unread tail of `src`, and `pos` is `start_post` plus the number
      of characters already read. Only the part already read has to lie within
      the `u32` range of positions: reading past `u32::MAX` panics. */
  predicate Consistent(r: Reader) {
    && Lexer.ValidSource(r.src)
    && |r.rest| <= |r.src|
    && r.rest == r.src[|r.src| - |r.rest|..]
    && r.pos.offset as int == r.startPos.offset as int + |r.src| - |r.rest|
  }

  /** A reader at the beginning of `src`, which starts at byte `startPos`. */
  function Start(src: seq<char>, startPos: BytePos, interner: Interner.Interner): (r: Reader)
    requires Lexer.ValidSource(src)
    ensures Consistent(r) && r.rest == src && r.pos == startPos
  {
    Reader(src, src, startPos, startPos, interner, map[])
  }

  /** The primitive punctuation kind an AST kind comes from, if any: the
      reference inverse of `MapPunctuation`. */
  function UnmapPunctuation(k: TokenKind): Option<Lexer.TokenKind> {
    match k
    case Semicolon => Some(Lexer.Semicolon)
    case Colon => Some(Lexer.Colon)
    case Comma => Some(Lexer.Comma)
    case Dot => Some(Lexer.Dot)
    case OpenDelim(Paren) => Some(Lexer.OpenParen)
    case CloseDelim(Paren) => Some(Lexer.CloseParen)
    case OpenDelim(Brace) => Some(Lexer.OpenBrace)
    case CloseDelim(Brace) => Some(Lexer.CloseBrace)
    case OpenDelim(Bracket) => Some(Lexer.OpenBracket)
    case CloseDelim(Bracket) => Some(Lexer.CloseBracket)
    case At => Some(Lexer.At)
    case Hashtag => Some(Lexer.Hashtag)
    case Tilde => Some(Lexer.Tilde)
    case Question => Some(Lexer.Question)
    case Dollar => Some(Lexer.Dollar)
    case Eq => Some(Lexer.Eq)
    case Not => Some(Lexer.Bang)
    case Lt => Some(Lexer.Lt)
    case Gt => Some(Lexer.Gt)
    case Minus => Some(Lexer.Minus)
    case Plus => Some(Lexer.Plus)
    case And => Some(Lexer.And)
    case Or => Some(Lexer.Or)
    case Star => Some(Lexer.Star)
    case Slash => Some(Lexer.Slash)
    case Caret => Some(Lexer.Caret)
    case Percent => Some(Lexer.Percent)
    case _ => None
  }

  /** The fixed primitive-to-AST mapping of the punctuation kinds: delimiters
      become `OpenDelim`/`CloseDelim`, `Bang` becomes `Not`, and the rest keep
      their names. Other kinds are not punctuation. */
  function MapPunctuation(k: Lexer.TokenKind): Option<TokenKind> {
    match k
    case Semicolon => Some(Semicolon)
    case Colon => Some(Colon)
    case Comma => Some(Comma)
    case Dot => Some(Dot)
    case OpenParen => Some(OpenDelim(Paren))
    case CloseParen => Some(CloseDelim(Paren))
    case OpenBrace => Some(OpenDelim(Brace))
    case CloseBrace => Some(CloseDelim(Brace))
    case OpenBracket => Some(OpenDelim(Bracket))
    case CloseBracket => Some(CloseDelim(Bracket))
    case At => Some(At)
    case Hashtag => Some(Hashtag)
    case Tilde => Some(Tilde)
    case Question => Some(Question)
    case Dollar => Some(Dollar)
    case Eq => Some(Eq)
    case Bang => Some(Not)
    case Lt => Some(Lt)
    case Gt => Some(Gt)
    case Minus => Some(Minus)
    case Plus => Some(Plus)
    case And => Some(And)
    case Or => Some(Or)
    case Star => Some(Star)
    case Slash => Some(Slash)
    case Caret => Some(Caret)
    case Percent => Some(Percent)
    case _ => None
  }

  /** Unmapping recovers the primitive kind; shown for each of three groups of
      punctuation kinds. */
  lemma UnmapPunctuationInverts(a: Lexer.TokenKind)
    requires MapPunctuation(a).Some?
    ensures UnmapPunctuation(MapPunctuation(a).value) == Some(a)
  {
    if a.Semicolon? || a.Colon? || a.Comma? || a.Dot? || a.At? || a.Hashtag? || a.Tilde? || a.Question? || a.Dollar? {
      UnmapSeparatorInverts(a);
    } else if a.OpenParen? || a.CloseParen? || a.OpenBrace? || a.CloseBrace? || a.OpenBracket? || a.CloseBracket? {
      UnmapDelimiterInverts(a);
    } else if a.Eq? || a.Bang? || a.Lt? || a.Gt? || a.Minus? || a.Plus? {
      UnmapOperatorInverts(a);
    } else {
      UnmapOperatorTailInverts(a);
    }
  }

  lemma UnmapSeparatorInverts(a: Lexer.TokenKind)
    requires a.Semicolon? || a.Colon? || a.Comma? || a.Dot? || a.At? || a.Hashtag? || a.Tilde? || a.Question? || a.Dollar?
    ensures MapPunctuation(a).Some? && UnmapPunctuation(MapPunctuation(a).value) == Some(a)
  {
  }

  lemma UnmapDelimiterInverts(a: Lexer.TokenKind)
    requires a.OpenParen? || a.CloseParen? || a.OpenBrace? || a.CloseBrace? || a.OpenBracket? || a.CloseBracket?
    ensures MapPunctuation(a).Some? && UnmapPunctuation(MapPunctuation(a).value) == Some(a)
  {
  }

  lemma UnmapOperatorInverts(a: Lexer.TokenKind)
    requires a.Eq? || a.Bang? || a.Lt? || a.Gt? || a.Minus? || a.Plus?
    ensures MapPunctuation(a).Some? && UnmapPunctuation(MapPunctuation(a).value) == Some(a)
  {
  }

  lemma UnmapOperatorTailInverts(a: Lexer.TokenKind)
    requires a.And? || a.Or? || a.Star? || a.Slash? || a.Caret? || a.Percent?
    ensures MapPunctuation(a).Some? && UnmapPunctuation(MapPunctuation(a).value) == Some(a)
  {
  }

  /** A kind that unmaps is plain punctuation: never an identifier, a literal,
      `Eof`, `Unknown` or a `Delim::Empty` delimiter. */
  lemma UnmappedIsPlain(k: TokenKind)
    requires UnmapPunctuation(k).Some?
    ensures !k.Identifier? && !k.Literal? && !k.Eof? && !k.Unknown?
    ensures IsDelimiter(k) ==> k.delim != Empty
  {
  }

  /** A mapped kind is plain punctuation: never an identifier, a literal, `Eof`,
      `Unknown` or a `Delim::Empty` delimiter. */
  lemma MapPunctuationIsPlain(a: Lexer.TokenKind)
    requires MapPunctuation(a).Some?
    ensures var k := MapPunctuation(a).value;
            !k.Identifier? && !k.Literal? && !k.Eof? && !k.Unknown?
            && (IsDelimiter(k) ==> k.delim != Empty)
  {
    UnmapPunctuationInverts(a);
    UnmappedIsPlain(MapPunctuation(a).value);
  }

  /** The punctuation mapping is one-to-one. */
  lemma MapPunctuationInjective(a: Lexer.TokenKind, b: Lexer.TokenKind)
    requires MapPunctuation(a).Some? && MapPunctuation(a) == MapPunctuation(b)
    ensures a == b
  {
    UnmapPunctuationInverts(a);
    UnmapPunctuationInverts(b);
  }

  /** `src_pos` as written: `start_post - pos`. */
  function SrcPosAsWritten(r: Reader, p: BytePos): (res: Res<BytePos>)
    ensures res.Ok? <==> p.offset <= r.startPos.offset
    ensures res.Ok? ==> p.offset as int + res.value.offset as int == r.startPos.offset as int
    ensures res.Fail? ==> res.fault == Panic
  {
    Sub(r.startPos, p)
  }

  /** `src_pos` as evidently intended: the offset of `p` from the file start. */
  function SrcPos(r: Reader, p: BytePos): (res: Res<BytePos>)
    ensures res.Ok? <==> r.startPos.offset <= p.offset
    ensures res.Ok? ==> r.startPos.offset as int + res.value.offset as int == p.offset as int
    ensures res.Fail? ==> res.fault == Panic
  {
    Sub(p, r.startPos)
  }

  /** `str_from_to`: slice the source between two converted positions. Slicing
      with reversed or out-of-range bounds panics. */
  function StrFromTo(r: Reader, start: BytePos, end: BytePos, v: Variant): (res: Res<seq<char>>)
    ensures v == Intended && Consistent(r) && r.startPos.offset <= start.offset <= end.offset <= r.pos.offset ==>
      res == Ok(r.src[start.offset - r.startPos.offset..end.offset - r.startPos.offset])
  {
    var a :- if v == AsWritten then SrcPosAsWritten(r, start) else SrcPos(r, start);
    var b :- if v == AsWritten then SrcPosAsWritten(r, end) else SrcPos(r, end);
    if a.offset <= b.offset && b.offset as int <= |r.src| then Ok(r.src[a.offset..b.offset]) else Fail(Panic)
  }

  /** Recording a symbol overwrites any span recorded for it before, as
      `HashMap::insert` does; every other entry is kept. */
  function RecordSymbol(repo: map<Interner.Symbol, Span>, sym: Interner.Symbol, span: Span): (r: map<Interner.Symbol, Span>)
    ensures sym in r && r[sym] == span
    ensures forall s :: s in repo && s != sym ==> s in r && r[s] == repo[s]
    ensures r.Keys == repo.Keys + {sym}
  {
    repo[sym := span]
  }

  /** `identifier`: intern the text `[start, pos)` and record its span. */
  function ReadIdentifier(r: Reader, start: BytePos, v: Variant): (res: Res<(Reader, TokenKind)>)
    ensures res.Ok? ==> res.value.0.rest == r.rest && res.value.0.pos == r.pos
    ensures res.Ok? ==> res.value.0.src == r.src && res.value.0.startPos == r.startPos
    ensures res.Ok? ==> res.value.1.Identifier? && !res.value.1.isRaw
  {
    var text :- StrFromTo(r, start, r.pos, v);
    var interned :- if v == AsWritten then Interner.InternAsWritten(r.interner, text)
                    else Ok(Interner.Intern(r.interner, text));
    var span :- NewSpan(start.offset, r.pos.offset);
    Ok((r.(interner := interned.0, repo := RecordSymbol(r.repo, interned.1, span)),
        Identifier(interned.1, false)))
  }

  /** The AST kind of a primitive that is not whitespace. Comments, raw and
      invalid identifiers, lifetimes, literals and unknown characters all reach
      `todo!()`; a literal first computes its suffix position, whose addition can
      overflow. */
  function Classify(r: Reader, start: BytePos, k: Lexer.TokenKind, v: Variant): (res: Res<(Reader, TokenKind)>)
    requires !k.Whitespace?
    ensures res.Ok? ==> res.value.0.rest == r.rest && res.value.0.pos == r.pos
    ensures res.Ok? ==> res.value.0.src == r.src && res.value.0.startPos == r.startPos
    ensures res.Ok? <==> k.Eof? || MapPunctuation(k).Some? || (k.Identifier? && ReadIdentifier(r, start, v).Ok?)
    ensures res.Ok? && k.Eof? ==> res.value == (r, Eof)
    ensures res.Ok? && MapPunctuation(k).Some? ==> res.value == (r, MapPunctuation(k).value)
    ensures res.Fail? && !k.Identifier? && !k.Literal? ==> res.fault == Todo
  {
    match k
    case Identifier => ReadIdentifier(r, start, v)
    case Eof => Ok((r, Eof))
    case Literal(_, suffixPos) =>
      var _ :- Add(start, BytePos(suffixPos));
      Fail(Todo)
    case _ =>
      match MapPunctuation(k)
      case Some(kind) => Ok((r, kind))
      case None => Fail(Todo)
  }

  /** Reading `n` more characters keeps the reader consistent. */
  lemma ConsistentAdvance(r: Reader, n: nat, pos: BytePos)
    requires Consistent(r) && n <= |r.rest|
    requires pos.offset as int == r.pos.offset as int + n
    ensures Consistent(r.(rest := r.rest[n..], pos := pos))
  {
    assert r.rest[n..] == r.src[|r.src| - |r.rest| + n..];
  }

  /** One scanner call: the primitive, the position where it starts, and the
      reader advanced past it. Advancing the position past `u32::MAX` panics. */
  function Scan(r: Reader): (res: Res<(Lexer.Token, BytePos, Reader)>)
    requires Consistent(r)
    ensures res.Ok? ==> Consistent(res.value.2)
    ensures res.Ok? ==> res.value.1 == r.pos && res.value.0.len <= |r.rest|
    ensures res.Ok? ==> res.value.2 == r.(rest := r.rest[res.value.0.len..], pos := res.value.2.pos)
    ensures res.Ok? ==> res.value.2.pos.offset as int == r.pos.offset as int + res.value.0.len
    ensures res.Ok? <==> Lexer.CharToToken(r.rest).Ok? && r.pos.offset as int + Lexer.CharToToken(r.rest).value.0.len <= U32_MAX
    ensures res.Fail? && Lexer.CharToToken(r.rest).Ok? ==> res.fault == Panic
    ensures res.Ok? ==> Lexer.CharToToken(r.rest) == Ok((res.value.0, res.value.2.rest))
  {
    var scanned :- Lexer.CharToToken(r.rest);
    if scanned.0.len > U32_MAX then Fail(Panic)
    else
      var pos :- Add(r.pos, BytePos(TruncU32(scanned.0.len)));
      ConsistentAdvance(r, scanned.0.len, pos);
      Ok((scanned.0, r.pos, r.(rest := scanned.1, pos := pos)))
  }

  /** The loop of `next_token`, with `ws` recording whether whitespace was
      skipped so far in this call. */
  function NextTokenFrom(r: Reader, ws: bool, v: Variant): (res: Res<(Reader, Token, bool)>)
    requires Consistent(r)
    decreases |r.rest|
    ensures res.Ok? ==> Consistent(res.value.0)
    ensures res.Ok? ==> res.value.0.src == r.src && res.value.0.startPos == r.startPos
  {
    var scanned :- Scan(r);
    var tok := scanned.0;
    var r1 := scanned.2;
    if tok.kind.Whitespace? then
      NextTokenFrom(r1, true, v)
    else
      var classified :- Classify(r1, scanned.1, tok.kind, v);
      var span :- NewSpan(scanned.1.offset, r1.pos.offset);
      Ok((classified.0, Token(classified.1, span), ws))
  }

  /** A whitespace primitive swallows the whole run, so the next primitive is
      never whitespace. */
  lemma WhitespaceRunIsMaximal(s: seq<char>)
    requires Lexer.ValidSource(s)
    requires Lexer.CharToToken(s).Ok? && Lexer.CharToToken(s).value.0.kind.Whitespace?
    ensures |s| > 0 && Lexer.IsWhitespace(s[0])
    ensures forall i :: 0 <= i < Lexer.CharToToken(s).value.0.len ==> Lexer.IsWhitespace(s[i])
    ensures var rest := Lexer.CharToToken(s).value.1;
            |rest| > 0 ==> !Lexer.IsWhitespace(rest[0])
  {
    assert |s| > 0;
    if !Lexer.IsWhitespace(s[0]) {
      NonWhitespaceStartIsNotWhitespace(s);
    }
  }

  lemma NonWhitespaceStartIsNotWhitespace(s: seq<char>)
    requires Lexer.ValidSource(s) && |s| > 0 && !Lexer.IsWhitespace(s[0])
    requires Lexer.CharToToken(s).Ok?
    ensures !Lexer.CharToToken(s).value.0.kind.Whitespace?
  {
  }

  /** `next_token`: the next AST token, its span, and whether whitespace came
      before it. */
  function NextToken(r: Reader, v: Variant): (res: Res<(Reader, Token, bool)>)
    requires Consistent(r)
    ensures res.Ok? ==> Consistent(res.value.0)
  {
    NextTokenFrom(r, false, v)
  }

  /** `next_token` past a whitespace primitive is `next_token` on the rest, with
      the flag set. */
  lemma {:induction false} NextTokenSkipsWhitespace(r: Reader, ws: bool, v: Variant)
    requires Consistent(r) && Scan(r).Ok? && Scan(r).value.0.kind.Whitespace?
    ensures NextTokenFrom(r, ws, v) == NextTokenFrom(Scan(r).value.2, true, v)
  {
  }

  /** `next_token` on a primitive that is not whitespace returns it with the span
      `[start, pos)` and the flag unchanged; `Eof` maps to `Eof`. */
  lemma {:induction false} NextTokenReturns(r: Reader, ws: bool, v: Variant)
    requires Consistent(r) && Scan(r).Ok? && !Scan(r).value.0.kind.Whitespace?
    requires NextTokenFrom(r, ws, v).Ok?
    ensures var (r2, tok, flag) := NextTokenFrom(r, ws, v).value;
            var r1 := Scan(r).value.2;
            && tok.span == Span(r.pos.offset, r1.pos.offset)
            && r2.pos == r1.pos && r2.rest == r1.rest
            && flag == ws
            && (tok.kind.Eof? <==> Scan(r).value.0.kind.Eof?)
  {
    var k := Scan(r).value.0.kind;
    assert Classify(Scan(r).value.2, r.pos, k, v).Ok?;
    NextTokenOnClassified(r, ws, v);
    if MapPunctuation(k).Some? {
      MapPunctuationIsPlain(k);
    }
  }

  /** `next_token` on a primitive that is not whitespace and that `Classify`
      accepts: the classified kind with the span `[start, pos)`. */
  lemma {:induction false} NextTokenOnClassified(r: Reader, ws: bool, v: Variant)
    requires Consistent(r) && Scan(r).Ok? && !Scan(r).value.0.kind.Whitespace?
    requires Classify(Scan(r).value.2, r.pos, Scan(r).value.0.kind, v).Ok?
    ensures var r1 := Scan(r).value.2;
            var c := Classify(r1, r.pos, Scan(r).value.0.kind, v).value;
            NextTokenFrom(r, ws, v) == Ok((c.0, Token(c.1, Span(r.pos.offset, r1.pos.offset)), ws))
  {
  }

  /** The scanner reads a punctuation character as a one-character primitive,
      unless the position is already `u32::MAX`. */
  lemma ScanPunctuation(r: Reader)
    requires Consistent(r) && |r.rest| > 0 && Lexer.IsPunctuationStart(r.rest[0])
    ensures r.pos.offset as int == U32_MAX ==> Scan(r) == Fail(Panic)
    ensures r.pos.offset as int < U32_MAX ==>
      Scan(r) == Ok((Lexer.Token(Lexer.PunctuationKind(r.rest[0]), 1), r.pos,
                     r.(rest := r.rest[1..], pos := BytePos(r.pos.offset + 1))))
  {
    Lexer.PunctuationScansOneChar(r.rest);
    ScanOneChar(r, Lexer.Token(Lexer.PunctuationKind(r.rest[0]), 1));
  }

  /** A scanner call that consumes exactly one character advances the reader by
      one byte, and panics when the position is already `u32::MAX`. */
  lemma ScanOneChar(r: Reader, tok: Lexer.Token)
    requires Consistent(r) && |r.rest| > 0 && tok.len == 1
    requires Lexer.CharToToken(r.rest) == Ok((tok, r.rest[1..]))
    ensures r.pos.offset as int == U32_MAX ==> Scan(r) == Fail(Panic)
    ensures r.pos.offset as int < U32_MAX ==>
      Scan(r) == Ok((tok, r.pos, r.(rest := r.rest[1..], pos := BytePos(r.pos.offset + 1))))
  {
    if r.pos.offset as int < U32_MAX {
      var res := Scan(r).value;
      assert res.0 == tok && res.2.rest == r.rest[1..];
      assert res.2.pos == BytePos(r.pos.offset + 1);
    }
  }

  /** The scanner reads a lone whitespace character as a one-character
      primitive. */
  lemma ScanSingleSpace(r: Reader)
    requires Consistent(r) && |r.rest| > 1 && Lexer.IsWhitespace(r.rest[0]) && !Lexer.IsWhitespace(r.rest[1])
    ensures r.pos.offset as int == U32_MAX ==> Scan(r) == Fail(Panic)
    ensures r.pos.offset as int < U32_MAX ==>
      Scan(r) == Ok((Lexer.Token(Lexer.Whitespace, 1), r.pos,
                     r.(rest := r.rest[1..], pos := BytePos(r.pos.offset + 1))))
  {
    assert Lexer.RunLen(r.rest[1..], Lexer.IsWhitespace) == 0;
    Lexer.WhitespaceScansWholeRun(r.rest);
    ScanOneChar(r, Lexer.Token(Lexer.Whitespace, 1));
  }

  /** What one `next_token` call does to positions: the token's span lies after
      everything already read, only whitespace lies between, the flag records
      exactly whether that whitespace was there, and `Eof` is the only token with
      an empty span. */
  lemma {:induction false} NextTokenFromSpans(r: Reader, ws: bool, v: Variant)
    requires Consistent(r) && NextTokenFrom(r, ws, v).Ok?
    decreases |r.rest|
    ensures var (r2, tok, flag) := NextTokenFrom(r, ws, v).value;
            && r.pos.offset <= tok.span.start <= tok.span.end == r2.pos.offset
            && (flag <==> ws || r.pos.offset < tok.span.start)
            && (forall i :: 0 <= i < tok.span.start as int - r.pos.offset as int ==> Lexer.IsWhitespace(r.rest[i]))
            && (|r.rest| > 0 && Lexer.IsWhitespace(r.rest[0]) ==> r.pos.offset < tok.span.start)
            && (tok.kind.Eof? <==> tok.span.start == tok.span.end)
            && (tok.kind.Eof? ==> |r2.rest| == 0)
  {
    var scanned := Scan(r).value;
    var tok := scanned.0;
    var r1 := scanned.2;
    if tok.kind.Whitespace? {
      NextTokenSkipsWhitespace(r, ws, v);
      WhitespaceRunIsMaximal(r.rest);
      NextTokenFromSpans(r1, true, v);
      var start := NextTokenFrom(r1, true, v).value.1.span.start;
      assert r1.rest == r.rest[tok.len..];
      WhitespaceRunsJoin(r.rest, tok.len, start as int - r.pos.offset as int);
    } else {
      ReturnedTokenSpans(r, ws, v);
    }
  }

  /** The same facts when the first primitive is already the returned token:
      nothing is skipped and the flag is the one passed in. */
  lemma ReturnedTokenSpans(r: Reader, ws: bool, v: Variant)
    requires Consistent(r) && NextTokenFrom(r, ws, v).Ok? && Scan(r).Ok? && !Scan(r).value.0.kind.Whitespace?
    ensures var (r2, tok, flag) := NextTokenFrom(r, ws, v).value;
            && r.pos.offset == tok.span.start <= tok.span.end == r2.pos.offset
            && flag == ws
            && (|r.rest| > 0 ==> !Lexer.IsWhitespace(r.rest[0]))
            && (tok.kind.Eof? <==> tok.span.start == tok.span.end)
            && (tok.kind.Eof? ==> |r2.rest| == 0)
  {
    NextTokenReturns(r, ws, v);
    if |r.rest| > 0 && Lexer.IsWhitespace(r.rest[0]) {
      WhitespaceStartIsWhitespace(r.rest);
    }
  }

  /** A whitespace run followed by another is one run. */
  lemma WhitespaceRunsJoin(s: seq<char>, k: nat, n: int)
    requires k <= n <= |s|
    requires forall i :: 0 <= i < k ==> Lexer.IsWhitespace(s[i])
    requires forall i :: 0 <= i < n - k ==> Lexer.IsWhitespace(s[k..][i])
    ensures forall i :: 0 <= i < n ==> Lexer.IsWhitespace(s[i])
  {
    forall i | k <= i < n
      ensures Lexer.IsWhitespace(s[i])
    {
      assert s[i] == s[k..][i - k];
    }
  }

  lemma WhitespaceStartIsWhitespace(s: seq<char>)
    requires Lexer.ValidSource(s) && |s| > 0 && Lexer.IsWhitespace(s[0])
    ensures Lexer.CharToToken(s).Ok? && Lexer.CharToToken(s).value.0.kind.Whitespace?
  {
  }

  /** The flag `next_token` returns is true exactly when the input at the
      current position starts with whitespace. */
  lemma NextTokenFlag(r: Reader, v: Variant)
    requires Consistent(r) && NextToken(r, v).Ok?
    ensures NextToken(r, v).value.2 <==> |r.rest| > 0 && Lexer.IsWhitespace(r.rest[0])
  {
    NextTokenFromSpans(r, false, v);
  }

  /** As written, slicing any non-empty range panics: `src_pos` maps a later
      position to a smaller index, so either a subtraction underflows or the
      slice bounds are reversed. */
  lemma StrFromToAsWrittenPanics(r: Reader, start: BytePos, end: BytePos)
    requires start.offset < end.offset
    ensures StrFromTo(r, start, end, AsWritten) == Fail(Panic)
  {
  }

  /** Consequently, as written, every identifier token panics. */
  lemma IdentifierAsWrittenPanics(r: Reader, start: BytePos)
    requires start.offset < r.pos.offset
    ensures ReadIdentifier(r, start, AsWritten) == Fail(Panic)
  {
    StrFromToAsWrittenPanics(r, start, r.pos);
  }

  /** With the intended `src_pos`, an identifier interns exactly the source text
      of its span, and the repository maps the symbol to that span. */
  lemma IdentifierInternsItsText(r: Reader, start: BytePos)
    requires Consistent(r) && r.startPos.offset <= start.offset < r.pos.offset
    requires |r.interner.strings| <= U32_MAX
    ensures ReadIdentifier(r, start, Intended).Ok?
    ensures var (r2, kind) := ReadIdentifier(r, start, Intended).value;
            var text := r.src[start.offset - r.startPos.offset..r.pos.offset - r.startPos.offset];
            && Interner.Get(r2.interner, kind.symbol) == Ok(text)
            && r2.repo == RecordSymbol(r.repo, kind.symbol, Span(start.offset, r.pos.offset))
            && r2.interner == Interner.Intern(r.interner, text).0
  {
  }

  /** A punctuation character is read as its mapped token, spanning one byte;
      at position `u32::MAX` advancing past it panics. */
  lemma {:induction false} NextTokenPunctuation(r: Reader, ws: bool, v: Variant)
    requires Consistent(r) && |r.rest| > 0 && Lexer.IsPunctuationStart(r.rest[0])
    requires MapPunctuation(Lexer.PunctuationKind(r.rest[0])).Some?
    ensures r.pos.offset as int == U32_MAX ==> NextTokenFrom(r, ws, v) == Fail(Panic)
    ensures r.pos.offset as int < U32_MAX ==>
      NextTokenFrom(r, ws, v)
         == Ok((r.(rest := r.rest[1..], pos := BytePos(r.pos.offset + 1)),
                Token(MapPunctuation(Lexer.PunctuationKind(r.rest[0])).value, Span(r.pos.offset, r.pos.offset + 1)),
                ws))
  {
    ScanPunctuation(r);
    if r.pos.offset as int < U32_MAX {
      NextTokenOnClassified(r, ws, v);
    }
  }

  /** A lone whitespace character is skipped and sets the flag; at position
      `u32::MAX` advancing past it panics. */
  lemma NextTokenSingleSpace(r: Reader, ws: bool, v: Variant)
    requires Consistent(r) && |r.rest| > 1 && Lexer.IsWhitespace(r.rest[0]) && !Lexer.IsWhitespace(r.rest[1])
    ensures r.pos.offset as int == U32_MAX ==> NextTokenFrom(r, ws, v) == Fail(Panic)
    ensures r.pos.offset as int < U32_MAX ==>
      && Scan(r).Ok? && Scan(r).value.2 == r.(rest := r.rest[1..], pos := BytePos(r.pos.offset + 1))
      && NextTokenFrom(r, ws, v) == NextTokenFrom(r.(rest := r.rest[1..], pos := BytePos(r.pos.offset + 1)), true, v)
  {
    ScanSingleSpace(r);
    if r.pos.offset as int < U32_MAX {
      NextTokenSkipsWhitespace(r, ws, v);
    }
  }

  /** As written, reading an identifier panics. */
  lemma {:induction false} NextTokenIdentifierAsWritten(r: Reader, ws: bool)
    requires Consistent(r) && |r.rest| > 0 && Lexer.IsIdentifierStart(r.rest[0]) && !Lexer.IsRawPrefix(r.rest)
    ensures NextTokenFrom(r, ws, AsWritten) == Fail(Panic)
  {
    ScanIdentifier(r);
    if Scan(r).Ok? {
      var r1 := Scan(r).value.2;
      IdentifierAsWrittenPanics(r1, r.pos);
      assert Classify(r1, r.pos, Lexer.Identifier, AsWritten) == Fail(Panic);
    }
  }

  /** `next_token` on an identifier primitive returns what `identifier` built. */
  lemma {:induction false} NextTokenOnIdentifier(r: Reader, ws: bool, v: Variant)
    requires Consistent(r) && Scan(r).Ok? && Scan(r).value.0.kind.Identifier?
    requires ReadIdentifier(Scan(r).value.2, r.pos, v).Ok?
    ensures var r1 := Scan(r).value.2;
            var built := ReadIdentifier(r1, r.pos, v).value;
            NextTokenFrom(r, ws, v) == Ok((built.0, Token(built.1, Span(r.pos.offset, r1.pos.offset)), ws))
  {
    var r1 := Scan(r).value.2;
    assert Classify(r1, r.pos, Lexer.Identifier, v) == ReadIdentifier(r1, r.pos, v);
    NextTokenOnClassified(r, ws, v);
  }

  /** With the intended `src_pos`, an identifier token spans the maximal run of
      identifier characters and is recorded in the symbol repository; a run
      that would carry the position past `u32::MAX` panics. */
  lemma {:induction false} NextTokenIdentifierIntended(r: Reader, ws: bool)
    requires Consistent(r) && |r.rest| > 0 && Lexer.IsIdentifierStart(r.rest[0]) && !Lexer.IsRawPrefix(r.rest)
    requires |r.interner.strings| <= U32_MAX
    ensures NextTokenFrom(r, ws, Intended).Ok?
        <==> r.pos.offset as int + 1 + Lexer.RunLen(r.rest[1..], Lexer.IsIdentifier) <= U32_MAX
    ensures NextTokenFrom(r, ws, Intended).Fail? ==> NextTokenFrom(r, ws, Intended).fault == Panic
    ensures NextTokenFrom(r, ws, Intended).Ok? ==>
            var res := NextTokenFrom(r, ws, Intended).value;
            var n := 1 + Lexer.RunLen(r.rest[1..], Lexer.IsIdentifier);
            && res.1.kind.Identifier? && !res.1.kind.isRaw && res.2 == ws
            && res.1.span == Span(r.pos.offset, r.pos.offset + n as u32)
            && res.1.kind.symbol in res.0.repo
  {
    ScanIdentifier(r);
    if Scan(r).Ok? {
      IdentifierInternsItsText(Scan(r).value.2, r.pos);
      NextTokenOnIdentifier(r, ws, Intended);
    }
  }

  /** ... and its symbol names exactly the identifier's text. */
  lemma {:induction false} NextTokenIdentifierText(r: Reader, ws: bool)
    requires Consistent(r) && |r.rest| > 0 && Lexer.IsIdentifierStart(r.rest[0]) && !Lexer.IsRawPrefix(r.rest)
    requires |r.interner.strings| <= U32_MAX
    ensures NextTokenFrom(r, ws, Intended).Ok?
        <==> r.pos.offset as int + 1 + Lexer.RunLen(r.rest[1..], Lexer.IsIdentifier) <= U32_MAX
    ensures NextTokenFrom(r, ws, Intended).Ok? ==>
            var res := NextTokenFrom(r, ws, Intended).value;
            && res.1.kind.Identifier?
            && Interner.Get(res.0.interner, res.1.kind.symbol) == Ok(r.rest[..1 + Lexer.RunLen(r.rest[1..], Lexer.IsIdentifier)])
  {
    var n := 1 + Lexer.RunLen(r.rest[1..], Lexer.IsIdentifier);
    ScanIdentifier(r);
    if Scan(r).Ok? {
      ScannedIdentifierText(r, ws, n);
    } else {
      NextTokenFailsWithScan(r, ws, Intended);
    }
  }

  /** A scanner call that fails makes the whole `next_token` call fail the same way. */
  lemma NextTokenFailsWithScan(r: Reader, ws: bool, v: Variant)
    requires Consistent(r) && Scan(r).Fail?
    ensures NextTokenFrom(r, ws, v) == Fail(Scan(r).fault)
  {
  }

  /** Whatever identifier primitive the scanner reads, its symbol names the
      characters it covered. */
  lemma ScannedIdentifierText(r: Reader, ws: bool, n: nat)
    requires Consistent(r) && Scan(r).Ok? && Scan(r).value.0.kind.Identifier?
    requires Scan(r).value.2.pos.offset as int == r.pos.offset as int + n && n > 0
    requires |r.interner.strings| <= U32_MAX
    ensures n <= |r.rest| && NextTokenFrom(r, ws, Intended).Ok?
    ensures var res := NextTokenFrom(r, ws, Intended).value;
            && res.1.kind.Identifier?
            && Interner.Get(res.0.interner, res.1.kind.symbol) == Ok(r.rest[..n])
  {
    var r1 := Scan(r).value.2;
    ReadPrefixIsSourceSlice(r, n);
    IdentifierInternsItsText(r1, r.pos);
    var text := r1.src[r.pos.offset - r1.startPos.offset..r1.pos.offset - r1.startPos.offset];
    assert text == r.rest[..n];
    NextTokenOnIdentifier(r, ws, Intended);
  }

  /** The scanner reads an identifier primitive over the maximal identifier run,
      and panics when that run would carry the position past `u32::MAX`. */
  lemma ScanIdentifier(r: Reader)
    requires Consistent(r) && |r.rest| > 0 && Lexer.IsIdentifierStart(r.rest[0]) && !Lexer.IsRawPrefix(r.rest)
    ensures Scan(r).Ok? <==> r.pos.offset as int + 1 + Lexer.RunLen(r.rest[1..], Lexer.IsIdentifier) <= U32_MAX
    ensures Scan(r).Fail? ==> Scan(r).fault == Panic
    ensures Scan(r).Ok? ==> Scan(r).value.0.kind.Identifier?
    ensures Scan(r).Ok? ==> Scan(r).value.2.pos.offset as int == r.pos.offset as int + 1 + Lexer.RunLen(r.rest[1..], Lexer.IsIdentifier)
  {
    Lexer.IdentifierScansWholeRun(r.rest);
  }

  /** The next `n` unread characters are the source between `pos` and `pos + n`. */
  lemma ReadPrefixIsSourceSlice(r: Reader, n: nat)
    requires Consistent(r) && n <= |r.rest|
    ensures var a := r.pos.offset as int - r.startPos.offset as int;
            0 <= a && a + n <= |r.src| && r.src[a..a + n] == r.rest[..n]
  {
  }
}

=== FILE: token_stream.dfy ===
/** Token trees and the flattening cursor (tilc_ast/src/token_stream.rs).

    A `TokenStream` is a sequence of trees: a tree is either a single token with
    the spacing that follows it, or a delimited group with the spans and
    spacings of its two delimiters. `TokenCursor::step` walks the trees with an
    explicit stack of parent cursors and hands out one token per call: a group's
    opening delimiter when it is entered, its closing delimiter when it is left,
    and `Eof` with the sentinel span once everything is consumed. Groups with
    the `Empty` delimiter are entered and left silently.

    `Flatten` is the reference reading of a stream as a flat token list; the
    cursor is proved to emit exactly `Pending`, the flat list of what is left,
    and then `Eof` forever. The `Rc` sharing of streams is not modelled: a
    stream is an immutable sequence. */
module TokenStreams {
  import opened Outcomes
  import opened Spans
  import opened Tokens

  /** The spans of a group's opening and closing delimiters. */
  datatype DelimSpan = DelimSpan(start: Span, end: Span)

  /** `from_single`: both delimiters at the same span. */
  function FromSingle(span: Span): (d: DelimSpan)
    ensures d.start == span && d.end == span
  {
    DelimSpan(span, span)
  }

  /** `from_pair`. */
  function FromPair(start: Span, end: Span): (d: DelimSpan)
    ensures d.start == start && d.end == end
  {
    DelimSpan(start, end)
  }

  /** `entire`: from the opening delimiter's start to the closing one's end. */
  function Entire(d: DelimSpan): (s: Span)
    ensures s.start == d.start.start && s.end == d.end.end
  {
    WithHi(d.start, d.end.end)
  }

  /** The spacing after each of a group's two delimiters. */
  datatype DelimSpacing = DelimSpacing(start: Spacing, end: Spacing)

  datatype TokenTree =
    | Leaf(token: Token, following: Spacing)
    | Delimited(span: DelimSpan, spacings: DelimSpacing, delim: Delim, stream: seq<TokenTree>)

  /** `TokenTree::span`: a leaf's own span, or the group's entire span. */
  function TreeSpan(t: TokenTree): (s: Span)
    ensures t.Leaf? ==> s == t.token.span
    ensures t.Delimited? ==> s.start == t.span.start.start && s.end == t.span.end.end
  {
    match t
    case Leaf(tok, _) => tok.span
    case Delimited(span, _, _, _) => Entire(span)
  }

  /** A token with the spacing that follows it: one unit of cursor output. */
  type Emitted = (Token, Spacing)

  function OpenOf(span: DelimSpan, spacing: DelimSpacing, delim: Delim): Emitted {
    (Token(OpenDelim(delim), span.start), spacing.start)
  }

  function CloseOf(span: DelimSpan, spacing: DelimSpacing, delim: Delim): Emitted {
    (Token(CloseDelim(delim), span.end), spacing.end)
  }

  /** What `step` returns once everything is consumed. */
  const EOF_OUTPUT: Emitted := (Token(Eof, EMPTY), Sticked)

  /** The reference flat reading of a tree: a leaf is its token; a group is its
      opening delimiter, its contents and its closing delimiter, the delimiters
      being dropped for `Empty`. */
  function FlattenTree(t: TokenTree): seq<Emitted>
    decreases t
  {
    match t
    case Leaf(tok, sp) => [(tok, sp)]
    case Delimited(span, spacing, delim, stream) =>
      if delim == Empty then Flatten(stream)
      else [OpenOf(span, spacing, delim)] + Flatten(stream) + [CloseOf(span, spacing, delim)]
  }

  function Flatten(ts: seq<TokenTree>): seq<Emitted>
    decreases ts
  {
    if |ts| == 0 then [] else FlattenTree(ts[0]) + Flatten(ts[1..])
  }

  /** Flattening distributes over concatenation. */
  lemma {:induction false} FlattenConcat(a: seq<TokenTree>, b: seq<TokenTree>)
    ensures Flatten(a + b) == Flatten(a) + Flatten(b)
    decreases |a|
  {
    if |a| == 0 {
      assert a + b == b;
    } else {
      assert (a + b)[1..] == a[1..] + b;
      FlattenConcat(a[1..], b);
    }
  }

  /** `TokenTreeCursor`: a stream and the index of the next tree. */
  datatype TreeCursor = TreeCursor(stream: seq<TokenTree>, idx: nat)

  /** `TokenTreeCursor::new`. */
  function NewTreeCursor(stream: seq<TokenTree>): (c: TreeCursor)
    ensures c.stream == stream && c.idx == 0
  {
    TreeCursor(stream, 0)
  }

  /** The trees not yet handed out. */
  function Rest(c: TreeCursor): seq<TokenTree> {
    if c.idx <= |c.stream| then c.stream[c.idx..] else []
  }

  /** `TokenTreeCursor::step`: the tree at `idx`, advancing past it only when
      there is one. */
  function TreeStep(c: TreeCursor): (r: (Option<TokenTree>, TreeCursor))
    ensures c.idx < |c.stream| ==> r == (Some(c.stream[c.idx]), c.(idx := c.idx + 1))
    ensures c.idx >= |c.stream| ==> r == (None, c)
    ensures r.1.stream == c.stream
  {
    if c.idx < |c.stream| then (Some(c.stream[c.idx]), c.(idx := c.idx + 1)) else (None, c)
  }

  /** `TokenTreeCursor::look`: the tree `n` places ahead, without moving. */
  function Look(c: TreeCursor, n: nat): (r: Option<TokenTree>)
    ensures r.Some? <==> c.idx + n < |c.stream|
    ensures r.Some? ==> r.value == c.stream[c.idx + n]
  {
    if c.idx + n < |c.stream| then Some(c.stream[c.idx + n]) else None
  }

  /** `look(0)` sees what the next `step` returns, and stepping moves every
      later tree one place closer. */
  lemma LookAgreesWithStep(c: TreeCursor, n: nat)
    ensures Look(c, 0) == TreeStep(c).0
    ensures c.idx < |c.stream| ==> Look(TreeStep(c).1, n) == Look(c, n + 1)
  {
  }

  /** One entry of the cursor's stack: the parent cursor (already past the
      group) and the group's spans, spacings and delimiter. */
  datatype Frame = Frame(parent: TreeCursor, span: DelimSpan, spacing: DelimSpacing, delim: Delim)

  /** `TokenCursor`: the current level and the stack of enclosing levels, the
      innermost last. */
  datatype TokenCursor = TokenCursor(cur: TreeCursor, stack: seq<Frame>)

  /** A cursor at the start of a stream, with nothing entered. */
  function NewCursor(stream: seq<TokenTree>): (c: TokenCursor)
    ensures Rest(c.cur) == stream && c.stack == []
  {
    TokenCursor(NewTreeCursor(stream), [])
  }

  /** The number of loop iterations a tree costs the cursor: one per token and
      two per group. */
  function TreeSize(t: TokenTree): (n: nat)
    decreases t
    ensures n >= 1
  {
    match t
    case Leaf(_, _) => 1
    case Delimited(_, _, _, stream) => 2 + StreamSize(stream)
  }

  function StreamSize(ts: seq<TokenTree>): nat
    decreases ts
  {
    if |ts| == 0 then 0 else TreeSize(ts[0]) + StreamSize(ts[1..])
  }

  function FramesWork(stack: seq<Frame>): nat {
    if |stack| == 0 then 0
    else FramesWork(stack[..|stack| - 1]) + 1 + StreamSize(Rest(stack[|stack| - 1].parent))
  }

  /** The work left for the cursor: every remaining tree at every level, plus one
      per open group. */
  function Work(c: TokenCursor): nat {
    StreamSize(Rest(c.cur)) + FramesWork(c.stack)
  }

  /** Everything the cursor still has to emit, innermost level first. */
  function Unwind(stack: seq<Frame>): seq<Emitted> {
    if |stack| == 0 then []
    else
      var f := stack[|stack| - 1];
      (if f.delim == Empty then [] else [CloseOf(f.span, f.spacing, f.delim)])
      + Flatten(Rest(f.parent)) + Unwind(stack[..|stack| - 1])
  }

  function Pending(c: TokenCursor): seq<Emitted> {
    Flatten(Rest(c.cur)) + Unwind(c.stack)
  }

  /** Taking the next tree off a cursor splits the remainder. */
  lemma RestStep(c: TreeCursor)
    requires c.idx < |c.stream|
    ensures Rest(c) == [c.stream[c.idx]] + Rest(c.(idx := c.idx + 1))
    ensures StreamSize(Rest(c)) == TreeSize(c.stream[c.idx]) + StreamSize(Rest(c.(idx := c.idx + 1)))
    ensures Flatten(Rest(c)) == FlattenTree(c.stream[c.idx]) + Flatten(Rest(c.(idx := c.idx + 1)))
  {
    assert Rest(c)[1..] == Rest(c.(idx := c.idx + 1));
  }

  lemma PushFrame(stack: seq<Frame>, f: Frame)
    ensures FramesWork(stack + [f]) == FramesWork(stack) + 1 + StreamSize(Rest(f.parent))
    ensures Unwind(stack + [f])
         == (if f.delim == Empty then [] else [CloseOf(f.span, f.spacing, f.delim)]) + Flatten(Rest(f.parent)) + Unwind(stack)
  {
    assert (stack + [f])[..|stack|] == stack;
  }

  /** Entering a group: the frame remembers the parent past the group, and the
      group's contents become the current level. */
  function Enter(c: TokenCursor): (c1: TokenCursor)
    requires c.cur.idx < |c.cur.stream| && c.cur.stream[c.cur.idx].Delimited?
  {
    var g := c.cur.stream[c.cur.idx];
    TokenCursor(NewTreeCursor(g.stream), c.stack + [Frame(c.cur.(idx := c.cur.idx + 1), g.span, g.spacings, g.delim)])
  }

  /** Leaving the innermost group: its parent becomes the current level. */
  function Leave(c: TokenCursor): (c1: TokenCursor)
    requires |c.stack| > 0
  {
    TokenCursor(c.stack[|c.stack| - 1].parent, c.stack[..|c.stack| - 1])
  }

  lemma EnterShrinksWork(c: TokenCursor)
    requires c.cur.idx < |c.cur.stream| && c.cur.stream[c.cur.idx].Delimited?
    ensures Work(Enter(c)) < Work(c)
  {
    var g := c.cur.stream[c.cur.idx];
    RestStep(c.cur);
    PushFrame(c.stack, Frame(c.cur.(idx := c.cur.idx + 1), g.span, g.spacings, g.delim));
    assert Rest(Enter(c).cur) == g.stream;
  }

  lemma LeaveShrinksWork(c: TokenCursor)
    requires |c.stack| > 0
    ensures Work(Leave(c)) < Work(c)
  {
  }

  /** `TokenCursor::step`: the next token and the spacing after it. */
  function Step(c: TokenCursor): (r: (Token, Spacing, TokenCursor))
    decreases Work(c)
  {
    var stepped := TreeStep(c.cur);
    match stepped.0
    case Some(Leaf(tok, sp)) => (tok, sp, c.(cur := stepped.1))
    case Some(Delimited(span, spacing, delim, _)) =>
      EnterShrinksWork(c);
      if delim != Empty then (OpenOf(span, spacing, delim).0, spacing.start, Enter(c))
      else Step(Enter(c))
    case None =>
      if |c.stack| > 0 then
        LeaveShrinksWork(c);
        var f := c.stack[|c.stack| - 1];
        if f.delim != Empty then (CloseOf(f.span, f.spacing, f.delim).0, f.spacing.end, Leave(c))
        else Step(Leave(c))
      else
        (EOF_OUTPUT.0, EOF_OUTPUT.1, c)
  }

  /** Every `step` leaves strictly less to visit, except at the very end, where
      it returns `Eof` and leaves the cursor as it was. */
  lemma {:induction false} StepProgresses(c: TokenCursor)
    decreases Work(c)
    ensures Work(Step(c).2) < Work(c) || (Step(c).2 == c && (Step(c).0, Step(c).1) == EOF_OUTPUT)
  {
    var stepped := TreeStep(c.cur);
    match stepped.0
    case Some(Leaf(_, _)) =>
    case Some(Delimited(_, _, delim, _)) =>
      EnterShrinksWork(c);
      if delim == Empty {
        StepProgresses(Enter(c));
      }
    case None =>
      if |c.stack| > 0 {
        LeaveShrinksWork(c);
        if c.stack[|c.stack| - 1].delim == Empty {
          StepProgresses(Leave(c));
        }
      }
  }

  lemma LeafPending(c: TokenCursor)
    requires c.cur.idx < |c.cur.stream| && c.cur.stream[c.cur.idx].Leaf?
    ensures var t := c.cur.stream[c.cur.idx];
            Pending(c) == [(t.token, t.following)] + Pending(c.(cur := c.cur.(idx := c.cur.idx + 1)))
  {
    var t := c.cur.stream[c.cur.idx];
    LeafFlattens(c.cur);
    Reassociate([(t.token, t.following)], Flatten(Rest(c.cur.(idx := c.cur.idx + 1))), Unwind(c.stack));
  }

  lemma LeafFlattens(c: TreeCursor)
    requires c.idx < |c.stream| && c.stream[c.idx].Leaf?
    ensures Flatten(Rest(c)) == [(c.stream[c.idx].token, c.stream[c.idx].following)] + Flatten(Rest(c.(idx := c.idx + 1)))
  {
    RestStep(c);
  }

  lemma Reassociate(a: seq<Emitted>, b: seq<Emitted>, u: seq<Emitted>)
    ensures (a + b) + u == a + (b + u)
  {
  }

  lemma EnterKeepsPending(c: TokenCursor)
    requires c.cur.idx < |c.cur.stream| && c.cur.stream[c.cur.idx].Delimited?
    ensures var g := c.cur.stream[c.cur.idx];
            Pending(c) == (if g.delim == Empty then [] else [OpenOf(g.span, g.spacings, g.delim)]) + Pending(Enter(c))
  {
    var g := c.cur.stream[c.cur.idx];
    var f := Frame(c.cur.(idx := c.cur.idx + 1), g.span, g.spacings, g.delim);
    var open := if g.delim == Empty then [] else [OpenOf(g.span, g.spacings, g.delim)];
    var close := if g.delim == Empty then [] else [CloseOf(g.span, g.spacings, g.delim)];
    var inner := Flatten(g.stream);
    var after := Flatten(Rest(f.parent));
    var outer := Unwind(c.stack);
    GroupFlattens(c.cur);
    PushFrame(c.stack, f);
    EnterPending(c);
    Regroup(open, inner, close, after, outer);
  }

  lemma GroupFlattens(c: TreeCursor)
    requires c.idx < |c.stream| && c.stream[c.idx].Delimited?
    ensures var g := c.stream[c.idx];
      Flatten(Rest(c)) ==
        (if g.delim == Empty then [] else [OpenOf(g.span, g.spacings, g.delim)])
        + Flatten(g.stream)
        + (if g.delim == Empty then [] else [CloseOf(g.span, g.spacings, g.delim)])
        + Flatten(Rest(c.(idx := c.idx + 1)))
  {
    RestStep(c);
  }

  lemma EnterPending(c: TokenCursor)
    requires c.cur.idx < |c.cur.stream| && c.cur.stream[c.cur.idx].Delimited?
    ensures Pending(Enter(c)) == Flatten(c.cur.stream[c.cur.idx].stream) + Unwind(Enter(c).stack)
  {
    assert Rest(Enter(c).cur) == c.cur.stream[c.cur.idx].stream;
  }

  lemma Regroup(a: seq<Emitted>, b: seq<Emitted>, c: seq<Emitted>, d: seq<Emitted>, e: seq<Emitted>)
    ensures a + b + c + d + e == a + (b + (c + d + e))
  {
  }

  lemma LeavePending(c: TokenCursor)
    requires c.cur.idx >= |c.cur.stream| && |c.stack| > 0
    ensures var f := c.stack[|c.stack| - 1];
            Pending(c) == (if f.delim == Empty then [] else [CloseOf(f.span, f.spacing, f.delim)]) + Pending(Leave(c))
  {
    assert Rest(c.cur) == [];
  }

  lemma EndPending(c: TokenCursor)
    requires c.cur.idx >= |c.cur.stream| && |c.stack| == 0
    ensures Pending(c) == []
  {
    assert Rest(c.cur) == [];
  }

  lemma ConsSplit(x: Emitted, p: seq<Emitted>)
    ensures |[x] + p| > 0 && ([x] + p)[0] == x && ([x] + p)[1..] == p
  {
  }

  /** One `step` hands out the first pending token and leaves the rest pending;
      with nothing pending it returns `Eof` with the sentinel span and nothing
      becomes pending. */
  ghost predicate EmitsNext(c: TokenCursor) {
    && (|Pending(c)| > 0 ==> (Step(c).0, Step(c).1) == Pending(c)[0] && Pending(Step(c).2) == Pending(c)[1..])
    && (|Pending(c)| == 0 ==> (Step(c).0, Step(c).1) == EOF_OUTPUT && Pending(Step(c).2) == [])
  }

  lemma LeafEmitsNext(c: TokenCursor)
    requires c.cur.idx < |c.cur.stream| && c.cur.stream[c.cur.idx].Leaf?
    ensures EmitsNext(c)
  {
    var t := c.cur.stream[c.cur.idx];
    LeafPending(c);
    var c1 := c.(cur := c.cur.(idx := c.cur.idx + 1));
    assert Step(c) == (t.token, t.following, c1);
    ConsSplit((t.token, t.following), Pending(c1));
  }

  lemma GroupEmitsNext(c: TokenCursor)
    requires c.cur.idx < |c.cur.stream| && c.cur.stream[c.cur.idx].Delimited?
    requires c.cur.stream[c.cur.idx].delim == Empty ==> EmitsNext(Enter(c))
    ensures EmitsNext(c)
  {
    if c.cur.stream[c.cur.idx].delim == Empty {
      SilentGroupEmitsNext(c);
    } else {
      OpenGroupEmitsNext(c);
    }
  }

  lemma SilentGroupEmitsNext(c: TokenCursor)
    requires c.cur.idx < |c.cur.stream| && c.cur.stream[c.cur.idx].Delimited?
    requires c.cur.stream[c.cur.idx].delim == Empty && EmitsNext(Enter(c))
    ensures EmitsNext(c)
  {
    EnterKeepsPending(c);
    assert Pending(c) == Pending(Enter(c));
    StepOnGroup(c);
  }

  lemma OpenGroupEmitsNext(c: TokenCursor)
    requires c.cur.idx < |c.cur.stream| && c.cur.stream[c.cur.idx].Delimited?
    requires c.cur.stream[c.cur.idx].delim != Empty
    ensures EmitsNext(c)
  {
    var t := c.cur.stream[c.cur.idx];
    EnterKeepsPending(c);
    StepOnGroup(c);
    ConsSplit(OpenOf(t.span, t.spacings, t.delim), Pending(Enter(c)));
  }

  lemma StepOnGroup(c: TokenCursor)
    requires c.cur.idx < |c.cur.stream| && c.cur.stream[c.cur.idx].Delimited?
    ensures var t := c.cur.stream[c.cur.idx];
            Step(c) == if t.delim == Empty then Step(Enter(c))
                       else (OpenOf(t.span, t.spacings, t.delim).0, t.spacings.start, Enter(c))
  {
  }

  lemma PopEmitsNext(c: TokenCursor)
    requires c.cur.idx >= |c.cur.stream| && |c.stack| > 0
    requires c.stack[|c.stack| - 1].delim == Empty ==> EmitsNext(Leave(c))
    ensures EmitsNext(c)
  {
    if c.stack[|c.stack| - 1].delim == Empty {
      SilentPopEmitsNext(c);
    } else {
      ClosePopEmitsNext(c);
    }
  }

  lemma StepOnPop(c: TokenCursor)
    requires c.cur.idx >= |c.cur.stream| && |c.stack| > 0
    ensures var f := c.stack[|c.stack| - 1];
            Step(c) == if f.delim == Empty then Step(Leave(c))
                       else (CloseOf(f.span, f.spacing, f.delim).0, f.spacing.end, Leave(c))
  {
  }

  lemma SilentPopEmitsNext(c: TokenCursor)
    requires c.cur.idx >= |c.cur.stream| && |c.stack| > 0
    requires c.stack[|c.stack| - 1].delim == Empty && EmitsNext(Leave(c))
    ensures EmitsNext(c)
  {
    LeavePending(c);
    assert Pending(c) == Pending(Leave(c));
    StepOnPop(c);
  }

  lemma ClosePopEmitsNext(c: TokenCursor)
    requires c.cur.idx >= |c.cur.stream| && |c.stack| > 0
    requires c.stack[|c.stack| - 1].delim != Empty
    ensures EmitsNext(c)
  {
    var f := c.stack[|c.stack| - 1];
    LeavePending(c);
    StepOnPop(c);
    ConsSplit(CloseOf(f.span, f.spacing, f.delim), Pending(Leave(c)));
  }

  lemma EndEmitsNext(c: TokenCursor)
    requires c.cur.idx >= |c.cur.stream| && |c.stack| == 0
    ensures EmitsNext(c)
  {
    EndPending(c);
    assert Step(c) == (EOF_OUTPUT.0, EOF_OUTPUT.1, c);
  }

  /** The cursor emits exactly the reference flattening, one token per step,
      and `Eof` once nothing is pending. */
  lemma {:induction false} StepEmitsPending(c: TokenCursor)
    decreases Work(c)
    ensures EmitsNext(c)
  {
    if c.cur.idx < |c.cur.stream| {
      if c.cur.stream[c.cur.idx].Leaf? {
        LeafEmitsNext(c);
      } else {
        if c.cur.stream[c.cur.idx].delim == Empty {
          EnterShrinksWork(c);
          StepEmitsPending(Enter(c));
        }
        GroupEmitsNext(c);
      }
    } else if |c.stack| > 0 {
      if c.stack[|c.stack| - 1].delim == Empty {
        LeaveShrinksWork(c);
        StepEmitsPending(Leave(c));
      }
      PopEmitsNext(c);
    } else {
      EndEmitsNext(c);
    }
  }

  /** The first `n` outputs of repeated `step` calls. */
  function Run(c: TokenCursor, n: nat): (r: seq<Emitted>)
    decreases n
    ensures |r| == n
  {
    if n == 0 then []
    else
      var (tok, sp, c1) := Step(c);
      [(tok, sp)] + Run(c1, n - 1)
  }

  function EofRepeated(k: nat): (r: seq<Emitted>)
    ensures |r| == k && forall i :: 0 <= i < k ==> r[i] == EOF_OUTPUT
  {
    if k == 0 then [] else [EOF_OUTPUT] + EofRepeated(k - 1)
  }

  lemma RunStep(c: TokenCursor, n: nat)
    requires n > 0
    ensures Run(c, n) == [(Step(c).0, Step(c).1)] + Run(Step(c).2, n - 1)
  {
  }

  /** One call of a run: the first pending token (or `Eof`) and the run of the
      stepped cursor, which has the rest pending. */
  lemma RunPendingStep(c: TokenCursor, p: seq<Emitted>, n: nat) returns (c1: TokenCursor)
    requires n > 0 && p == Pending(c)
    ensures |p| > 0 ==> Run(c, n) == [p[0]] + Run(c1, n - 1) && Pending(c1) == p[1..]
    ensures |p| == 0 ==> Run(c, n) == [EOF_OUTPUT] + Run(c1, n - 1) && Pending(c1) == []
  {
    StepEmitsPending(c);
    RunStep(c, n);
    c1 := Step(c).2;
  }

  lemma HeadThenTail(p: seq<Emitted>, e: seq<Emitted>)
    requires |p| > 0
    ensures [p[0]] + (p[1..] + e) == p + e
  {
    assert p == [p[0]] + p[1..];
  }

  lemma EofRepeatedCons(k: nat)
    requires k > 0
    ensures EofRepeated(k) == [EOF_OUTPUT] + EofRepeated(k - 1)
  {
  }

  /** With nothing pending, every call returns `Eof`. */
  lemma {:induction false} RunEofForever(c: TokenCursor, k: nat)
    requires Pending(c) == []
    decreases k
    ensures Run(c, k) == EofRepeated(k)
  {
    if k > 0 {
      var c1 := RunPendingStep(c, [], k);
      RunEofForever(c1, k - 1);
      EofRepeatedCons(k);
    }
  }

  /** Stepping a cursor re-emits its pending tokens `p` in order, then `Eof` on
      this and every later call. */
  lemma {:induction false} RunEmitsPendingThenEof(c: TokenCursor, p: seq<Emitted>, k: nat)
    requires p == Pending(c)
    decreases |p|
    ensures Run(c, |p| + k) == p + EofRepeated(k)
  {
    if |p| == 0 {
      RunEofForever(c, k);
      assert p + EofRepeated(k) == EofRepeated(k);
    } else {
      var n := |p| + k;
      var c1 := RunPendingStep(c, p, n);
      RunEmitsPendingThenEof(c1, p[1..], k);
      assert |p[1..]| + k == n - 1;
      HeadThenTail(p, EofRepeated(k));
    }
  }

  /** Over a fresh cursor, the output is the stream's flattening followed by
      `Eof` forever. */
  lemma CursorEmitsFlatten(stream: seq<TokenTree>, k: nat)
    ensures Run(NewCursor(stream), |Flatten(stream)| + k) == Flatten(stream) + EofRepeated(k)
  {
    var c := NewCursor(stream);
    assert Pending(c) == Flatten(stream) by {
      assert Unwind(c.stack) == [];
    }
    RunEmitsPendingThenEof(c, Pending(c), k);
  }

  /** No leaf holds a delimiter token: delimiters appear only as groups. */
  predicate NoDelimiterLeaves(ts: seq<TokenTree>)
    decreases ts
  {
    forall i :: 0 <= i < |ts| ==>
      match ts[i]
      case Leaf(tok, _) => !IsDelimiter(tok.kind)
      case Delimited(_, _, _, stream) => NoDelimiterLeaves(stream)
  }

  predicate IsEmptyDelimiter(k: TokenKind) {
    k == OpenDelim(Empty) || k == CloseDelim(Empty)
  }

  /** When no leaf holds a delimiter, the flattening never shows an `Empty`
      delimiter. */
  lemma {:induction false} FlattenHasNoEmptyDelimiter(ts: seq<TokenTree>)
    requires NoDelimiterLeaves(ts)
    decreases ts
    ensures forall i :: 0 <= i < |Flatten(ts)| ==> !IsEmptyDelimiter(Flatten(ts)[i].0.kind)
  {
    if |ts| > 0 {
      var head := FlattenTree(ts[0]);
      assert forall i :: 0 <= i < |head| ==> !IsEmptyDelimiter(head[i].0.kind) by {
        match ts[0]
        case Leaf(_, _) =>
          assert NoDelimiterLeaves(ts);
        case Delimited(span, spacing, delim, stream) =>
          assert NoDelimiterLeaves(stream);
          FlattenHasNoEmptyDelimiter(stream);
          if delim != Empty {
            var inner := Flatten(stream);
            assert head == [OpenOf(span, spacing, delim)] + inner + [CloseOf(span, spacing, delim)];
            forall i | 0 <= i < |head| ensures !IsEmptyDelimiter(head[i].0.kind) {
              if 0 < i <= |inner| {
                assert head[i] == inner[i - 1];
              }
            }
          }
      }
      assert NoDelimiterLeaves(ts[1..]) by {
        forall i | 0 <= i < |ts| - 1 ensures ts[1..][i] == ts[i + 1] { }
      }
      FlattenHasNoEmptyDelimiter(ts[1..]);
      assert Flatten(ts) == head + Flatten(ts[1..]);
    }
  }
}

=== FILE: token_trees.dfy ===
/** The delimiter-tree builder (tilc_parse/src/token_trees.rs).

    `TokenTreesReader` pulls tokens from the token reader one at a time and
    keeps one token of look-ahead in `token`. `step` fetches the next token,
    gluing it onto the current one while the two are adjacent and `glueable`
    combines them, and returns the current token with the spacing that follows
    it. `lex_token_trees` collects tokens into leaves until `Eof` or a closing
    delimiter, and `lex_token_tree_in_open_delim` builds a group around a
    nested call.

    The reader is modelled by its complete output: the token and
    preceded-by-whitespace flag of every `next_token` call up to and including
    the first `Eof`. Once that is consumed, the reader keeps returning the
    same `Eof` without the flag. `Token::glueable` and `Token::DUMMY` are not
    part of this model; they are parameters. Every `todo!()` is `Fail(Todo)`,
    and the `unreachable!()` is `Fail(Panic)`. */
module TokenTrees {
  import opened Outcomes
  import opened Spans
  import opened Tokens
  import opened TokenStreams

  /** One `next_token` result: the token and whether whitespace preceded it. */
  type Read = (Token, bool)

  /** The reader's output: tokens that are not `Eof`, then one `Eof`. */
  predicate IsReaderOutput(toks: seq<Read>) {
    && |toks| > 0
    && toks[|toks| - 1].0.kind.Eof?
    && forall i :: 0 <= i < |toks| - 1 ==> !toks[i].0.kind.Eof?
  }

  /** `Token::glueable`, abstracted: it may combine a token with the next one. */
  type Glue = (Token, Token) -> Option<Token>

  /** Gluing never swallows the end of input. */
  ghost predicate NeverGluesOntoEof(glue: Glue) {
    forall a: Token, b: Token :: b.kind.Eof? ==> glue(a, b).None?
  }

  /** A condition on the input: no token glues onto the one before it unless
      whitespace separates them, and nothing glues onto `Eof`. */
  ghost predicate NoGlueIn(toks: seq<Read>, glue: Glue) {
    && NeverGluesOntoEof(glue)
    && forall i :: 0 <= i < |toks| - 1 && !toks[i + 1].1 ==> glue(toks[i].0, toks[i + 1].0).None?
  }

  /** The builder: the reader's output, how much of it was read, and the
      current token. */
  datatype Builder = Builder(toks: seq<Read>, pos: nat, token: Token)

  predicate Valid(b: Builder) {
    IsReaderOutput(b.toks) && b.pos <= |b.toks|
  }

  /** `next_token` on the modelled reader. */
  function NextRead(b: Builder): (r: (Read, Builder))
    requires Valid(b)
    ensures Valid(r.1) && r.1.toks == b.toks && r.1.token == b.token
    ensures b.pos < |b.toks| ==> r == (b.toks[b.pos], b.(pos := b.pos + 1))
    ensures b.pos == |b.toks| ==> r.0.0.kind.Eof? && !r.0.1 && r.1 == b
  {
    if b.pos < |b.toks| then (b.toks[b.pos], b.(pos := b.pos + 1))
    else ((b.toks[|b.toks| - 1].0, false), b)
  }

  /** The loop of `step`: read until a token that does not glue. Returns the
      spacing after the (possibly glued) current token, the fetched token and
      the builder whose `token` is the glued current token. */
  function GlueLoop(b: Builder, glue: Glue, gl: bool): (r: (Spacing, Token, Builder))
    requires Valid(b) && NeverGluesOntoEof(glue)
    decreases |b.toks| - b.pos
    ensures Valid(r.2) && r.2.toks == b.toks && r.2.pos >= b.pos
    ensures b.pos < |b.toks| ==> r.2.pos > b.pos
    ensures b.pos == |b.toks| ==> r.2 == b && r.1.kind.Eof?
  {
    var read := NextRead(b);
    var next := read.0.0;
    if read.0.1 then (Whitespaced, next, read.1)
    else if gl && glue(b.token, next).Some? then GlueLoop(read.1.(token := glue(b.token, next).value), glue, gl)
    else (if b.token.kind.Eof? then Whitespaced else Sticked, next, read.1)
  }

  /** A measure every `step` call from a non-final state decreases. */
  function Measure(b: Builder): nat
    requires b.pos <= |b.toks|
  {
    2 * (|b.toks| - b.pos) + (if b.token.kind.Eof? then 0 else 1)
  }

  /** Whether `step` can still make progress. */
  predicate CanStep(b: Builder) {
    Valid(b) && (b.pos < |b.toks| || !b.token.kind.Eof?)
  }

  /** `step(glue)`: returns the spacing after the current token and the current
      token, and installs the fetched token as current. */
  function BuilderStep(b: Builder, glue: Glue, gl: bool): (r: (Spacing, Token, Builder))
    requires Valid(b) && NeverGluesOntoEof(glue)
    ensures Valid(r.2) && r.2.toks == b.toks
    ensures CanStep(b) ==> Measure(r.2) < Measure(b)
  {
    var glued := GlueLoop(b, glue, gl);
    (glued.0, glued.2.token, glued.2.(token := glued.1))
  }

  /** `lex_token_trees`: skip the current token, then collect trees. Returns the
      spacing after the skipped token, the trees, and the builder at the token
      that stopped the collection. */
  function LexTrees(b: Builder, glue: Glue, fromDelim: bool): (r: Res<(Spacing, seq<TokenTree>, Builder)>)
    requires CanStep(b) && NeverGluesOntoEof(glue)
    decreases Measure(b), 1
    ensures r.Ok? ==> Valid(r.value.2) && r.value.2.toks == b.toks && Measure(r.value.2) < Measure(b)
    ensures r.Ok? ==> r.value.2.token.kind.Eof? || r.value.2.token.kind.CloseDelim?
    ensures r.Fail? ==> r.fault == Todo
  {
    var stepped := BuilderStep(b, glue, false);
    LexLoop(stepped.2, glue, fromDelim, stepped.0, [])
  }

  /** The loop of `lex_token_trees`, with the trees collected so far. */
  function LexLoop(b: Builder, glue: Glue, fromDelim: bool, spacing: Spacing, buf: seq<TokenTree>)
    : (r: Res<(Spacing, seq<TokenTree>, Builder)>)
    requires Valid(b) && NeverGluesOntoEof(glue)
    decreases Measure(b), 3
    ensures r.Ok? ==> Valid(r.value.2) && r.value.2.toks == b.toks && Measure(r.value.2) <= Measure(b)
    ensures r.Ok? ==> r.value.2.token.kind.Eof? || r.value.2.token.kind.CloseDelim?
    ensures r.Fail? ==> r.fault == Todo
  {
    if b.token.kind.Eof? then Ok((spacing, buf, b))
    else if b.token.kind.OpenDelim? then
      var built :- InOpenDelim(b, glue, b.token.kind.delim);
      LexLoop(built.1, glue, fromDelim, spacing, buf + [built.0])
    else if b.token.kind.CloseDelim? then
      if fromDelim then Ok((spacing, buf, b)) else Fail(Todo)
    else
      var stepped := BuilderStep(b, glue, true);
      LexLoop(stepped.2, glue, fromDelim, spacing, buf + [Leaf(stepped.1, stepped.0)])
  }

  /** `lex_token_tree_in_open_delim`: the group opened by the current token. */
  function InOpenDelim(b: Builder, glue: Glue, delim: Delim): (r: Res<(TokenTree, Builder)>)
    requires Valid(b) && NeverGluesOntoEof(glue) && b.token.kind == OpenDelim(delim)
    decreases Measure(b), 2
    ensures r.Ok? ==> Valid(r.value.1) && r.value.1.toks == b.toks && Measure(r.value.1) < Measure(b)
    ensures r.Fail? ==> r.fault == Todo
  {
    var startSpan := b.token.span;
    var inner :- LexTrees(b, glue, true);
    var b1 := inner.2;
    var span := DelimSpan(startSpan, b1.token.span);
    if b1.token.kind.CloseDelim? then
      if b1.token.kind.delim == delim then
        var closed := BuilderStep(b1, glue, true);
        Ok((Delimited(span, DelimSpacing(inner.0, closed.0), delim, inner.1), closed.2))
      else Fail(Todo)
    else if b1.token.kind.Eof? then Ok((Delimited(span, DelimSpacing(inner.0, Whitespaced), delim, inner.1), b1))
    else Fail(Panic)
  }

  /** `lex_all_token_trees`: a fresh builder, whose current token is the
      placeholder `dummy`, lexes the whole input at the top level. */
  function LexAll(toks: seq<Read>, glue: Glue, dummy: Token): (r: Res<seq<TokenTree>>)
    requires IsReaderOutput(toks) && NeverGluesOntoEof(glue)
    ensures r.Fail? ==> r.fault == Todo
  {
    var top :- LexTrees(Builder(toks, 0, dummy), glue, false);
    Ok(top.1)
  }

  // ---------------------------------------------------------------------
  // Single steps

  /** A token preceded by whitespace is never glued onto, and the current token
      is returned with `Whitespaced` spacing. */
  lemma WhitespacedIsNeverGlued(b: Builder, glue: Glue, gl: bool)
    requires Valid(b) && NeverGluesOntoEof(glue) && b.pos < |b.toks| && b.toks[b.pos].1
    ensures BuilderStep(b, glue, gl) == (Whitespaced, b.token, b.(pos := b.pos + 1, token := b.toks[b.pos].0))
  {
  }

  /** `step(false)` never glues: it returns the current token unchanged and
      reads exactly one token; the spacing is `Sticked` unless whitespace came
      next or the current token is `Eof`. */
  lemma StepWithoutGlue(b: Builder, glue: Glue)
    requires Valid(b) && NeverGluesOntoEof(glue) && b.pos < |b.toks|
    ensures var (spacing, tok, b1) := BuilderStep(b, glue, false);
            && tok == b.token
            && b1 == b.(pos := b.pos + 1, token := b.toks[b.pos].0)
            && (spacing == Whitespaced <==> b.toks[b.pos].1 || b.token.kind.Eof?)
  {
  }

  /** `step(true)` replaces the current token by the glued one and reads on. */
  lemma StepGlues(b: Builder, glue: Glue)
    requires Valid(b) && NeverGluesOntoEof(glue) && b.pos < |b.toks| && !b.toks[b.pos].1
    requires glue(b.token, b.toks[b.pos].0).Some?
    ensures BuilderStep(b, glue, true) == BuilderStep(b.(pos := b.pos + 1, token := glue(b.token, b.toks[b.pos].0).value), glue, true)
  {
  }

  /** After the last token the builder stays at `Eof`. */
  lemma StepAtEnd(b: Builder, glue: Glue, gl: bool)
    requires Valid(b) && NeverGluesOntoEof(glue) && b.pos == |b.toks| && b.token.kind.Eof?
    ensures BuilderStep(b, glue, gl) == (Whitespaced, b.token, b.(token := b.toks[|b.toks| - 1].0))
  {
  }

  // ---------------------------------------------------------------------
  // Error paths

  /** A closing delimiter at the top level reaches `todo!()`. */
  lemma StrayCloseIsTodo(b: Builder, glue: Glue, spacing: Spacing, buf: seq<TokenTree>)
    requires Valid(b) && NeverGluesOntoEof(glue) && b.token.kind.CloseDelim?
    ensures LexLoop(b, glue, false, spacing, buf) == Fail(Todo)
  {
  }

  /** A group closed by a different delimiter reaches `todo!()`. */
  lemma MismatchedCloseIsTodo(toks: seq<Read>, glue: Glue, i: nat)
    requires IsReaderOutput(toks) && NeverGluesOntoEof(glue) && i + 1 < |toks| - 1
    requires toks[i].0.kind.OpenDelim? && toks[i + 1].0.kind.CloseDelim?
    requires toks[i].0.kind.delim != toks[i + 1].0.kind.delim
    ensures InOpenDelim(AtToken(toks, i), glue, toks[i].0.kind.delim) == Fail(Todo)
  {
    StepWithoutGlue(AtToken(toks, i), glue);
    var b1 := AtToken(toks, i + 1);
    assert LexLoop(b1, glue, true, SpacingAfter(toks, i), []) == Ok((SpacingAfter(toks, i), [], b1));
  }

  /** A group still open at `Eof` is accepted: the group ends at the `Eof`
      span, with `Whitespaced` after it. */
  lemma UnclosedGroupIsAccepted(toks: seq<Read>, glue: Glue, dummy: Token)
    requires IsReaderOutput(toks) && NeverGluesOntoEof(glue) && |toks| == 2
    requires toks[0].0.kind.OpenDelim?
    ensures LexAll(toks, glue, dummy)
         == Ok([Delimited(DelimSpan(toks[0].0.span, toks[1].0.span),
                          DelimSpacing(if toks[1].1 then Whitespaced else Sticked, Whitespaced),
                          toks[0].0.kind.delim, [])])
  {
    var b := Builder(toks, 0, dummy);
    StepWithoutGlue(b, glue);
    var b0 := AtToken(toks, 0);
    StepWithoutGlue(b0, glue);
    var b1 := AtToken(toks, 1);
    assert LexLoop(b1, glue, true, if toks[1].1 then Whitespaced else Sticked, [])
        == Ok((if toks[1].1 then Whitespaced else Sticked, [], b1));
    assert LexTrees(b0, glue, true) == Ok((if toks[1].1 then Whitespaced else Sticked, [], b1));
    var tree := Delimited(DelimSpan(toks[0].0.span, toks[1].0.span),
                          DelimSpacing(if toks[1].1 then Whitespaced else Sticked, Whitespaced),
                          toks[0].0.kind.delim, []);
    assert InOpenDelim(b0, glue, toks[0].0.kind.delim) == Ok((tree, b1));
    var top := BuilderStep(b, glue, false).0;
    assert [] + [tree] == [tree];
    assert LexLoop(b0, glue, false, top, []) == LexLoop(b1, glue, false, top, [tree]);
    assert LexLoop(b1, glue, false, top, [tree]) == Ok((top, [tree], b1));
  }

  // ---------------------------------------------------------------------
  // Balanced input

  /** The builder positioned at token `i`: it is current, and the reader has
      delivered everything up to it. */
  function AtToken(toks: seq<Read>, i: nat): (b: Builder)
    requires i < |toks|
    ensures b.pos == i + 1 && b.token == toks[i].0 && b.toks == toks
  {
    Builder(toks, i + 1, toks[i].0)
  }

  /** The spacing after token `i`: whether the reader saw whitespace before
      the next token. */
  function SpacingAfter(toks: seq<Read>, i: nat): Spacing
    requires i + 1 < |toks|
  {
    if toks[i + 1].1 then Whitespaced else Sticked
  }

  /** The reader's tokens before `Eof`, each with the spacing that follows it. */
  function Annotated(toks: seq<Read>, from: nat, to: nat): (r: seq<Emitted>)
    requires from <= to < |toks|
    decreases (to as int) - (from as int)
    ensures |r| == to - from
  {
    if from == to then [] else [(toks[from].0, SpacingAfter(toks, from))] + Annotated(toks, from + 1, to)
  }

  /** Entry `k` of `Annotated` is token `from + k` with the spacing after it. */
  lemma {:induction false} AnnotatedIndex(toks: seq<Read>, from: nat, to: nat, k: nat)
    requires from <= to < |toks| && k < to - from
    ensures Annotated(toks, from, to)[k] == (toks[from + k].0, SpacingAfter(toks, from + k))
    decreases k
  {
    if k > 0 {
      AnnotatedIndex(toks, from + 1, to, k - 1);
    }
  }

  lemma {:induction false} AnnotatedConcat(toks: seq<Read>, a: nat, b: nat, c: nat)
    requires a <= b <= c < |toks|
    ensures Annotated(toks, a, c) == Annotated(toks, a, b) + Annotated(toks, b, c)
    decreases b - a
  {
    if a == b {
      assert Annotated(toks, a, b) == [];
    } else {
      AnnotatedConcat(toks, a + 1, b, c);
      assert Annotated(toks, a, c) == [(toks[a].0, SpacingAfter(toks, a))] + Annotated(toks, a + 1, c);
      assert Annotated(toks, a, b) == [(toks[a].0, SpacingAfter(toks, a))] + Annotated(toks, a + 1, b);
    }
  }

  /** Reference balance check of the delimiters from token `i` to `end`, given
      the delimiters still open (innermost last): every closing delimiter
      closes the innermost open one, `Empty` never opens, and nothing is left
      open. */
  predicate NestsFrom(toks: seq<Read>, i: nat, end: nat, open: seq<Delim>)
    requires i <= end < |toks|
    decreases end - i
  {
    if i == end then |open| == 0
    else match toks[i].0.kind
      case OpenDelim(d) => d != Empty && NestsFrom(toks, i + 1, end, open + [d])
      case CloseDelim(d) => |open| > 0 && open[|open| - 1] == d && NestsFrom(toks, i + 1, end, open[..|open| - 1])
      case _ => NestsFrom(toks, i + 1, end, open)
  }

  /** The reader's tokens before `Eof` are balanced. */
  predicate Balanced(toks: seq<Read>)
    requires |toks| > 0
  {
    NestsFrom(toks, 0, |toks| - 1, [])
  }

  /** When token `i + 1` does not glue onto token `i`, `step` at token `i`
      returns it with the spacing after it and moves to token `i + 1`. */
  lemma StepAt(toks: seq<Read>, glue: Glue, i: nat, gl: bool)
    requires IsReaderOutput(toks) && NoGlueIn(toks, glue) && i < |toks| - 1
    ensures NeverGluesOntoEof(glue)
    ensures BuilderStep(AtToken(toks, i), glue, gl) == (SpacingAfter(toks, i), toks[i].0, AtToken(toks, i + 1))
  {
    if !toks[i + 1].1 {
      assert glue(toks[i].0, toks[i + 1].0).None?;
    }
  }

  /** The outcome `LexLoop` has from token `i` on balanced input, given the
      delimiters still open: it succeeds and stops at token `j`, which is `Eof`
      when nothing is open and otherwise the closing delimiter of the innermost
      open group; the trees it adds flatten back to exactly tokens `i` to `j`,
      with their spacings, and no leaf holds a delimiter. */
  ghost predicate LoopResult(toks: seq<Read>, glue: Glue, i: nat, open: seq<Delim>, spacing: Spacing,
                             buf: seq<TokenTree>, trees: seq<TokenTree>, j: nat)
    requires IsReaderOutput(toks) && NeverGluesOntoEof(glue) && i <= j < |toks|
  {
    && LexLoop(AtToken(toks, i), glue, |open| > 0, spacing, buf) == Ok((spacing, buf + trees, AtToken(toks, j)))
    && Flatten(trees) == Annotated(toks, i, j)
    && NoDelimiterLeaves(trees)
    && (|open| == 0 ==> j == |toks| - 1)
    && (|open| > 0 ==>
          && j < |toks| - 1
          && toks[j].0.kind == CloseDelim(open[|open| - 1])
          && NestsFrom(toks, j + 1, |toks| - 1, open[..|open| - 1]))
  }

  /** `LexLoop` from any token of balanced input has the outcome above. */
  lemma {:induction false} LexLoopOnBalanced(
    toks: seq<Read>, glue: Glue, i: nat, open: seq<Delim>, spacing: Spacing, buf: seq<TokenTree>)
    returns (trees: seq<TokenTree>, j: nat)
    requires IsReaderOutput(toks) && NoGlueIn(toks, glue) && i < |toks|
    requires NestsFrom(toks, i, |toks| - 1, open)
    ensures NeverGluesOntoEof(glue) && i <= j < |toks|
    ensures LoopResult(toks, glue, i, open, spacing, buf, trees, j)
    decreases |toks| - i, 3
  {
    if i == |toks| - 1 {
      trees, j := EndOnBalanced(toks, glue, i, open, spacing, buf);
    } else if toks[i].0.kind.OpenDelim? {
      trees, j := OpenGroupOnBalanced(toks, glue, i, open, spacing, buf);
    } else if toks[i].0.kind.CloseDelim? {
      trees, j := CloseOnBalanced(toks, glue, i, open, spacing, buf);
    } else {
      trees, j := LeafOnBalanced(toks, glue, i, open, spacing, buf);
    }
  }

  lemma EndOnBalanced(
    toks: seq<Read>, glue: Glue, i: nat, open: seq<Delim>, spacing: Spacing, buf: seq<TokenTree>)
    returns (trees: seq<TokenTree>, j: nat)
    requires IsReaderOutput(toks) && NoGlueIn(toks, glue) && i == |toks| - 1
    requires NestsFrom(toks, i, |toks| - 1, open)
    ensures NeverGluesOntoEof(glue) && i <= j < |toks|
    ensures LoopResult(toks, glue, i, open, spacing, buf, trees, j)
  {
    trees, j := [], i;
    assert AtToken(toks, i).token.kind.Eof?;
    assert buf + [] == buf;
  }

  lemma CloseOnBalanced(
    toks: seq<Read>, glue: Glue, i: nat, open: seq<Delim>, spacing: Spacing, buf: seq<TokenTree>)
    returns (trees: seq<TokenTree>, j: nat)
    requires IsReaderOutput(toks) && NoGlueIn(toks, glue) && i < |toks| - 1
    requires NestsFrom(toks, i, |toks| - 1, open)
    requires toks[i].0.kind.CloseDelim?
    ensures NeverGluesOntoEof(glue) && i <= j < |toks|
    ensures LoopResult(toks, glue, i, open, spacing, buf, trees, j)
  {
    trees, j := [], i;
    assert |open| > 0;
    assert buf + [] == buf;
  }

  lemma {:induction false} LeafOnBalanced(
    toks: seq<Read>, glue: Glue, i: nat, open: seq<Delim>, spacing: Spacing, buf: seq<TokenTree>)
    returns (trees: seq<TokenTree>, j: nat)
    requires IsReaderOutput(toks) && NoGlueIn(toks, glue) && i < |toks| - 1
    requires NestsFrom(toks, i, |toks| - 1, open)
    requires !toks[i].0.kind.OpenDelim? && !toks[i].0.kind.CloseDelim?
    ensures NeverGluesOntoEof(glue) && i <= j < |toks|
    ensures LoopResult(toks, glue, i, open, spacing, buf, trees, j)
    decreases |toks| - i, 2
  {
    var leaf := LeafThenLoop(toks, glue, i, open, spacing, buf);
    var rest;
    rest, j := LexLoopOnBalanced(toks, glue, i + 1, open, spacing, buf + [leaf]);
    trees := PrependTree(toks, glue, i, i + 1, open, spacing, buf, leaf, rest, j);
  }

  /** `lex_token_trees` pushes a leaf for token `i`, with the spacing after it. */
  lemma LeafThenLoop(toks: seq<Read>, glue: Glue, i: nat, open: seq<Delim>, spacing: Spacing, buf: seq<TokenTree>)
    returns (leaf: TokenTree)
    requires IsReaderOutput(toks) && NoGlueIn(toks, glue) && i < |toks| - 1
    requires !toks[i].0.kind.OpenDelim? && !toks[i].0.kind.CloseDelim?
    ensures NeverGluesOntoEof(glue)
    ensures TreeThenLoop(toks, glue, i, i + 1, open, spacing, buf, leaf)
  {
    StepAt(toks, glue, i, true);
    leaf := Leaf(toks[i].0, SpacingAfter(toks, i));
    LexLoopOnLeaf(AtToken(toks, i), glue, |open| > 0, spacing, buf);
    assert Annotated(toks, i, i + 1) == [(toks[i].0, SpacingAfter(toks, i))] + Annotated(toks, i + 1, i + 1);
    assert Flatten([leaf]) == FlattenTree(leaf) + Flatten([]);
  }

  lemma {:induction false} OpenGroupOnBalanced(
    toks: seq<Read>, glue: Glue, i: nat, open: seq<Delim>, spacing: Spacing, buf: seq<TokenTree>)
    returns (trees: seq<TokenTree>, j: nat)
    requires IsReaderOutput(toks) && NoGlueIn(toks, glue) && i < |toks| - 1
    requires NestsFrom(toks, i, |toks| - 1, open)
    requires toks[i].0.kind.OpenDelim?
    ensures NeverGluesOntoEof(glue) && i <= j < |toks|
    ensures LoopResult(toks, glue, i, open, spacing, buf, trees, j)
    decreases |toks| - i, 2
  {
    var tree, k := GroupThenLoop(toks, glue, i, open, spacing, buf);
    var rest;
    rest, j := LexLoopOnBalanced(toks, glue, k + 1, open, spacing, buf + [tree]);
    trees := PrependTree(toks, glue, i, k + 1, open, spacing, buf, tree, rest, j);
  }

  /** `lex_token_trees` on balanced input pushes the group opened at token `i`
      and carries on after its closing delimiter `k`. */
  lemma GroupThenLoop(toks: seq<Read>, glue: Glue, i: nat, open: seq<Delim>, spacing: Spacing, buf: seq<TokenTree>)
    returns (tree: TokenTree, k: nat)
    requires IsReaderOutput(toks) && NoGlueIn(toks, glue) && i < |toks| - 1
    requires NestsFrom(toks, i, |toks| - 1, open)
    requires toks[i].0.kind.OpenDelim?
    ensures NeverGluesOntoEof(glue) && i < k < |toks| - 1
    ensures TreeThenLoop(toks, glue, i, k + 1, open, spacing, buf, tree)
    ensures NestsFrom(toks, k + 1, |toks| - 1, open)
    decreases |toks| - i, 1
  {
    tree, k := GroupOnBalanced(toks, glue, i, open);
    LexLoopOnGroup(AtToken(toks, i), glue, |open| > 0, spacing, buf, tree, AtToken(toks, k + 1));
  }

  /** `LexLoop` at token `i` pushes `tree`, which covers tokens `i` up to `k`,
      and carries on at token `k`. */
  ghost predicate TreeThenLoop(toks: seq<Read>, glue: Glue, i: nat, k: nat, open: seq<Delim>, spacing: Spacing,
                               buf: seq<TokenTree>, tree: TokenTree)
    requires IsReaderOutput(toks) && NeverGluesOntoEof(glue) && i < k < |toks|
  {
    && LexLoop(AtToken(toks, i), glue, |open| > 0, spacing, buf)
       == LexLoop(AtToken(toks, k), glue, |open| > 0, spacing, buf + [tree])
    && Flatten([tree]) == Annotated(toks, i, k)
    && NoDelimiterLeaves([tree])
  }

  /** A tree covering tokens `i` to `k`, followed by the loop's outcome from
      `k`, is the loop's outcome from `i`. */
  lemma PrependTree(toks: seq<Read>, glue: Glue, i: nat, k: nat, open: seq<Delim>, spacing: Spacing,
                    buf: seq<TokenTree>, tree: TokenTree, rest: seq<TokenTree>, j: nat)
    returns (trees: seq<TokenTree>)
    requires IsReaderOutput(toks) && NeverGluesOntoEof(glue) && i < k <= j < |toks|
    requires TreeThenLoop(toks, glue, i, k, open, spacing, buf, tree)
    requires LoopResult(toks, glue, k, open, spacing, buf + [tree], rest, j)
    ensures LoopResult(toks, glue, i, open, spacing, buf, trees, j)
  {
    trees := [tree] + rest;
    assert buf + [tree] + rest == buf + ([tree] + rest);
    AnnotatedConcat(toks, i, k, j);
    FlattenConcat([tree], rest);
    NoDelimiterLeavesCons(tree, rest);
  }

  lemma NoDelimiterLeavesCons(t: TokenTree, ts: seq<TokenTree>)
    requires NoDelimiterLeaves([t]) && NoDelimiterLeaves(ts)
    ensures NoDelimiterLeaves([t] + ts)
  {
    var all := [t] + ts;
    forall k | 0 <= k < |all|
      ensures match all[k]
              case Leaf(tok, _) => !IsDelimiter(tok.kind)
              case Delimited(_, _, _, stream) => NoDelimiterLeaves(stream)
    {
      if k > 0 {
        assert all[k] == ts[k - 1];
      }
    }
  }

  /** `lex_token_trees` pushes a leaf for a token that is neither a delimiter
      nor `Eof`, with the spacing `step` reports after it. */
  lemma LexLoopOnLeaf(b: Builder, glue: Glue, fromDelim: bool, spacing: Spacing, buf: seq<TokenTree>)
    requires Valid(b) && NeverGluesOntoEof(glue)
    requires !b.token.kind.Eof? && !b.token.kind.OpenDelim? && !b.token.kind.CloseDelim?
    ensures LexLoop(b, glue, fromDelim, spacing, buf)
         == LexLoop(BuilderStep(b, glue, true).2, glue, fromDelim, spacing, buf + [Leaf(BuilderStep(b, glue, true).1, BuilderStep(b, glue, true).0)])
  {
  }

  /** `lex_token_trees` pushes a completed group and carries on after it. */
  lemma LexLoopOnGroup(b: Builder, glue: Glue, fromDelim: bool, spacing: Spacing, buf: seq<TokenTree>,
                       tree: TokenTree, b1: Builder)
    requires Valid(b) && NeverGluesOntoEof(glue) && b.token.kind.OpenDelim?
    requires InOpenDelim(b, glue, b.token.kind.delim) == Ok((tree, b1))
    ensures Valid(b1)
    ensures LexLoop(b, glue, fromDelim, spacing, buf) == LexLoop(b1, glue, fromDelim, spacing, buf + [tree])
  {
  }

  /** A balanced group starting at token `i` becomes one `Delimited` tree that
      ends at its matching closing delimiter `j`, and flattens back to tokens
      `i` to `j`. */
  lemma {:induction false} GroupOnBalanced(toks: seq<Read>, glue: Glue, i: nat, open: seq<Delim>)
    returns (tree: TokenTree, j: nat)
    requires IsReaderOutput(toks) && NoGlueIn(toks, glue) && i < |toks| - 1
    requires NestsFrom(toks, i, |toks| - 1, open)
    requires toks[i].0.kind.OpenDelim?
    ensures NeverGluesOntoEof(glue)
    ensures i < j < |toks| - 1
    ensures InOpenDelim(AtToken(toks, i), glue, toks[i].0.kind.delim) == Ok((tree, AtToken(toks, j + 1)))
    ensures Flatten([tree]) == Annotated(toks, i, j + 1)
    ensures NoDelimiterLeaves([tree])
    ensures NestsFrom(toks, j + 1, |toks| - 1, open)
    decreases |toks| - i, 0
  {
    var d := toks[i].0.kind.delim;
    assert d != Empty && NestsFrom(toks, i + 1, |toks| - 1, open + [d]);
    StepAt(toks, glue, i, false);
    var spacingOpen := SpacingAfter(toks, i);
    assert LexTrees(AtToken(toks, i), glue, true) == LexLoop(AtToken(toks, i + 1), glue, true, spacingOpen, []);
    var stream;
    stream, j := LexLoopOnBalanced(toks, glue, i + 1, open + [d], spacingOpen, []);
    assert Flatten(stream) == Annotated(toks, i + 1, j) && NoDelimiterLeaves(stream);
    assert j < |toks| - 1 && toks[j].0.kind == CloseDelim(d);
    assert [] + stream == stream;
    assert LexLoop(AtToken(toks, i + 1), glue, true, spacingOpen, []) == Ok((spacingOpen, stream, AtToken(toks, j)));
    assert (open + [d])[..|open|] == open;
    StepAt(toks, glue, j, true);
    InOpenDelimCloses(AtToken(toks, i), glue, d, spacingOpen, stream, AtToken(toks, j));
    tree := Delimited(DelimSpan(toks[i].0.span, toks[j].0.span),
                      DelimSpacing(spacingOpen, SpacingAfter(toks, j)), d, stream);
    FlattenGroup(toks[i].0, spacingOpen, toks[j].0, SpacingAfter(toks, j), d, stream);
    AnnotatedBracket(toks, i, j);
    assert [tree][0] == tree;
  }

  /** `lex_token_tree_in_open_delim` when the nested trees end at the matching
      closing delimiter. */
  lemma InOpenDelimCloses(b: Builder, glue: Glue, delim: Delim, sp: Spacing, stream: seq<TokenTree>, b1: Builder)
    requires Valid(b) && NeverGluesOntoEof(glue) && b.token.kind == OpenDelim(delim)
    requires LexTrees(b, glue, true) == Ok((sp, stream, b1))
    requires b1.token.kind == CloseDelim(delim)
    ensures Valid(b1)
    ensures InOpenDelim(b, glue, delim)
         == Ok((Delimited(DelimSpan(b.token.span, b1.token.span), DelimSpacing(sp, BuilderStep(b1, glue, true).0), delim, stream),
                BuilderStep(b1, glue, true).2))
  {
  }

  lemma FlattenGroup(open: Token, so: Spacing, close: Token, sc: Spacing, d: Delim, stream: seq<TokenTree>)
    requires d != Empty && open.kind == OpenDelim(d) && close.kind == CloseDelim(d)
    ensures Flatten([Delimited(DelimSpan(open.span, close.span), DelimSpacing(so, sc), d, stream)])
         == [(open, so)] + Flatten(stream) + [(close, sc)]
  {
    var t := Delimited(DelimSpan(open.span, close.span), DelimSpacing(so, sc), d, stream);
    assert [t][1..] == [];
  }

  lemma AnnotatedBracket(toks: seq<Read>, i: nat, j: nat)
    requires i < j < |toks| - 1
    ensures Annotated(toks, i, j + 1)
         == [(toks[i].0, SpacingAfter(toks, i))] + Annotated(toks, i + 1, j) + [(toks[j].0, SpacingAfter(toks, j))]
  {
    var first := [(toks[i].0, SpacingAfter(toks, i))];
    var last := [(toks[j].0, SpacingAfter(toks, j))];
    assert Annotated(toks, j + 1, j + 1) == [];
    assert Annotated(toks, j, j + 1) == last + [];
    AnnotatedConcat(toks, i + 1, j, j + 1);
    assert Annotated(toks, i, j + 1) == first + Annotated(toks, i + 1, j + 1);
    AppendAssoc(first, Annotated(toks, i + 1, j), last);
  }

  lemma AppendAssoc<T>(a: seq<T>, b: seq<T>, c: seq<T>)
    ensures a + b + c == a + (b + c)
  {
    assert a + b + c == a + (b + c);
  }

  /** The stream built from balanced reader output flattens back to the reader's
      tokens before `Eof`, each with the spacing the reader reported after it;
      no leaf holds a delimiter. */
  lemma LexAllOnBalanced(toks: seq<Read>, glue: Glue, dummy: Token) returns (trees: seq<TokenTree>)
    requires IsReaderOutput(toks) && NoGlueIn(toks, glue) && Balanced(toks)
    ensures NeverGluesOntoEof(glue)
    ensures LexAll(toks, glue, dummy) == Ok(trees)
    ensures Flatten(trees) == Annotated(toks, 0, |toks| - 1)
    ensures NoDelimiterLeaves(trees)
  {
    var sp := TopStep(toks, glue, dummy);
    var built, j := LexLoopOnBalanced(toks, glue, 0, [], sp, []);
    trees := built;
    assert [] + built == trees;
  }

  /** The first `step` of `lex_all_token_trees` discards the placeholder and
      makes the reader's first token current. */
  lemma TopStep(toks: seq<Read>, glue: Glue, dummy: Token) returns (sp: Spacing)
    requires IsReaderOutput(toks) && NeverGluesOntoEof(glue)
    ensures LexAll(toks, glue, dummy)
         == (var r := LexLoop(AtToken(toks, 0), glue, false, sp, []); if r.Ok? then Ok(r.value.1) else Fail(r.fault))
  {
    var b := Builder(toks, 0, dummy);
    sp := BuilderStep(b, glue, false).0;
    assert BuilderStep(b, glue, false).2 == AtToken(toks, 0);
  }
}

=== FILE: tokens.dfy ===
/** The AST-level tokens (tilc_ast/src/token.rs) shared by the reader, the tree
    builder, the cursor and the parser.

    `Delim::Empty`, which the cursor tests for, is part of `Delim` here. The
    reader builds `Identifier(symbol, is_raw)` and a three-field literal, so the
    token kinds carry those payloads. */
module Tokens {
  import opened Outcomes
  import opened Spans
  import Interner

  datatype Delim = Paren | Brace | Bracket | Empty

  /** `BinOp`; its variants share their names with token kinds, hence the prefix. */
  datatype BinOp = OpPlus | OpMinus | OpStar | OpSlash | OpPercent | OpCaret | OpAnd | OpOr

  datatype LitKind = Char | Bool | Int | Float | Str | RawStr

  datatype TokenKind =
    | Identifier(symbol: Interner.Symbol, isRaw: bool)
    | Literal(kind: LitKind, symbol: Interner.Symbol, suffix: Option<Interner.Symbol>)
    | Lifetime
    | Eq | EqEq | Lt | Le | Gt | Ge | AndAnd | OrOr | Not
    | BinOp(op: BinOp)
    | At | Dot | Comma | Colon | Semicolon | Path | RArrow | LArrow
    | Hashtag | Tilde | Question | Dollar
    | Minus | Plus | And | Or | Star | Slash | Caret | Percent
    | OpenDelim(delim: Delim)
    | CloseDelim(delim: Delim)
    | Unknown
    | Eof

  datatype Token = Token(kind: TokenKind, span: Span)

  /** Whether a token is followed directly by the next one or by whitespace. */
  datatype Spacing = Whitespaced | Sticked

  predicate IsDelimiter(k: TokenKind) {
    k.OpenDelim? || k.CloseDelim?
  }
}

=== FILE: uidx.dfy ===
/** The bounded index newtype that `uidx!` generates (tilc_macros/src/uidx.rs
    and the second copy tilc_macro/src/uidx.rs).

    A `uidx!` struct wraps a `u32` that never exceeds the struct's `max`,
    given by a `#[max = N]` attribute and 0xFFFF_FF00 by default. Every
    constructor asserts the bound; the two copies differ only in `as_u16`,
    which asserts in the first and truncates in the second. Assertions in a
    `const` are compile-time errors and are modelled as panics like the rest. */
module Uidx {
  import opened Outcomes

  /** The `max` used when the struct carries no `#[max = N]` attribute. */
  const DEFAULT_MAX: u32 := 0xFFFF_FF00

  /** An outer attribute of the struct: the single identifier of its path, if
      it has one, and the integer literal bound to it, if it is `name = literal`. */
  datatype Attr = Attr(name: Option<string>, literal: Option<u32>)

  predicate IsMaxAttr(a: Attr) {
    a.name == Some("max")
  }

  /** The attributes that survive into the generated struct. */
  function Strip(attrs: seq<Attr>): (r: seq<Attr>)
    ensures |r| <= |attrs|
    ensures forall i :: 0 <= i < |r| ==> !IsMaxAttr(r[i])
  {
    if |attrs| == 0 then []
    else if IsMaxAttr(attrs[0]) then Strip(attrs[1..])
    else [attrs[0]] + Strip(attrs[1..])
  }

  /** The literals of the `#[max]` attributes, in order (`None` for a
      `#[max]` that is not `max = literal`). */
  function MaxLiterals(attrs: seq<Attr>): seq<Option<u32>> {
    if |attrs| == 0 then []
    else if IsMaxAttr(attrs[0]) then [attrs[0].literal] + MaxLiterals(attrs[1..])
    else MaxLiterals(attrs[1..])
  }

  /** The `attrs.retain(..)` pass: strip every `#[max]`, remembering its value in
      `max`; a malformed one or a second one panics. */
  function Retain(attrs: seq<Attr>, max: Option<u32>): (r: Res<(Option<u32>, seq<Attr>)>)
    decreases |attrs|
    ensures r.Ok? <==> (forall i :: 0 <= i < |MaxLiterals(attrs)| ==> MaxLiterals(attrs)[i].Some?)
                       && |MaxLiterals(attrs)| + (if max.Some? then 1 else 0) <= 1
    ensures r.Fail? ==> r.fault == Panic
    ensures r.Ok? ==> && r.value.1 == Strip(attrs)
                      && r.value.0 == (if |MaxLiterals(attrs)| == 1 then MaxLiterals(attrs)[0] else max)
  {
    if |attrs| == 0 then Ok((max, []))
    else if IsMaxAttr(attrs[0]) then
      assert MaxLiterals(attrs) == [attrs[0].literal] + MaxLiterals(attrs[1..]);
      if attrs[0].literal.None? then
        assert MaxLiterals(attrs)[0].None?;
        Fail(Panic)
      else if max.Some? then Fail(Panic)
      else
        assert forall i :: 1 <= i < |MaxLiterals(attrs)| ==> MaxLiterals(attrs)[i] == MaxLiterals(attrs[1..])[i - 1];
        Retain(attrs[1..], attrs[0].literal)
    else
      assert MaxLiterals(attrs) == MaxLiterals(attrs[1..]);
      var rest :- Retain(attrs[1..], max);
      Ok((rest.0, [attrs[0]] + rest.1))
  }

  /** The struct's bound and the attributes passed through: at most one
      well-formed `#[max = N]`, and 0xFFFF_FF00 without one. */
  function ResolveMax(attrs: seq<Attr>): (r: Res<(u32, seq<Attr>)>)
    ensures r.Ok? <==> |MaxLiterals(attrs)| == 0 || (|MaxLiterals(attrs)| == 1 && MaxLiterals(attrs)[0].Some?)
    ensures r.Ok? ==> && r.value.1 == Strip(attrs)
                      && r.value.0 == (if |MaxLiterals(attrs)| == 0 then DEFAULT_MAX else MaxLiterals(attrs)[0].value)
  {
    var kept :- Retain(attrs, None);
    match kept.0
    case None => Ok((DEFAULT_MAX, kept.1))
    case Some(max) => Ok((max, kept.1))
  }

  /** A value of a generated index type; the bound lives with the caller. */
  datatype Idx = Idx(value: u32)

  predicate Valid(max: u32, i: Idx) {
    i.value <= max
  }

  /** `from_u32`: `assert!(v <= max)`, then wrap. */
  function FromU32(max: u32, v: u32): (r: Res<Idx>)
    ensures r.Ok? <==> v <= max
    ensures r.Fail? ==> r.fault == Panic
    ensures r.Ok? ==> Valid(max, r.value) && r.value.value == v
  {
    if v <= max then Ok(Idx(v)) else Fail(Panic)
  }

  /** `from_u16`. */
  function FromU16(max: u32, v: u16): (r: Res<Idx>)
    ensures r.Ok? <==> v as int <= max as int
    ensures r.Ok? ==> Valid(max, r.value) && r.value.value as int == v as int
  {
    if v as int <= max as int then Ok(Idx(v as int as u32)) else Fail(Panic)
  }

  /** `from_usize`: the bound is checked on the full `usize`, so the `as u32`
      that follows never truncates. */
  function FromUsize(max: u32, v: usize): (r: Res<Idx>)
    ensures r.Ok? <==> v as int <= max as int
    ensures r.Ok? ==> Valid(max, r.value) && r.value.value as int == v as int
  {
    if v as int <= max as int then Ok(Idx(v as int as u32)) else Fail(Panic)
  }

  function AsU32(i: Idx): u32 {
    i.value
  }

  function AsUsize(i: Idx): usize {
    i.value as int as usize
  }

  /** `as_u16` of tilc_macros: asserts that the value fits. */
  function AsU16(i: Idx): (r: Res<u16>)
    ensures r.Ok? <==> i.value as int <= U16_MAX
    ensures r.Ok? ==> r.value as int == i.value as int
  {
    if i.value as int <= U16_MAX then Ok(i.value as int as u16) else Fail(Panic)
  }

  /** `as_u16` of tilc_macro: a plain `as u16`, keeping the low 16 bits. */
  function AsU16Truncating(i: Idx): (r: u16)
    ensures r as int == i.value as int % (U16_MAX + 1)
  {
    (i.value as int % (U16_MAX + 1)) as u16
  }

  /** The two `as_u16`s agree exactly where the asserting one succeeds. */
  lemma AsU16VariantsAgree(i: Idx)
    ensures AsU16(i).Ok? <==> AsU16Truncating(i) as int == i.value as int
    ensures AsU16(i).Ok? ==> AsU16(i).value == AsU16Truncating(i)
  {
  }

  /** `Add<usize>`: `from_usize(as_usize() + rhs)`; the `usize` sum panics on
      overflow in a debug build. */
  function Add(max: u32, i: Idx, rhs: usize): (r: Res<Idx>)
    ensures r.Ok? <==> i.value as int + rhs as int <= max as int
    ensures r.Fail? ==> r.fault == Panic
    ensures r.Ok? ==> Valid(max, r.value) && r.value.value as int == i.value as int + rhs as int
  {
    var sum := AsUsize(i) as int + rhs as int;
    if sum > USIZE_MAX then Fail(Panic) else FromUsize(max, sum as usize)
  }

  /** `Sub<usize>`: `from_usize(as_usize() - rhs)`; underflow panics. */
  function Sub(max: u32, i: Idx, rhs: usize): (r: Res<Idx>)
    ensures Valid(max, i) ==> (r.Ok? <==> rhs as int <= i.value as int)
    ensures r.Ok? ==> Valid(max, r.value) && r.value.value as int == i.value as int - rhs as int
  {
    var diff := AsUsize(i) as int - rhs as int;
    if diff < 0 then Fail(Panic) else FromUsize(max, diff as usize)
  }

  /** The round trips through the raw integer types. */
  lemma ConversionsRoundTrip(max: u32, v: u32)
    requires v <= max
    ensures FromU32(max, v).Ok? && AsU32(FromU32(max, v).value) == v
    ensures FromUsize(max, v as int as usize).Ok? && AsUsize(FromUsize(max, v as int as usize).value) as int == v as int
    ensures FromU32(max, AsU32(Idx(v))) == Ok(Idx(v))
  {
  }

  /** Subtracting what was added gives the index back. */
  lemma SubUndoesAdd(max: u32, i: Idx, k: usize)
    requires Valid(max, i) && Add(max, i, k).Ok?
    ensures Sub(max, Add(max, i, k).value, k) == Ok(i)
  {
  }

  /** What a `uidx!` expansion defines. */
  datatype Expansion = Expansion(max: u32, maxConst: Idx, empty: Idx, consts: seq<Idx>, attrs: seq<Attr>)

  /** Every declared `const NAME = value;` goes through `from_u32`. */
  function DeclareConsts(max: u32, values: seq<u32>): (r: Res<seq<Idx>>)
    decreases |values|
    ensures r.Ok? <==> forall k :: 0 <= k < |values| ==> values[k] <= max
    ensures r.Ok? ==> |r.value| == |values| && forall k :: 0 <= k < |values| ==> r.value[k] == Idx(values[k])
  {
    if |values| == 0 then Ok([])
    else
      var first :- FromU32(max, values[0]);
      var rest :- DeclareConsts(max, values[1..]);
      Ok([first] + rest)
  }

  /** `uidx!`: resolve the bound, then the declared constants, `MAX` and
      `EMPTY`. */
  function Expand(attrs: seq<Attr>, values: seq<u32>): (r: Res<Expansion>)
    ensures r.Ok? <==> ResolveMax(attrs).Ok? && forall k :: 0 <= k < |values| ==> values[k] <= ResolveMax(attrs).value.0
    ensures r.Ok? ==> && r.value.max == ResolveMax(attrs).value.0
                      && r.value.maxConst == Idx(r.value.max)
                      && r.value.empty == Idx(0)
                      && Valid(r.value.max, r.value.maxConst) && Valid(r.value.max, r.value.empty)
                      && r.value.attrs == Strip(attrs)
  {
    var resolved :- ResolveMax(attrs);
    var consts :- DeclareConsts(resolved.0, values);
    // `MAX` and `EMPTY` always pass their own assertion.
    Ok(Expansion(resolved.0, FromU32(resolved.0, resolved.0).value, FromU32(resolved.0, 0).value, consts, resolved.1))
  }

  /** A second `#[max]` is rejected. */
  lemma TwoMaxAttributesPanic(n: u32, m: u32)
    ensures ResolveMax([Attr(Some("max"), Some(n)), Attr(Some("max"), Some(m))]) == Fail(Panic)
  {
    var attrs := [Attr(Some("max"), Some(n)), Attr(Some("max"), Some(m))];
    assert attrs[1..] == [Attr(Some("max"), Some(m))];
  }

  /** The crate's test: with `#[max = 2]`, `from_u16(1) + 1` is accepted and
      yields 2, while one more step would exceed the bound. */
  lemma MaxTwoTest()
    ensures ResolveMax([Attr(Some("max"), Some(2))]) == Ok((2, []))
    ensures FromU16(2, 1) == Ok(Idx(1))
    ensures Add(2, Idx(1), 1) == Ok(Idx(2))
    ensures Add(2, Idx(2), 1) == Fail(Panic)
  {
    var attrs := [Attr(Some("max"), Some(2))];
    assert attrs[1..] == [];
  }
}
